=== FILE: README.md ===
# Multi-class blue-noise sampling, modelled in Dafny

This project models the generation engine of a multi-class blue-noise
sampler. The engine places points of several classes in the unit square so
that points of the same class, and points of different classes, keep a
minimum distance that depends on the classes' radii. Three strategies
share one skeleton:

- **Hard** (`Hard.h`): dart throwing with hard disks. Each class has one
  radius. An inter-class separation matrix (the "r matrix") is built from
  density bands of equal radius.
- **HardAdaptive** (`HardAdaptive.h`): the same loop on a pixel grid.
  Each class reads its radius from an image, and every pixel has its own r
  matrix.
- **Soft** (`Soft.h`): best-candidate sampling. It scores candidates with a
  sum of Gaussian bumps around the existing points. Those points are found
  through one bucket grid per class (`Grid.h`).

The skeleton, shared by all three:

1. Sort the classes from largest to smallest radius.
2. Give each class its share of the target count.
3. Repeatedly serve the least filled class.
4. In the hard strategies, evict conflicting points every so often.
5. Finally unsort the classes back into the caller's order.

The pure parts of the driver in `main.cpp` are modelled too:

- the class histogram;
- which classes each output image shows;
- the image name masks;
- the spectrum driver's patterns;
- the clamped pixel index;
- the 3 × 3 tiled copy of the last image.

Modules, in dependency order:

| module | file | what it holds |
|---|---|---|
| `MathUtils` | `MathUtils.dfy` | `Vec2`, `Clamp`, `Dot`, the wrapped toroidal metric, C++ truncation, `/` and `%` |
| `Points` | `Points.dfy` | class-tagged points, `erase`, per-class counts |
| `Layers` | `Layers.dfy` | the radius sort, target counts, IEEE-style fill ratios, the least-filled scheduler, the unsort step |
| `Grid` | `Grid.dfy` | the bucket grid: `AddPoint`, `RemovePoint`, `GetPoints`, `GetPointDistancesSq` |
| `Separation` | `Separation.dfy` | the r matrix: a closed form and the source's band loop, proved equal |
| `Engine` | `Engine.dfy` | the state and outcomes shared by the hard strategies, and eviction |
| `Hard`, `HardAdaptive`, `Soft` | `Hard.dfy`, `HardAdaptive.dfy`, `Soft.dfy` | the three strategies |
| `Images` | `Images.dfy` | the `main.cpp` fragments |

How the model stands in for the source:

- **Floats** are exact reals. An IEEE quotient `s / t` is a `Fill` value
  with `NegInf`, `PosInf` and `NaN` cases, because a zero target count
  produces those in the source.
- **`int(...)` and integer `/` and `%`** truncate toward zero
  (`Trunc`, `CDiv`, `CMod`).
- **`sqrt`, `1/sqrt`, `exp` and `pi`** are parameters.
- **The random source** is the sequence of values it yields. A loop that
  runs out of them stops with `DrawsExhausted`.
- **Reading a layer at index -1.** The scheduler can find no eligible
  layer. The source then reads `layers[-1]`, and the model returns
  `Undefined`.

The separation matrix follows the code where the written description of the
algorithm differs:

- **Same-band entries stay zero.** Inside one band of equal radii the
  off-diagonal entries keep their initial `0` (`Hard.h:78-82` only writes
  pairs whose earlier layer lies before the band). The description gives
  them the `1/sqrt` density term.
- **No grouping per pixel.** The adaptive strategy's per-pixel matrices
  never group equal radii (`HardAdaptive.h:134` closes every band after one
  layer). The model builds them with `grouped = false`.

## Model

| member | source | states |
|---|---|---|
| MathUtils.Clamp | MathUtils.h:5-12 | the result lies in `[themin, themax]`, equals the value when already inside, and is always one of the value and the two bounds |
| MathUtils.ClampIdempotent | MathUtils.h:5-12 | clamping a clamped value changes nothing |
| MathUtils.Dot | MathUtils.h:14-21 | a vector's dot product with itself is never negative |
| MathUtils.Wrap | MathUtils.h:37-38 | a wrapped component is the smaller of `f` and `1 - f`, and lies in `[0, 0.5]` for `f` in `[0, 1]` |
| MathUtils.ToroidalDistanceSq | MathUtils.h:32-41 | the squared toroidal distance is never negative |
| MathUtils.ToroidalAtMostEuclidean | MathUtils.h:32-41 | inside the unit square the toroidal distance never exceeds the plain distance |
| MathUtils.ToroidalDistanceAsymmetric | MathUtils.h:35-38 | the metric is not symmetric: the distance from (0,0) to (0.75,0) is 0.0625 squared, the reverse is 0.5625 |
| MathUtils.Trunc | Hard.h:50 | C++ float-to-int conversion truncates toward zero: the result is within 1 of `x`, on `x`'s side of zero |
| MathUtils.CDiv | Hard.h:23 | C++ `/` on ints: the magnitude is the quotient of the magnitudes, and the sign is the product of the operands' signs |
| MathUtils.CMod | Hard.h:121 | C++ `%` satisfies `a == b * (a / b) + a % b`, and agrees with the mathematical remainder on non-negative operands |
| Points.Erase | Hard.h:158 | `erase(k)` keeps the elements before `k` and shifts every later one down by one |
| Points.CountErase | Hard.h:157-158 | erasing a point lowers its own class's count by one and no other class's count |
| Points.CountPush | Hard.h:143-144 | appending a point raises its own class's count by one and no other class's count |
| Points.CountAllClasses | main.cpp:62-67 | summed over every class, the per-class counts give the number of points |
| Layers.SortByKey | Hard.h:33-40 | the order is a permutation of `0..n-1` listing the radii from largest to smallest |
| Layers.SortedLayersOrdered | Hard.h:25-40 | the layers built from that order have non-increasing radii and are a permutation of the caller's layers |
| Layers.PermutationDistinct | Hard.h:26-31 | a permutation of the caller's indices names no layer twice |
| Layers.TargetCounts | Hard.h:42-52 | each layer's target lies between 0 and the total and is its real share `T · w_i / Σ w` rounded down: at most the share and more than the share minus one |
| Layers.TargetCountsSum | Hard.h:42-52 | the target counts never add up to more than the requested total |
| Layers.TargetCountsMonotone | Hard.h:47-51 | along the sorted order a smaller radius never gets a smaller target |
| Layers.FillOf | Hard.h:107 | the fill ratio is the exact quotient for a non-zero target, and non-finite for a zero target |
| Layers.FillCrossMultiply | Hard.h:107-108 | with positive targets, comparing fills is comparing `s1 · t2` with `s2 · t1` |
| Layers.LeastFilled | Hard.h:102-113 | no layer is chosen exactly when no fill lies below `FLT_MAX`; otherwise the choice is the first layer with the least fill |
| Layers.Relabel | Hard.h:180-186 | a swap of layers `i` and `j` moves class `i` to `j` and leaves other classes alone; class `j` goes to the literal 1 as written, to `i` as intended |
| Layers.RelabelLiteralIsSwapOnlyAtOne | Hard.h:182-185 | the literal relabel equals the true swap exactly when `i == 1` |
| Layers.FindLayer | Hard.h:173-176 | the search finds the first position from `j` on holding caller layer `i`, or reports that there is none |
| Layers.Unsort | Hard.h:170-191 | unsorting keeps the number of layers, the number of points and every position, and keeps class indices in range |
| Layers.UnsortRestoresOrder | Hard.h:170-191 | after the unsort, position `k` holds the caller's layer `k` |
| Layers.UnsortRestoresCallerClasses | Hard.h:170-191 | with the intended swap, every point gets the caller's index of the layer it was generated in |
| Layers.UnsortAsWrittenMislabels | Hard.h:185 | as written, a point of caller class 0 (sorted position 2 of 3) comes back labelled 1 |
| Grid.Empty | Grid.h:9-14 | a new grid has its dimensions, every cell empty, and is consistent |
| Grid.ToCell | Grid.h:16-24 | a coordinate in `[0, 1)` falls in a cell of range `0..n-1` |
| Grid.ToCellMonotone | Grid.h:16-24 | cell coordinates never decrease as the coordinate grows |
| Grid.AddPoint | Grid.h:119-124 | the entry is appended to the cell its coordinates select, every other cell is unchanged, and consistency is kept |
| Grid.AddPointMirrors | Grid.h:119-124 | appending a class-`c` point to the list and bucketing it under its list position keeps the grid in step with the list |
| Grid.RemoveFromCellInPlace | Grid.h:130-140 | the backward in-place pass over a cell (erase index `k`, decrement larger indices) gives the entry-wise removal |
| Grid.RemoveFromCellMembers | Grid.h:130-140 | an entry survives a cell's removal exactly when it is the renumbered form of an entry whose index is not `k` |
| Grid.RemovePoint | Grid.h:126-142 | afterwards the grid stores exactly the entries of the other points, those above the removed index renumbered one lower, at their old coordinates and cells |
| Grid.RemovePointConsistent | Grid.h:126-142 | removal keeps every survivor in the cell its coordinates select |
| Grid.RemovePointMirrors | Grid.h:126-142 | erasing point `k` from the list and removing `k` from the grid keeps the two in step |
| Grid.WrapCell | Grid.h:47-51 | `(i + n) % n`, computed in `size_t` (modulo `2^64`), is a valid cell for every `i`; it is the Euclidean `i mod n` whenever `i + n` does not wrap, and leaves in-range cells alone |
| Grid.WrapCellBelowRange | Grid.h:47-51 | a box reaching more than one grid width below zero wraps through `2^64`: `i = -150`, `n = 100` visits cell 66, not the Euclidean remainder 50 |
| Grid.Span | Grid.h:37-43 | the clamped span of a query box lies within the grid |
| Grid.GetPoints | Grid.h:26-76 | the result starts with the old results when appending (an empty list otherwise); with `stopAfterFirst` it adds at most one index |
| Grid.GetPointsSound | Grid.h:26-76 | every index added names a stored resident closer than `radius` |
| Grid.GetPointsComplete | Grid.h:37-43 | in clamped mode, every stored resident closer than `radius` is returned |
| Grid.ScanCovers | Grid.h:37-43 | the clamped cell span visits every resident within `radius` on both axes |
| Grid.GetPointDistancesSq | Grid.h:78-117 | the old results are kept or cleared as asked, and every added distance lies in `[0, radius²)` |
| Grid.ZeroRadiusFindsNothing | Grid.h:112 | a query of radius zero reports nothing |
| Grid.GetPointDistancesSqComplete | Grid.h:78-117 | in clamped mode, every stored resident closer than `radius` has its squared distance among those added |
| Grid.QueryLength | Grid.h:84-116 | with at most `s` residents per cell, a query reports at most `Reach(radius, cellsY) · Reach(radius, cellsX) · s` distances, `Reach` bounding the cells its box spans on one axis |
| Grid.DistancesOfMirrored | Grid.h:78-117 | on a grid that mirrors the class-`c` points, every distance reported is the distance to some class-`c` point |
| Separation.BandStart | Hard.h:66-73 | a band is a maximal run of equal radii when grouped, and a single layer otherwise |
| Separation.BandEnd | Hard.h:72-73 | the band end is the first position past `k` with a different radius (grouped) or `k + 1` (ungrouped) |
| Separation.SameBandIffEqualRadius | Hard.h:72-73 | with sorted radii, two layers share a band exactly when their radii are equal |
| Separation.RMatrix | Hard.h:54-84 | the matrix is square and symmetric with the radii on its diagonal; a same-band pair gets 0, any other pair gets `1/sqrt` of the density summed up to the later layer's band |
| Separation.EntryTable | Hard.h:54-84 | any square table of the per-entry definition has those same properties |
| Separation.MakeRMatrix | Hard.h:54-84 | the source's loop (fill with zeros, radii on the diagonal, band by band) yields exactly the closed-form matrix |
| Separation.ScanBand | Hard.h:72-73 | the inner `while` ends at the band end, and every layer it passes belongs to the band |
| Separation.AddDensity | Hard.h:75-76 | the density loop adds `1/r²` for each layer of the band |
| Separation.UngroupedEntries | HardAdaptive.h:125-144 | without grouping, entry `[i][j]` with `j < i` is `1/sqrt` of the density of layers `0..i` |
| Separation.UngroupedNonZero | HardAdaptive.h:125-144 | without grouping no entry is zero, given a positive `1/sqrt` |
| Separation.PixelRMatrices | HardAdaptive.h:106-145 | at every pixel a square matrix with the layers' local radii on the diagonal and, off it, `invSqrt` of the density `Σ 1/r²` of the local radii of layers `0..max(i, j)`, the same both ways round |
| Separation.PixelIndexRoundTrip | HardAdaptive.h:113-114 | the pixel `i` is read back from `(i % W, i / W)` |
| Engine.Bump | Hard.h:144 | adding to one layer's sample count leaves every other layer, and that layer's other fields, unchanged |
| Engine.StartLayers | Hard.h:25-52 | the start layers are the caller's radii in non-increasing order, a permutation of the caller's layers, each with no samples and with its `TargetCounts` share of the total computed over the sorted radii |
| Engine.StartLayersOrder | Hard.h:26-40 | the k-th start layer is the caller's layer the radius sort puts k-th, so the sort order is the one the relabelling later undoes |
| Engine.CountsMatchPush | Hard.h:143-144 | accepting a point and bumping its layer keeps every count equal to the number of its points |
| Engine.ReverseSorts | Hard.h:152 | the conflict list, ascending as collected, sorted with `b < a` is its reverse: strictly descending, same elements |
| Engine.Evict | Hard.h:155-161 | eviction keeps the layers but their counts, removes one point per listed position, and keeps counts in step with the points |
| Engine.EvictSurvivors | Hard.h:155-161 | erasing positions in descending order removes exactly the listed positions and keeps the rest in order |
| Engine.EvictPairwise | Hard.h:155-161 | eviction keeps a subsequence, so every pairwise spacing property survives it |
| Engine.UnsortKeepsPairwise | Hard.h:170-191 | after the intended unsort, every pairwise property of the sorted run holds of the caller-labelled points read back through the sort order |
| Engine.RelabelKeepsPairwise | Hard.h:170-191 | renaming every sorted class `c` to `order[c]`, with `order` free of repeats, turns a pairwise property of the points into the same property read through `order` |
| Hard.ScanPoints | Hard.h:118-138 | `satisfies` holds exactly when no point blocks the candidate; removal stays on exactly when every blocker is evictable; the conflicts are ascending, blocking positions, and all of them when removal is on |
| Hard.Step | Hard.h:102-165 | the step is undefined exactly when no layer is eligible or the eviction period is zero; otherwise it accepts, evicts, rejects or gives up as the scan dictates, and keeps the state valid |
| Hard.Respond | Hard.h:115-165 | for the least filled layer the outcome is the one the scan dictates, and valid states stay valid |
| Hard.AcceptValid | Hard.h:140-145 | accepting a point that nothing blocks keeps every pair of points apart and the counts in step |
| Hard.EvictValid | Hard.h:150-162 | evicting the collected conflicts removes exactly the blocking points and keeps the state valid |
| Hard.Run | Hard.h:93-166 | the loop ends `Filled` exactly when the target is reached, with the removal budget spent, or abandoned past the fatal limit; it never overshoots the target and keeps the state valid |
| Hard.Limits | Hard.h:22-23 | the fatal limit is 5 times the target and the eviction period is the target halved, truncated toward zero: its size is half the target's, rounded down, and its sign is the target's |
| Hard.Setup | Hard.h:25-84 | the order sorts the caller's radii into non-increasing order; the layers carry those radii and their truncated shares of the target; the matrix is the grouped r-matrix of the sorted radii; the limits are those of `Limits`; no points yet |
| Hard.Finish | Hard.h:86-193 | the result has caller classes only and never exceeds the target; with the intended relabel, same-class points keep their radius apart |
| Hard.Relabel | Hard.h:168-193 | handing the finished run back keeps its exit and its number of points and uses caller classes only; with the intended relabel, same-class and cross-class spacing both carry over |
| Hard.RunWithoutRemoval | Hard.h:121 | with a zero eviction period, `% 0` makes the first iteration undefined |
| Hard.UnsortedApart | Hard.h:170-191 | with the intended relabelling, two points of one caller class are at least that class's radius apart |
| Hard.Build | Hard.h:20-194 | caller classes only, at most the target, `Filled` exactly at the target, nothing for a non-positive target, undefined once the eviction period is zero |
| Hard.Make | Hard.h:20-194 | as written: with the limits frozen by a first call for at most one point, every later call with draws is undefined; a zero-point first call is itself defined and returns no points, while a one-point first call already divides by zero |
| Hard.MakeIntended | Hard.h:20-194 | as intended: same-class points keep the class's radius apart; any two points, of any caller classes, keep the r-matrix entry of their sorted layers apart; only a single-point target leaves the eviction period zero |
| Hard.UnsortedCallerApart | Hard.h:122-130 | the r-matrix test of the sorted run, across classes as well as within one, holds of the unsorted points in caller classes |
| Hard.SortedApartIsCallerApart | Hard.h:122-130 | the r-matrix test stated through the sort order is the same test on the caller's classes and the caller-order matrix entries |
| Hard.IntendedKeepsFirstDart | Hard.h:20-145 | one layer, target ≥ 2, one draw: as intended the first dart is accepted and returned |
| Hard.FirstDartAccepted | Hard.h:22-23 | one layer, target ≥ 2, one draw: as intended the dart is kept; a zero-point call is defined and returns no points, and with the limits it freezes the same run is undefined |
| HardAdaptive.PointOf | HardAdaptive.h:177-182 | a drawn pixel below `(W-1, H-1)` maps into the unit square |
| HardAdaptive.PixelAt | HardAdaptive.h:197-202 | the clamped look-up pixel of an existing point is always inside the image |
| HardAdaptive.DrawPixelRoundTrip | HardAdaptive.h:193-202 | an accepted point is looked up again at the very pixel it was drawn at |
| HardAdaptive.ScanPoints | HardAdaptive.h:190-220 | `satisfies` holds exactly when no point blocks; removal stays on exactly when every blocker is evictable; the conflicts are ascending blocking positions, all of them when removal stays on |
| HardAdaptive.Step | HardAdaptive.h:162-249 | undefined exactly when no layer is eligible or the eviction period is zero; otherwise accept, evict, reject or give up as the scan dictates, keeping the state valid |
| HardAdaptive.Respond | HardAdaptive.h:175-249 | for the least filled layer the outcome is the one the scan dictates, and valid states stay valid |
| HardAdaptive.Accepted | HardAdaptive.h:222-227 | a candidate no point blocks joins the least filled layer, the failure count returns to zero, and the state stays valid |
| HardAdaptive.Evicted | HardAdaptive.h:228-246 | when removal is considered, every conflicting point goes, the removal total grows by their number, and the state stays valid |
| HardAdaptive.Failed | HardAdaptive.h:228-249 | a blocked candidate that may not evict costs one failure, and the loop gives up exactly when the failure count passes the fatal limit |
| HardAdaptive.AcceptValid | HardAdaptive.h:222-227 | accepting an unblocked drawn point keeps the state valid |
| HardAdaptive.EvictValid | HardAdaptive.h:232-246 | evicting the collected conflicts removes exactly the blocking points and keeps the state valid |
| HardAdaptive.Run | HardAdaptive.h:153-250 | the same exits and bounds as the hard loop, one pixel draw per iteration |
| HardAdaptive.Continue | HardAdaptive.h:153-250 | after one iteration's outcome the loop keeps the same exits and bounds as `Run` |
| HardAdaptive.PixelMatrices | HardAdaptive.h:106-145 | one square matrix per pixel, with no zero entry and the sorted layers' image radii at that pixel on its diagonal |
| HardAdaptive.Configure | HardAdaptive.h:67-145 | the matrices are the per-pixel ungrouped matrices of the layers in the given order; the fatal limit is 20 times the target and the eviction period is a tenth of it, truncated |
| HardAdaptive.Setup | HardAdaptive.h:84-145 | the order sorts the layers by non-increasing expected radius; the layers carry their truncated shares of the target; each pixel's matrix is the ungrouped r-matrix of the sorted layers' image radii at that pixel; the limits are those of `Configure`; no points yet |
| HardAdaptive.RunWithoutRemoval | HardAdaptive.h:185 | below ten points the eviction period is zero and the first iteration is undefined |
| HardAdaptive.PairApart | HardAdaptive.h:203-207 | with the squared threshold, a surviving pair is separated by the mean of the two pixels' radii |
| HardAdaptive.UnsortedApart | HardAdaptive.h:254-275 | with the squared threshold and the intended relabelling, same-class points pass the separation test of their class's image |
| HardAdaptive.Build | HardAdaptive.h:67-277 | caller classes only, at most the target, `Filled` exactly at the target, nothing for a non-positive target, undefined below ten points |
| HardAdaptive.Make | HardAdaptive.h:67-277 | as written: caller classes only, at most the target, undefined below ten points |
| HardAdaptive.MakeIntended | HardAdaptive.h:67-277 | as intended: same-class points pass their class's separation test, and any two points, of any caller classes, pass the squared test with the mean of their pixels' entries for their sorted layers |
| HardAdaptive.UnsortedCallerApart | HardAdaptive.h:202-207 | the per-pixel test of the sorted run, across classes as well as within one, holds of the unsorted points in caller classes |
| HardAdaptive.SortedApartIsCallerApart | HardAdaptive.h:202-207 | the per-pixel test stated through the sort order is the same test on the caller's classes |
| HardAdaptive.UnsquaredThresholdRejects | HardAdaptive.h:207 | as written, points 0.2 apart are judged closer than a threshold of 0.1 |
| HardAdaptive.SquaredThresholdIsDistance | HardAdaptive.h:207 | with the threshold squared, the test is exactly "closer than the threshold" |
| Soft.RadiusPositive | Soft.h:25-26 | a class's radius is positive for a positive count, given positive `pi` and square root |
| Soft.RadiusAntitone | Soft.h:25-26 | a class of fewer points gets a strictly larger radius |
| Soft.KernelSign | Soft.h:118-119 | with a positive `exp`, a class's kernel sum is never negative, and zero exactly when no neighbour was found |
| Soft.Neighbours | Soft.h:113-117 | the query for class `k` around a candidate has radius `3 sigma`, `sigma = m[c][k] / 4`, and reports squared distances in `[0, (3 sigma)²)` |
| Soft.NeighboursComplete | Soft.h:113-117 | in clamped mode, every class-`k` point closer than `3 sigma` to the candidate has its squared distance reported |
| Soft.NeighboursAreClassPoints | Soft.h:113-117 | every distance reported is that of a class-`k` point |
| Soft.ZeroSigmaFindsNothing | Soft.h:113-117 | a zero entry of the r matrix queries radius zero and finds nothing |
| Soft.NeighbourLists | Soft.h:111-117 | one list per class: list `k` is class `k`'s query, empty for a zero sigma |
| Soft.PotentialZeroIffEmpty | Soft.h:110-120 | the summed kernels are never negative, and zero exactly when no class has a neighbour |
| Soft.ScoreZeroIffAlone | Soft.h:109-120 | with a positive `exp`, a score is never negative, and zero exactly when every class's query reports nothing |
| Soft.KernelAtMostCount | Soft.h:118-119 | with `exp` in `(0, 1]` on non-positive arguments, a class's kernel sum is at most its number of neighbours |
| Soft.ScoreAtMost | Soft.h:109-120 | on grids with at most `s` residents per cell, a score is at most `RowReach(m[c]) · s`, the number of residents the queries can reach |
| Soft.ListsAtMostReach | Soft.h:111-120 | on grids with at most `s` residents per cell, the queries for one candidate report at most `RowReach(m[c]) · s` distances in all |
| Soft.NeighboursAtMostReach | Soft.h:113-117 | one class's query reports at most the residents of the cells its box covers |
| Soft.Best | Soft.h:122-127 | no candidate is chosen exactly when every score is at least `FLT_MAX`; otherwise the first candidate with the least score |
| Soft.Scores | Soft.h:105-120 | one score per candidate, in draw order |
| Soft.PlaceValid | Soft.h:130-133 | pushing the point, bumping its layer and bucketing it in its class grid keeps grids, list and counts in step |
| Soft.Place | Soft.h:88-133 | one iteration is undefined when no layer is eligible; it runs out of draws exactly when fewer than `n · multiplier + 1` are left; otherwise it appends the first best of those candidates to the least filled layer |
| Soft.Pick | Soft.h:101-133 | the iteration is undefined exactly when every score is at least `FLT_MAX` (the best candidate is never set) or the first best candidate has a coordinate of 1.0 (`AddPoint` indexes past the grid); otherwise it places the first best-scoring candidate and the state stays valid |
| Soft.ScoresBelowMax | Soft.h:101-128 | while points are missing and `RoomFor` holds, every candidate scores below `FLT_MAX` |
| Soft.PlaceDefined | Soft.h:88-133 | under `Defined` (non-negative multiplier, `exp` in `(0, 1]` on non-positive arguments, draws in `[0, 1)²`, `RoomFor`), an iteration while points are missing is never undefined |
| Soft.RunDefined | Soft.h:79-134 | under `Defined`, the loop from an on-track state always finishes |
| Soft.ContinueDefined | Soft.h:79-134 | under `Defined`, the loop after a defined iteration always finishes |
| Soft.Run | Soft.h:79-134 | the loop keeps the points already placed, never goes beyond the total, and ends `Filled` exactly when the total is reached |
| Soft.Continue | Soft.h:79-134 | the loop after one iteration keeps the same promises |
| Soft.RunStaysOnTrack | Soft.h:88-132 | from a start where no layer is over its target, no layer ever goes over it |
| Soft.LeastBelowTarget | Soft.h:88-99 | while points are missing, the least filled layer is below its target |
| Soft.FilledExactly | Soft.h:79-134 | a run that fills up leaves every layer with exactly its target count |
| Soft.PermutedTotal | Soft.h:20-30 | the counts read in sorted order add up to the caller's total |
| Soft.SortedStart | Soft.h:20-40 | the layers are the caller's counts sorted by non-increasing radius; each targets its own count, and none has samples |
| Soft.Prepare | Soft.h:18-72 | the setup starts with empty grids and no points, the grouped matrix of the sorted radii, and layers on track for the total |
| Soft.UnsortedCounts | Soft.h:138-159 | with the intended relabelling, each caller class gets exactly its count |
| Soft.Build | Soft.h:16-162 | caller classes only, at most the total, `Filled` exactly at the total; with the intended relabelling every class gets exactly its count; under `Safe` it always generates |
| Soft.Complete | Soft.h:79-162 | from a prepared start, the loop plus unsort delivers the same promises, and under `Defined` always generates |
| Soft.IntendedCounts | Soft.h:79-159 | a run that fills up, unsorted with the true swap, gives every caller class exactly its count |
| Soft.Make | Soft.h:16-162 | as written: caller classes only, at most the total, `Filled` exactly at the total; under `Safe` it always generates |
| Soft.MakeIntended | Soft.h:16-162 | as intended: a run that fills up returns exactly `counts[i]` points of each caller class `i`; under `Safe` it always generates |
| Images.Width | main.cpp:62-67 | the histogram's length exceeds every class index |
| Images.WidthAttained | main.cpp:62-67 | the length is the least one that does: some point has the last class |
| Images.ClassCounts | main.cpp:62-67 | the histogram is defined exactly when no class index is negative; entry `c` is the number of class-`c` points |
| Images.HistogramTotal | main.cpp:62-67 | the histogram entries add up to the number of points |
| Images.LastImageHasAllClasses | main.cpp:130-153 | the last of the `2^n - 1` images shows every class |
| Images.ImagesDiffer | main.cpp:151-153 | two distinct images differ in at least one class they show |
| Images.Mask | main.cpp:161-166 | the mask has one character per class |
| Images.MaskAt | main.cpp:161-166 | character `n - 1 - j` is `'1'` exactly when class `j` is shown |
| Images.MaskRoundTrip | main.cpp:161-166 | reading a mask as binary gives back the image's class set |
| Images.MaskValueRoundTrip | main.cpp:161-166 | every binary string is the mask of the set it reads as |
| Images.MaskNamesDistinct | main.cpp:161-166 | no mask is all zeros, and no two images share a mask |
| Images.MaskString | main.cpp:161-166 | the name loop yields the mask of image `i` |
| Images.Patterns | main.cpp:257-264 | the spectrum driver visits `2^n - 1` patterns, pattern `i` being image `i`'s mask |
| Images.PixelCoord | main.cpp:148-149 | the clamped pixel coordinate always lies inside the image |
| Images.PixelCoordOfUnit | main.cpp:148-149 | inside the unit interval the clamp changes nothing: it is the floor of `f · size` |
| Images.PixelIndex | main.cpp:156 | the row-major index `y · size + x` lies inside the image |
| Images.BwImage | main.cpp:151-156 | the black-and-white image is white except for black pixels exactly under points of the classes it shows |
| Images.Paste | main.cpp:187 | `memcpy` overwrites exactly the target range and nothing else |
| Images.Tile | main.cpp:176-195 | the tiled buffer has `27 · size²` bytes; every byte of each of the three copies of a tiled row is the corresponding byte of source row `r mod size` |
| Images.TiledPixel | main.cpp:183-195 | tiled pixel `(x, y)` is source pixel `(x mod size, y mod size)` |

## Left out

- `LoadImage` in `HardAdaptive.h`: it is PNG decoding. The model takes each
  layer's image as a list of per-pixel radii, one per pixel, none zero,
  together with its expected radius.
- Progress `printf`, file output, `stbi_*`, `DrawDot` and colour
  conversion: output only.
- Random number generation (`Random.h`, `RNGDiscreteParams`): the draws are
  an input sequence. Hard draws are any points; Soft draws are any points
  too, and a chosen candidate with a coordinate of 1.0, which
  `RandomFloat01` can return, makes the iteration undefined (`Soft.Pick`);
  adaptive draws are pixels below `(W-1, H-1)`.
- `IndexToColor.h`, `MultiDFT.py` and the `system` call of the spectrum
  driver: colouring, external analysis and process spawning.
- Floating point: every `float` is an exact real. Rounding, overflow to
  infinity and the float accumulation order are not modelled, except for
  the non-finite fills of zero targets.
- `sqrt`, `1/sqrt`, `exp` and `pi` are function parameters. Where a
  property needs them, a precondition states their sign (`exp` positive,
  `1/sqrt` positive on positive arguments).
- `std::sort` is not stable. The model uses a stable insertion sort, so
  equal radii keep the caller's order.
- `int` is unbounded: the 32-bit overflow of `failCount`, `pointsRemoved`
  and `candidateCount` is not modelled. Neither is the width of the `int`
  shifts `1 << classCounts.size()`, `1 << p.classIndex`, `1 << j` and `1 << numClasses`
  (main.cpp:130, 153, 165, 259, 264), which are undefined from 31 classes
  on: `Images.Pow2` and `Images.Bit` are exact for every class count.
- `DrawsExhausted` is a model artefact: the source never runs out of random
  numbers.
- Separation.MakeRMatrix: the accumulated density is exact, not a float
  running sum.
- Grid.GetPointsComplete: completeness is proved only in clamped mode. In
  toroidal mode only soundness (`Grid.GetPointsSound`) is stated.
- Grid.GetPointDistancesSqComplete: likewise clamped mode only; in toroidal
  mode only soundness (`Grid.DistancesOfMirrored`) is stated.
- Soft.ScoreZeroIffAlone: it states "every query reports nothing". In clamped
  mode `Soft.NeighboursComplete` makes that "no class point within
  `3 sigma`"; in toroidal mode that step is not proved.
- Soft.MakeIntended (also `Soft.Make`, `Soft.Build`, `Soft.Complete`): that
  a run generates is proved under `Safe`, whose `RoomFor` part asks that the
  residents all queries can reach, times the total, stay below `FLT_MAX`.
  The model has no other bound on a score, and the source leaves
  `bestCandidate` unset when every score reaches `FLT_MAX`.
- Grid.Empty: the cell counts are at most `2^31 - 1`, because the clamped
  span casts them to `int` (`Grid.h:40`).
- Soft.Make: it does not state per-class counts, because the literal-1
  relabel of the unsort breaks them (see Findings).
- Hard.Make: it does not state same-class separation, because the literal-1
  relabel breaks it.
- HardAdaptive.Make: it does not state same-class separation, because the
  unsquared threshold and the literal-1 relabel both break it.
- Radii equal to zero and the non-positive `counts` of `Soft.h` are outside
  the model. A zero radius divides by zero in the target share
  (`Hard.h:46`); a zero count divides by zero in the radius (`Soft.h:26`).
  The strategies require non-zero radii and positive counts.
- The image-building loop of `main.cpp` when the point list is empty: it
  reads `images[-1]` (`main.cpp:185`). The tile copy is modelled for a given
  source image.

## Findings

| source | as written | input that shows it | evidently intended | confidence | as-written member | corrected member |
|---|---|---|---|---|---|---|
| Hard.h:185 (also Soft.h:153, HardAdaptive.h:269) | when layers `i` and `j` are swapped back, points of class `j` are relabelled to the literal `1` | three layers with radii 0.01, 0.02, 0.04 (sorted to caller order 2, 1, 0); a point generated in sorted layer 2, which is caller layer 0, is labelled 1 | relabel class `j` to `i`, a true swap | not executed | Layers.UnsortAsWrittenMislabels | Layers.UnsortRestoresCallerClasses |
| HardAdaptive.h:207 | the squared toroidal distance is compared with the unsquared mean radius | points 0.2 apart with threshold 0.1: squared distance 0.04 < 0.1 counts as a conflict | compare with the squared threshold, or the plain distance | not executed | HardAdaptive.UnsquaredThresholdRejects | HardAdaptive.SquaredThresholdIsDistance |
| Hard.h:22-23 | the failure limits are `static const` locals, fixed by the first call of each instantiation | one layer; a first call for 0 points, which runs no iteration and returns an empty list, fixes the eviction period at 0, so a later call for 2 points is undefined (`% 0`) on its first draw | compute the limits from each call's target count | not executed | Hard.FirstDartAccepted | Hard.IntendedKeepsFirstDart |

=== FILE: Engine.dfy ===
/** Pieces shared by the dart-throwing loops of `Hard` and `HardAdaptive`
    and by `Soft`: the fill fractions of the layers, the per-class sample
    counts kept in step with the point list, eviction of conflicting points
    highest index first, and the shape of a run's outcome. */
module Engine {
  import opened MathUtils
  import opened Points
  import opened Layers

  /** Why a generation loop stopped. */
  datatype Exit =
    | Filled          // the point list reached the target size
    | RemovalBudget   // as many points were evicted as the target size
    | Abandoned       // too many failures in a row without an eviction
    | DrawsExhausted  // the random input ran out

  /** What a strategy returns; `Undefined` stands for a run that reaches
      behaviour C++ leaves undefined (reading `layers[-1]`, `x % 0`, an
      uninitialised candidate, an out-of-range cell). */
  datatype Generated = Generated(points: seq<Point>, exit: Exit) | Undefined

  /** The state of a dart-throwing loop; layer and class indices are the
      sorted ones. */
  datatype State = State(layers: seq<Layer>, points: seq<Point>, failCount: int, pointsRemoved: int)

  /** What the scan over the existing points reports: whether nothing
      blocks the candidate, whether eviction is still on, and the blocking
      positions collected, in increasing order. */
  datatype Scan = Scan(satisfies: bool, consider: bool, conflicts: seq<int>)

  /** What one iteration does with the drawn point. */
  datatype Move = Accept | EvictAll | Reject

  datatype Outcome = Next(next: State, move: Move) | GiveUp(last: State) | StepUndefined

  datatype RunResult = Ran(final: State, exit: Exit) | RunUndefined

  function Max(a: int, b: int): int {
    if a >= b then a else b
  }

  function LayerFills(ls: seq<Layer>): (f: seq<Fill>)
    ensures |f| == |ls|
    ensures forall k :: 0 <= k < |ls| ==> f[k] == FillOf(ls[k].sampleCount, ls[k].targetCount)
  {
    seq(|ls|, k requires 0 <= k < |ls| => FillOf(ls[k].sampleCount, ls[k].targetCount))
  }

  /** Adds `delta` to the sample count of layer `c`. */
  function Bump(ls: seq<Layer>, c: int, delta: int): (r: seq<Layer>)
    requires 0 <= c < |ls|
    ensures |r| == |ls| && SameLayers(ls, r)
    ensures r[c].sampleCount == ls[c].sampleCount + delta
    ensures forall k :: 0 <= k < |ls| && k != c ==> r[k] == ls[k]
  {
    ls[c := ls[c].(sampleCount := ls[c].sampleCount + delta)]
  }

  /** Two layer lists that differ at most in their sample counts. */
  ghost predicate SameLayers(ls: seq<Layer>, ls': seq<Layer>) {
    && |ls'| == |ls|
    && forall k :: 0 <= k < |ls| ==>
         && ls'[k].radius == ls[k].radius
         && ls'[k].originalIndex == ls[k].originalIndex
         && ls'[k].targetCount == ls[k].targetCount
  }

  lemma SameLayersTrans(a: seq<Layer>, b: seq<Layer>, c: seq<Layer>)
    requires SameLayers(a, b) && SameLayers(b, c)
    ensures SameLayers(a, c)
  {
  }

  /** Every layer's sample count is the number of its points in the list. */
  ghost predicate CountsMatch(ls: seq<Layer>, pts: seq<Point>) {
    forall c :: 0 <= c < |ls| ==> ls[c].sampleCount == CountClass(pts, c)
  }

  /** The layers a hard-disk run starts from: the caller's layers sorted by
      decreasing radius, each with its share of `targetCount` and no
      samples yet. */
  function StartLayers(radii: seq<real>, targetCount: int): (ls: seq<Layer>)
    requires NonZero(radii)
    ensures |ls| == |radii| && multiset(Origs(ls)) == multiset(Range(|radii|))
    ensures forall k :: 0 <= k < |ls| ==>
      0 <= ls[k].originalIndex < |radii| && ls[k].radius == radii[ls[k].originalIndex]
    ensures forall i, j :: 0 <= i < j < |ls| ==> ls[i].radius >= ls[j].radius
    ensures Targeted(ls, targetCount)
    ensures CountsMatch(ls, [])
  {
    var order := SortByKey(radii, |radii|);
    var ls := SortedLayers(radii, order, TargetCounts(Weights(Permute(radii, order)), targetCount));
    assert Origs(ls) == order;
    assert Radii(ls) == Permute(radii, order);
    ls
  }

  /** The start layers are taken in the order the radius sort returns. */
  lemma StartLayersOrder(radii: seq<real>, targetCount: int)
    requires NonZero(radii)
    ensures Origs(StartLayers(radii, targetCount)) == SortByKey(radii, |radii|)
  {
  }

  /** Each layer's target is its truncated share of `total`, weighted by
      `1 / r²` over the layers in their (sorted) order. */
  ghost predicate Targeted(ls: seq<Layer>, total: int) {
    && NonZero(Radii(ls))
    && forall k :: 0 <= k < |ls| ==> ls[k].targetCount == TargetCounts(Weights(Radii(ls)), total)[k]
  }

  /** Accepting a point of class `c` keeps the counts in step. */
  lemma CountsMatchPush(ls: seq<Layer>, pts: seq<Point>, c: int, v: Vec2)
    requires 0 <= c < |ls| && CountsMatch(ls, pts)
    ensures CountsMatch(Bump(ls, c, 1), pts + [Point(c, v)])
  {
    forall k | 0 <= k < |ls|
      ensures Bump(ls, c, 1)[k].sampleCount == CountClass(pts + [Point(c, v)], k)
    {
      CountPush(pts, Point(c, v), k);
    }
  }

  ghost predicate StrictlyIncreasing(s: seq<int>) {
    forall a, b :: 0 <= a < b < |s| ==> s[a] < s[b]
  }

  ghost predicate StrictlyDecreasing(s: seq<int>) {
    forall a, b :: 0 <= a < b < |s| ==> s[a] > s[b]
  }

  function Reverse(s: seq<int>): (r: seq<int>)
    ensures |r| == |s| && forall k :: 0 <= k < |s| ==> r[k] == s[|s| - 1 - k]
  {
    seq(|s|, k requires 0 <= k < |s| => s[|s| - 1 - k])
  }

  function Elements(s: seq<int>): set<int> {
    set k | k in s
  }

  /** Reversing increasing indices below `n` gives decreasing indices below `n`. */
  lemma ReverseInRange(s: seq<int>, n: int)
    requires StrictlyIncreasing(s) && forall j :: 0 <= j < |s| ==> 0 <= s[j] < n
    ensures StrictlyDecreasing(Reverse(s)) && forall k :: 0 <= k < |Reverse(s)| ==> 0 <= Reverse(s)[k] < n
  {
    ReverseSorts(s);
  }

  /** The source sorts the ascending conflict list with `b < a`: the result
      is the same indices, highest first. */
  lemma ReverseSorts(s: seq<int>)
    requires StrictlyIncreasing(s)
    ensures StrictlyDecreasing(Reverse(s)) && Elements(Reverse(s)) == Elements(s)
  {
    var r := Reverse(s);
    forall x | x in Elements(s)
      ensures x in Elements(r)
    {
      var k :| 0 <= k < |s| && s[k] == x;
      assert r[|s| - 1 - k] == x;
    }
  }

  /** Erases the points at the listed positions one by one, lowering the
      sample count of each erased point's layer. */
  function Evict(ls: seq<Layer>, pts: seq<Point>, desc: seq<int>): (r: (seq<Layer>, seq<Point>))
    requires ClassesIn(pts, |ls|) && StrictlyDecreasing(desc)
    requires forall k :: 0 <= k < |desc| ==> 0 <= desc[k] < |pts|
    ensures SameLayers(ls, r.0) && ClassesIn(r.1, |ls|)
    ensures |r.1| == |pts| - |desc|
    ensures CountsMatch(ls, pts) ==> CountsMatch(r.0, r.1)
    decreases |desc|
  {
    if desc == [] then (ls, pts)
    else
      var k := desc[0];
      var ls' := Bump(ls, pts[k].classIndex, -1);
      var pts' := Erase(pts, k);
      assert forall a :: 0 <= a < |desc[1..]| ==> desc[1..][a] < k;
      var r := Evict(ls', pts', desc[1..]);
      EvictCounts(ls, pts, k);
      SameLayersTrans(ls, ls', r.0);
      r
  }

  lemma EvictCounts(ls: seq<Layer>, pts: seq<Point>, k: nat)
    requires ClassesIn(pts, |ls|) && k < |pts|
    ensures CountsMatch(ls, pts) ==> CountsMatch(Bump(ls, pts[k].classIndex, -1), Erase(pts, k))
  {
    if CountsMatch(ls, pts) {
      forall c | 0 <= c < |ls|
        ensures Bump(ls, pts[k].classIndex, -1)[c].sampleCount == CountClass(Erase(pts, k), c)
      {
        CountErase(pts, k, c);
      }
    }
  }

  /** Eviction in descending order erases exactly the listed positions and
      keeps every other point in its original order. */
  lemma {:induction false} EvictSurvivors(ls: seq<Layer>, pts: seq<Point>, desc: seq<int>)
    requires ClassesIn(pts, |ls|) && StrictlyDecreasing(desc)
    requires forall k :: 0 <= k < |desc| ==> 0 <= desc[k] < |pts|
    ensures Evict(ls, pts, desc).1 == Survivors(pts, Elements(desc), |pts|)
    decreases |desc|
  {
    if desc == [] {
      assert Elements(desc) == {};
      SurvivorsNone(pts, |pts|);
      assert pts[..|pts|] == pts;
    } else {
      var k := desc[0];
      var pts' := EvictFirst(ls, pts, desc);
      EvictSurvivors(Bump(ls, pts[k].classIndex, -1), pts', desc[1..]);
      EvictSurvivorsStep(pts, desc);
    }
  }

  /** One step of `Evict`: the first listed position goes, the rest follow. */
  lemma EvictFirst(ls: seq<Layer>, pts: seq<Point>, desc: seq<int>) returns (pts': seq<Point>)
    requires ClassesIn(pts, |ls|) && StrictlyDecreasing(desc) && |desc| > 0
    requires forall k :: 0 <= k < |desc| ==> 0 <= desc[k] < |pts|
    ensures pts' == Erase(pts, desc[0]) && ClassesIn(pts', |ls|)
    ensures StrictlyDecreasing(desc[1..])
    ensures forall k :: 0 <= k < |desc[1..]| ==> 0 <= desc[1..][k] < |pts'|
    ensures Evict(ls, pts, desc).1 == Evict(Bump(ls, pts[desc[0]].classIndex, -1), pts', desc[1..]).1
  {
    pts' := Erase(pts, desc[0]);
    assert forall a :: 0 <= a < |desc[1..]| ==> desc[1..][a] < desc[0];
  }

  /** The set bookkeeping behind one step of `EvictSurvivors`. */
  lemma EvictSurvivorsStep(pts: seq<Point>, desc: seq<int>)
    requires StrictlyDecreasing(desc) && |desc| > 0
    requires forall k :: 0 <= k < |desc| ==> 0 <= desc[k] < |pts|
    ensures Survivors(Erase(pts, desc[0]), Elements(desc[1..]), |pts| - 1)
            == Survivors(pts, Elements(desc), |pts|)
  {
    var k := desc[0];
    assert forall a :: 0 <= a < |desc[1..]| ==> desc[1..][a] < k;
    ElementsBelow(desc[1..], k);
    ElementsCons(desc);
    EraseLast(pts, Elements(desc[1..]), k, Elements(desc));
  }

  /** `SurvivorsErase` over the whole list, with the marked set named. */
  lemma EraseLast(pts: seq<Point>, rest: set<int>, k: nat, all: set<int>)
    requires k < |pts| && all == rest + {k}
    requires forall d :: d in rest ==> d < k
    ensures Survivors(Erase(pts, k), rest, |pts| - 1) == Survivors(pts, all, |pts|)
  {
    SurvivorsErase(pts, rest, k, |pts| - 1);
  }

  lemma ElementsBelow(s: seq<int>, k: int)
    requires forall a :: 0 <= a < |s| ==> s[a] < k
    ensures forall d :: d in Elements(s) ==> d < k
  {
  }

  lemma ElementsCons(s: seq<int>)
    requires |s| > 0
    ensures Elements(s) == Elements(s[1..]) + {s[0]}
  {
    assert s == [s[0]] + s[1..];
  }

  lemma {:induction false} SurvivorsNone(pts: seq<Point>, n: nat)
    requires n <= |pts|
    ensures Survivors(pts, {}, n) == pts[..n]
  {
    if n > 0 {
      SurvivorsNone(pts, n - 1);
      assert pts[..n] == pts[..n - 1] + [pts[n - 1]];
    }
  }

  /** `ok` holds for every pair of points in list order, earlier point first. */
  ghost predicate Pairwise(pts: seq<Point>, ok: (Point, Point) -> bool) {
    forall a, b :: 0 <= a < b < |pts| ==> ok(pts[a], pts[b])
  }

  /** `ok` holds for every pair of points labelled with caller classes once
      each is relabelled with the sorted layer its class was generated in;
      `order[i]` is the caller class of sorted layer `i`. */
  ghost predicate PairwiseSorted(pts: seq<Point>, order: seq<int>, ok: (Point, Point) -> bool) {
    forall a, b, i, j ::
      (&& 0 <= a < b < |pts| && 0 <= i < |order| && 0 <= j < |order|
       && order[i] == pts[a].classIndex && order[j] == pts[b].classIndex) ==>
      ok(Point(i, pts[a].v), Point(j, pts[b].v))
  }

  /** The intended unsort step keeps every pairwise property of the sorted
      run, read back through the sort order. */
  lemma UnsortKeepsPairwise(ls: seq<Layer>, pts: seq<Point>, ok: (Point, Point) -> bool)
    requires multiset(Origs(ls)) == multiset(Range(|ls|))
    requires ClassesIn(pts, |ls|) && Pairwise(pts, ok)
    ensures PairwiseSorted(Unsort(ls, pts, false).points, Origs(ls), ok)
  {
    PermutationDistinct(Origs(ls), |ls|);
    UnsortRestoresCallerClasses(ls, pts);
    RelabelKeepsPairwise(pts, Unsort(ls, pts, false).points, Origs(ls), ok);
  }

  /** Renaming every class `c` to `order[c]`, with `order` free of repeats,
      turns a pairwise property into the same property through `order`. */
  lemma RelabelKeepsPairwise(pts: seq<Point>, u: seq<Point>, order: seq<int>, ok: (Point, Point) -> bool)
    requires ClassesIn(pts, |order|) && Pairwise(pts, ok) && |u| == |pts|
    requires forall i, j :: 0 <= i < j < |order| ==> order[i] != order[j]
    requires forall n :: 0 <= n < |pts| ==> u[n] == Point(order[pts[n].classIndex], pts[n].v)
    ensures PairwiseSorted(u, order, ok)
  {
    forall a, b, i, j | 0 <= a < b < |u| && 0 <= i < |order| && 0 <= j < |order|
        && order[i] == u[a].classIndex && order[j] == u[b].classIndex
      ensures ok(Point(i, u[a].v), Point(j, u[b].v))
    {
      assert u[a] == Point(order[pts[a].classIndex], pts[a].v);
      assert u[b] == Point(order[pts[b].classIndex], pts[b].v);
      assert ok(pts[a], pts[b]);
      assert pts[a] == Point(i, u[a].v) && pts[b] == Point(j, u[b].v);
    }
  }

  /** Appending a point that every earlier point admits keeps the property. */
  lemma PushPairwise(pts: seq<Point>, q: Point, ok: (Point, Point) -> bool)
    requires Pairwise(pts, ok) && forall k :: 0 <= k < |pts| ==> ok(pts[k], q)
    ensures Pairwise(pts + [q], ok)
  {
    var r := pts + [q];
    forall a, b | 0 <= a < b < |r|
      ensures ok(r[a], r[b])
    {
      if b < |pts| {
        assert r[a] == pts[a] && r[b] == pts[b];
      } else {
        assert r[a] == pts[a] && r[b] == q;
      }
    }
  }

  lemma ErasePairwise(pts: seq<Point>, k: nat, ok: (Point, Point) -> bool)
    requires k < |pts| && Pairwise(pts, ok)
    ensures Pairwise(Erase(pts, k), ok)
  {
    var r := Erase(pts, k);
    forall a, b | 0 <= a < b < |r|
      ensures ok(r[a], r[b])
    {
      var a', b' := if a < k then a else a + 1, if b < k then b else b + 1;
      assert a' < b' && r[a] == pts[a'] && r[b] == pts[b'];
    }
  }

  /** Eviction keeps a subsequence, so any pairwise property survives it. */
  lemma {:induction false} EvictPairwise(ls: seq<Layer>, pts: seq<Point>, desc: seq<int>, ok: (Point, Point) -> bool)
    requires ClassesIn(pts, |ls|) && StrictlyDecreasing(desc)
    requires forall k :: 0 <= k < |desc| ==> 0 <= desc[k] < |pts|
    requires Pairwise(pts, ok)
    ensures Pairwise(Evict(ls, pts, desc).1, ok)
    decreases |desc|
  {
    if desc != [] {
      var pts' := EvictFirst(ls, pts, desc);
      ErasePairwise(pts, desc[0], ok);
      EvictPairwise(Bump(ls, pts[desc[0]].classIndex, -1), pts', desc[1..], ok);
    }
  }
}

=== FILE: Grid.dfy ===
/** The per-class bucket grid: a `cellsX × cellsY` partition of the unit
    square whose cells hold `(index, x, y)` entries. `index` names a point of
    the caller's erase-and-shift point list, so removal renumbers the
    entries above the removed index. */
module Grid {
  import opened MathUtils
  import opened Points

  /** One resident of a cell. */
  datatype Entry = Entry(index: int, x: real, y: real)

  /** `cells[cx][cy]` lists the residents of cell `(cx, cy)` in insertion order. */
  datatype Grid = Grid(cellsX: nat, cellsY: nat, cells: seq<seq<seq<Entry>>>)

  /** The largest `int`: the clamped spans cast the cell counts to `int`. */
  const IntMax: int := 0x7FFF_FFFF

  /** The modulus of `size_t` arithmetic. */
  const SizeModulus: int := 0x1_0000_0000_0000_0000

  /** The grid has the dimensions it was built with. */
  ghost predicate Shaped(g: Grid) {
    && 0 < g.cellsX <= IntMax && 0 < g.cellsY <= IntMax
    && |g.cells| == g.cellsX
    && forall i :: 0 <= i < |g.cells| ==> |g.cells[i]| == g.cellsY
  }

  /** A freshly constructed grid: every cell empty. */
  function Empty(cellsX: nat, cellsY: nat): (g: Grid)
    requires 0 < cellsX <= IntMax && 0 < cellsY <= IntMax
    ensures Shaped(g) && Consistent(g) && g.cellsX == cellsX && g.cellsY == cellsY
    ensures forall i, j :: 0 <= i < |g.cells| && 0 <= j < |g.cells[i]| ==> g.cells[i][j] == []
  {
    Grid(cellsX, cellsY, seq(cellsX, _ => seq(cellsY, _ => [])))
  }

  /** The cell coordinate of `v` along an axis of `n` cells (`XToCellX`, `YToCellY`). */
  function ToCell(v: real, n: nat): (c: int)
    ensures 0.0 <= v < 1.0 && n > 0 ==> 0 <= c < n
  {
    CellBound(v, n);
    (v * n as real).Floor
  }

  lemma CellBound(v: real, n: nat)
    ensures 0.0 <= v < 1.0 && n > 0 ==> 0 <= (v * n as real).Floor < n
  {
    if 0.0 <= v < 1.0 && n > 0 {
      assert 0.0 <= v * n as real < n as real;
    }
  }

  /** Cell coordinates never decrease as the coordinate grows. */
  lemma ToCellMonotone(a: real, b: real, n: nat)
    requires a <= b
    ensures ToCell(a, n) <= ToCell(b, n)
  {
    assert a * n as real <= b * n as real;
  }

  /** Every resident lies in the unit square and in the cell its coordinates select. */
  ghost predicate Consistent(g: Grid)
    requires Shaped(g)
  {
    forall i, j, e :: 0 <= i < |g.cells| && 0 <= j < |g.cells[i]| && e in g.cells[i][j] ==>
      && 0.0 <= e.x < 1.0 && 0.0 <= e.y < 1.0
      && ToCell(e.x, g.cellsX) == i && ToCell(e.y, g.cellsY) == j
  }

  ghost predicate Stored(g: Grid, e: Entry) {
    exists i, j :: 0 <= i < |g.cells| && 0 <= j < |g.cells[i]| && e in g.cells[i][j]
  }

  /** Buckets point `index` into the cell selected by its coordinates; the
      coordinates must lie in the unit square or the cell would be out of range. */
  function AddPoint(g: Grid, index: int, x: real, y: real): (g': Grid)
    requires Shaped(g)
    requires 0.0 <= x < 1.0 && 0.0 <= y < 1.0
    ensures Shaped(g') && g'.cellsX == g.cellsX && g'.cellsY == g.cellsY
    ensures var cx, cy := ToCell(x, g.cellsX), ToCell(y, g.cellsY);
      && g'.cells[cx][cy] == g.cells[cx][cy] + [Entry(index, x, y)]
      && forall i, j :: 0 <= i < g.cellsX && 0 <= j < g.cellsY && (i != cx || j != cy) ==>
           g'.cells[i][j] == g.cells[i][j]
    ensures Consistent(g) ==> Consistent(g')
  {
    var cx, cy := ToCell(x, g.cellsX), ToCell(y, g.cellsY);
    g.(cells := g.cells[cx := g.cells[cx][cy := g.cells[cx][cy] + [Entry(index, x, y)]]])
  }

  // ---------------------------------------------------------------- removal

  /** The renumbering applied to a surviving entry once index `k` is gone. */
  function Shift(e: Entry, k: int): (r: Entry)
    ensures r.x == e.x && r.y == e.y
    ensures r.index == if e.index > k then e.index - 1 else e.index
  {
    if e.index > k then e.(index := e.index - 1) else e
  }

  /** One cell after `RemovePoint(k)`: entries with index `k` dropped, the
      others renumbered, their order kept. */
  function RemoveFromCell(cell: seq<Entry>, k: int): (r: seq<Entry>)
    ensures |r| <= |cell|
  {
    if cell == [] then []
    else (if cell[0].index == k then [] else [Shift(cell[0], k)]) + RemoveFromCell(cell[1..], k)
  }

  /** Removal acts entry by entry: it distributes over concatenation, so the
      relative order of the survivors is kept. */
  lemma {:induction false} RemoveFromCellConcat(a: seq<Entry>, b: seq<Entry>, k: int)
    ensures RemoveFromCell(a + b, k) == RemoveFromCell(a, k) + RemoveFromCell(b, k)
    decreases |a|
  {
    if a == [] {
      assert a + b == b;
    } else {
      assert (a + b)[1..] == a[1..] + b;
      RemoveFromCellConcat(a[1..], b, k);
    }
  }

  /** An entry survives removal exactly when it is the renumbered form of an
      entry whose index was not `k`. */
  lemma {:induction false} RemoveFromCellMembers(cell: seq<Entry>, k: int, e': Entry)
    ensures e' in RemoveFromCell(cell, k) <==> exists e :: e in cell && e.index != k && e' == Shift(e, k)
    decreases |cell|
  {
    if cell != [] {
      RemoveFromCellMembers(cell[1..], k, e');
      if e' in RemoveFromCell(cell[1..], k) {
        var e :| e in cell[1..] && e.index != k && e' == Shift(e, k);
        assert e in cell;
      }
      if exists e :: e in cell && e.index != k && e' == Shift(e, k) {
        var e :| e in cell && e.index != k && e' == Shift(e, k);
        if e != cell[0] {
          assert e in cell[1..];
        }
      }
    }
  }

  /** The source's backward in-place pass over one cell: erase entries equal
      to `k`, decrement entries above it. It computes `RemoveFromCell`. */
  method RemoveFromCellInPlace(cell: seq<Entry>, k: int) returns (r: seq<Entry>)
    ensures r == RemoveFromCell(cell, k)
  {
    r := cell;
    var i := |cell| - 1;
    while i >= 0
      invariant -1 <= i < |cell|
      invariant r == cell[..i + 1] + RemoveFromCell(cell[i + 1..], k)
    {
      InPlaceStep(cell, k, i);
      if r[i].index == k {
        r := r[..i] + r[i + 1..];
      } else if r[i].index > k {
        r := r[i := r[i].(index := r[i].index - 1)];
      }
      i := i - 1;
    }
    assert cell[..0] == [];
    assert cell[0..] == cell;
  }

  /** One step of the backward pass: erasing, decrementing or keeping the
      entry at `i` moves the boundary between untouched and processed
      entries down by one. */
  lemma InPlaceStep(cell: seq<Entry>, k: int, i: int)
    requires 0 <= i < |cell|
    ensures var r := cell[..i + 1] + RemoveFromCell(cell[i + 1..], k);
      var next := cell[..i] + RemoveFromCell(cell[i..], k);
      && r[i] == cell[i]
      && (cell[i].index == k ==> r[..i] + r[i + 1..] == next)
      && (cell[i].index > k ==> r[i := r[i].(index := r[i].index - 1)] == next)
      && (cell[i].index < k ==> r == next)
  {
    assert cell[i..][1..] == cell[i + 1..];
    assert cell[..i + 1] == cell[..i] + [cell[i]];
    var r := cell[..i + 1] + RemoveFromCell(cell[i + 1..], k);
    if cell[i].index > k {
      assert r[i := r[i].(index := r[i].index - 1)] == cell[..i] + [Shift(cell[i], k)] + RemoveFromCell(cell[i + 1..], k);
    }
  }

  /** `RemovePoint(k)`: every cell loses its entries with index `k`, and
      entries above `k` move down by one. The stored entries afterwards are
      exactly the renumbered entries whose index was not `k`: the removed
      point is gone, coordinates and cells are kept. */
  function RemovePoint(g: Grid, k: int): (g': Grid)
    requires Shaped(g)
    ensures Shaped(g') && g'.cellsX == g.cellsX && g'.cellsY == g.cellsY
    ensures forall i, j :: 0 <= i < g.cellsX && 0 <= j < g.cellsY ==>
      g'.cells[i][j] == RemoveFromCell(g.cells[i][j], k)
    ensures forall e' :: Stored(g', e') <==> exists e :: Stored(g, e) && e.index != k && e' == Shift(e, k)
  {
    var g' := g.(cells := seq(|g.cells|, i requires 0 <= i < |g.cells| =>
                    seq(|g.cells[i]|, j requires 0 <= j < |g.cells[i]| => RemoveFromCell(g.cells[i][j], k))));
    CellwiseRemovalStored(g, g', k);
    g'
  }

  /** The removal a cell at a time is exactly the renumbering of the other
      points' entries. */
  lemma CellwiseRemovalStored(g: Grid, g': Grid, k: int)
    requires Shaped(g) && |g'.cells| == |g.cells|
    requires forall i :: 0 <= i < |g.cells| ==> |g'.cells[i]| == |g.cells[i]|
    requires forall i, j :: 0 <= i < |g.cells| && 0 <= j < |g.cells[i]| ==>
      g'.cells[i][j] == RemoveFromCell(g.cells[i][j], k)
    ensures forall e' :: Stored(g', e') <==> exists e :: Stored(g, e) && e.index != k && e' == Shift(e, k)
  {
    forall e' | Stored(g', e')
      ensures exists e :: Stored(g, e) && e.index != k && e' == Shift(e, k)
    {
      var i, j :| 0 <= i < |g'.cells| && 0 <= j < |g'.cells[i]| && e' in g'.cells[i][j];
      RemoveFromCellMembers(g.cells[i][j], k, e');
      var e :| e in g.cells[i][j] && e.index != k && e' == Shift(e, k);
      assert Stored(g, e);
    }
    forall e | Stored(g, e) && e.index != k
      ensures Stored(g', Shift(e, k))
    {
      var i, j :| 0 <= i < |g.cells| && 0 <= j < |g.cells[i]| && e in g.cells[i][j];
      RemoveFromCellMembers(g.cells[i][j], k, Shift(e, k));
      assert Shift(e, k) in g'.cells[i][j];
    }
  }

  /** Removal keeps every survivor in its cell with its coordinates, so the
      grid stays consistent. */
  lemma RemovePointConsistent(g: Grid, k: int)
    requires Shaped(g) && Consistent(g)
    ensures Consistent(RemovePoint(g, k))
  {
    CellwiseRemovalConsistent(g, RemovePoint(g, k), k);
  }

  /** Removing `k` cell by cell leaves every survivor in the cell it was in. */
  lemma CellwiseRemovalConsistent(g: Grid, g': Grid, k: int)
    requires Shaped(g) && Consistent(g) && Shaped(g') && g'.cellsX == g.cellsX && g'.cellsY == g.cellsY
    requires forall i, j :: 0 <= i < g.cellsX && 0 <= j < g.cellsY ==>
      g'.cells[i][j] == RemoveFromCell(g.cells[i][j], k)
    ensures Consistent(g')
  {
    SurvivorsInCells(g, k);
    ConsistentIntro(g');
  }

  /** Entry `e` lies in the unit square and in cell `(i, j)` of a `cx` by `cy` grid. */
  predicate InCell(e: Entry, i: int, j: int, cx: nat, cy: nat) {
    && 0.0 <= e.x < 1.0 && 0.0 <= e.y < 1.0
    && ToCell(e.x, cx) == i && ToCell(e.y, cy) == j
  }

  lemma SurvivorsInCells(g: Grid, k: int)
    requires Shaped(g) && Consistent(g)
    ensures forall i, j, e' :: 0 <= i < g.cellsX && 0 <= j < g.cellsY && e' in RemoveFromCell(g.cells[i][j], k) ==>
      InCell(e', i, j, g.cellsX, g.cellsY)
  {
    forall i, j, e' | 0 <= i < g.cellsX && 0 <= j < g.cellsY && e' in RemoveFromCell(g.cells[i][j], k)
      ensures InCell(e', i, j, g.cellsX, g.cellsY)
    {
      SurvivorInCell(g, k, i, j, e');
    }
  }

  /** A survivor of removing `k` from cell `(i, j)` still belongs in that cell. */
  lemma SurvivorInCell(g: Grid, k: int, i: int, j: int, e': Entry)
    requires Shaped(g) && Consistent(g) && 0 <= i < g.cellsX && 0 <= j < g.cellsY
    requires e' in RemoveFromCell(g.cells[i][j], k)
    ensures InCell(e', i, j, g.cellsX, g.cellsY)
  {
    RemoveFromCellMembers(g.cells[i][j], k, e');
    var e :| e in g.cells[i][j] && e.index != k && e' == Shift(e, k);
    assert e.x == e'.x && e.y == e'.y;
  }

  lemma ConsistentIntro(g: Grid)
    requires Shaped(g)
    requires forall i, j, e :: 0 <= i < |g.cells| && 0 <= j < |g.cells[i]| && e in g.cells[i][j] ==>
      InCell(e, i, j, g.cellsX, g.cellsY)
    ensures Consistent(g)
  {
  }

  /** The grid mirrors the class-`c` part of a point list: every entry names
      a point of class `c` stored at the entry's coordinates. */
  ghost predicate Mirrors(g: Grid, pts: seq<Point>, c: int) {
    forall i, j, e :: 0 <= i < |g.cells| && 0 <= j < |g.cells[i]| && e in g.cells[i][j] ==>
      0 <= e.index < |pts| && pts[e.index] == Point(c, Vec2(e.x, e.y))
  }

  /** Erasing point `k` from the list and calling `RemovePoint(k)` on the
      grid keeps the grid aligned with the list: stored index `m` becomes `m`
      below `k` and `m - 1` above it. */
  lemma RemovePointMirrors(g: Grid, pts: seq<Point>, c: int, k: nat)
    requires Shaped(g) && Mirrors(g, pts, c) && k < |pts|
    ensures Mirrors(RemovePoint(g, k), Erase(pts, k), c)
  {
    var g' := RemovePoint(g, k);
    forall i, j, e' | 0 <= i < |g'.cells| && 0 <= j < |g'.cells[i]| && e' in g'.cells[i][j]
      ensures 0 <= e'.index < |Erase(pts, k)| && Erase(pts, k)[e'.index] == Point(c, Vec2(e'.x, e'.y))
    {
      RemoveFromCellMembers(g.cells[i][j], k, e');
      var e :| e in g.cells[i][j] && e.index != k && e' == Shift(e, k);
      ShiftMirrors(pts, c, k, e);
    }
  }

  /** A renumbered survivor names the same point in the shortened list. */
  lemma ShiftMirrors(pts: seq<Point>, c: int, k: nat, e: Entry)
    requires k < |pts| && e.index != k
    requires 0 <= e.index < |pts| && pts[e.index] == Point(c, Vec2(e.x, e.y))
    ensures var e' := Shift(e, k);
      0 <= e'.index < |Erase(pts, k)| && Erase(pts, k)[e'.index] == Point(c, Vec2(e'.x, e'.y))
  {
    if e.index > k {
      assert Erase(pts, k)[e.index - 1] == pts[e.index];
    } else {
      assert Erase(pts, k)[e.index] == pts[e.index];
    }
  }

  /** Appending a point of class `c` to the list and bucketing it under the
      new last index keeps the grid aligned with the list. */
  lemma AddPointMirrors(g: Grid, pts: seq<Point>, c: int, p: Vec2)
    requires Shaped(g) && Mirrors(g, pts, c) && InUnitSquare(p)
    ensures Mirrors(AddPoint(g, |pts|, p.x, p.y), pts + [Point(c, p)], c)
  {
  }

  /** Bucketing a point of class `c` leaves the grids of the other classes
      aligned with the longer list. */
  lemma MirrorsPush(g: Grid, pts: seq<Point>, c: int, q: Point)
    requires Mirrors(g, pts, c)
    ensures Mirrors(g, pts + [q], c)
  {
  }

  // ---------------------------------------------------------------- queries

  /** The cell span `[lo, hi]` a query box covers along one axis: wrapped
      later when toroidal, clamped to the grid otherwise. */
  function Span(from: real, to: real, n: nat, toroidal: bool): (r: (int, int))
    ensures !toroidal && n > 0 ==> 0 <= r.0 && r.1 <= n - 1
  {
    var lo, hi := ToCell(from, n), ToCell(to, n);
    if toroidal then (lo, hi)
    else (if lo < 0 then 0 else lo, if hi > n - 1 then n - 1 else hi)
  }

  /** The source's `(i + n) % n` with `n` a `size_t`: the sum is taken
      modulo 2^64 before the remainder, so every `i` lands on a valid cell.
      From `-n` on this is the plain wrap `i mod n`. */
  function WrapCell(i: int, n: nat): (c: int)
    requires 0 < n <= IntMax
    ensures 0 <= c < n
    ensures -(n as int) <= i < SizeModulus - n ==> c == i % n
    ensures 0 <= i < n ==> c == i
  {
    if -(n as int) <= i < SizeModulus - n then
      ModShift(i, n);
      assert 0 <= i < n ==> i / n == 0;
      ((i + n) % SizeModulus) % n
    else
      ((i + n) % SizeModulus) % n
  }

  /** Below `-n` the 2^64 offset moves the cell: the source visits cell 66,
      not the cell 50 of `-150 mod 100`, for `i = -150` and 100 cells. */
  lemma WrapCellBelowRange()
    ensures WrapCell(-150, 100) == 66 && -150 % 100 == 50
  {
  }

  /** Entries of row `cy`, cells `ix..hi` (each wrapped), in visiting order. */
  function Row(g: Grid, cy: int, ix: int, hi: int): (r: seq<Entry>)
    requires Shaped(g) && 0 <= cy < g.cellsY
    decreases hi - ix + 1
  {
    if ix > hi then []
    else g.cells[WrapCell(ix, g.cellsX)][cy] + Row(g, cy, ix + 1, hi)
  }

  /** Entries of rows `iy..hiy`, each row over cells `lox..hix`. */
  function Rows(g: Grid, iy: int, hiy: int, lox: int, hix: int): (r: seq<Entry>)
    requires Shaped(g)
    decreases hiy - iy + 1
  {
    if iy > hiy then []
    else Row(g, WrapCell(iy, g.cellsY), lox, hix) + Rows(g, iy + 1, hiy, lox, hix)
  }

  /** Every entry the query visits, in the source's loop order: rows outer,
      cells inner, residents in insertion order. */
  function Scan(g: Grid, x: real, y: real, radius: real, toroidal: bool): seq<Entry>
    requires Shaped(g)
  {
    var sx := Span(x - radius, x + radius, g.cellsX, toroidal);
    var sy := Span(y - radius, y + radius, g.cellsY, toroidal);
    Rows(g, sy.0, sy.1, sx.0, sx.1)
  }

  lemma {:induction false} RowStored(g: Grid, cy: int, ix: int, hi: int, e: Entry)
    requires Shaped(g) && 0 <= cy < g.cellsY
    requires e in Row(g, cy, ix, hi)
    ensures Stored(g, e)
    decreases hi - ix + 1
  {
    var c := WrapCell(ix, g.cellsX);
    if e !in g.cells[c][cy] {
      RowStored(g, cy, ix + 1, hi, e);
    }
  }

  lemma {:induction false} RowsStored(g: Grid, iy: int, hiy: int, lox: int, hix: int, e: Entry)
    requires Shaped(g)
    requires e in Rows(g, iy, hiy, lox, hix)
    ensures Stored(g, e)
    decreases hiy - iy + 1
  {
    var cy := WrapCell(iy, g.cellsY);
    assert iy <= hiy;
    assert Rows(g, iy, hiy, lox, hix) == Row(g, cy, lox, hix) + Rows(g, iy + 1, hiy, lox, hix);
    if e in Row(g, cy, lox, hix) {
      RowStored(g, cy, lox, hix, e);
    } else {
      RowsStored(g, iy + 1, hiy, lox, hix, e);
    }
  }

  /** Everything a query visits is a stored entry. */
  lemma ScanStored(g: Grid, x: real, y: real, radius: real, toroidal: bool, e: Entry)
    requires Shaped(g)
    requires e in Scan(g, x, y, radius, toroidal)
    ensures Stored(g, e)
  {
    var sx := Span(x - radius, x + radius, g.cellsX, toroidal);
    var sy := Span(y - radius, y + radius, g.cellsY, toroidal);
    RowsStored(g, sy.0, sy.1, sx.0, sx.1, e);
  }

  lemma {:induction false} RowCovers(g: Grid, cy: int, ix: int, hi: int, i: int, e: Entry)
    requires Shaped(g) && 0 <= cy < g.cellsY && 0 <= ix
    requires ix <= i <= hi && i < g.cellsX && e in g.cells[i][cy]
    ensures e in Row(g, cy, ix, hi)
    decreases hi - ix + 1
  {
    if ix < i {
      RowCovers(g, cy, ix + 1, hi, i, e);
    }
  }

  lemma {:induction false} RowsCover(g: Grid, iy: int, hiy: int, lox: int, hix: int, i: int, j: int, e: Entry)
    requires Shaped(g) && 0 <= iy && 0 <= lox
    requires lox <= i <= hix && i < g.cellsX && iy <= j <= hiy && j < g.cellsY
    requires e in g.cells[i][j]
    ensures e in Rows(g, iy, hiy, lox, hix)
    decreases hiy - iy + 1
  {
    if iy < j {
      RowsCover(g, iy + 1, hiy, lox, hix, i, j, e);
    } else {
      RowCovers(g, j, lox, hix, i, e);
    }
  }

  /** The squared distance a query uses for a resident. */
  function DistanceTo(x: real, y: real, e: Entry, toroidal: bool): (d: real)
    ensures d >= 0.0
  {
    if toroidal then ToroidalDistanceSq(Vec2(x, y), Vec2(e.x, e.y))
    else DistanceSq(Vec2(x, y), Vec2(e.x, e.y))
  }

  /** The visited entries closer than `radius`, in visiting order. */
  function Matches(es: seq<Entry>, x: real, y: real, radius: real, toroidal: bool): (r: seq<Entry>)
    ensures forall e :: e in r ==> e in es && DistanceTo(x, y, e, toroidal) < radius * radius
    ensures forall e :: e in es && DistanceTo(x, y, e, toroidal) < radius * radius ==> e in r
  {
    if es == [] then []
    else (if DistanceTo(x, y, es[0], toroidal) < radius * radius then [es[0]] else [])
         + Matches(es[1..], x, y, radius, toroidal)
  }

  function Indices(es: seq<Entry>): (r: seq<int>)
    ensures |r| == |es|
    ensures forall i :: 0 <= i < |es| ==> r[i] == es[i].index
  {
    if es == [] then [] else [es[0].index] + Indices(es[1..])
  }

  /** Point `id` has a resident closer than `radius` to `(x, y)`. */
  ghost predicate Hit(g: Grid, x: real, y: real, radius: real, toroidal: bool, id: int) {
    exists e :: Stored(g, e) && e.index == id && DistanceTo(x, y, e, toroidal) < radius * radius
  }

  /** `GetPoints`: the indices of residents closer than `radius` to `(x, y)`,
      appended to `results` (cleared first when `append` is false); with
      `stopAfterFirst` the scan returns after the first hit. */
  function GetPoints(g: Grid, x: real, y: real, radius: real, toroidal: bool,
                     results: seq<int>, stopAfterFirst: bool, append: bool): (r: seq<int>)
    requires Shaped(g)
    ensures var base := if append then results else [];
      && |base| <= |r| && r[..|base|] == base
      && (stopAfterFirst ==> |r| <= |base| + 1)
  {
    var base := if append then results else [];
    var found := Matches(Scan(g, x, y, radius, toroidal), x, y, radius, toroidal);
    var taken := if stopAfterFirst && |found| > 0 then found[..1] else found;
    base + Indices(taken)
  }

  /** Every index `GetPoints` adds names a resident within `radius`. */
  lemma GetPointsSound(g: Grid, x: real, y: real, radius: real, toroidal: bool,
                       results: seq<int>, stopAfterFirst: bool, append: bool)
    requires Shaped(g)
    ensures var base := if append then results else [];
      var r := GetPoints(g, x, y, radius, toroidal, results, stopAfterFirst, append);
      forall i :: |base| <= i < |r| ==> Hit(g, x, y, radius, toroidal, r[i])
  {
    var base := if append then results else [];
    var found := Matches(Scan(g, x, y, radius, toroidal), x, y, radius, toroidal);
    var taken := if stopAfterFirst && |found| > 0 then found[..1] else found;
    assert forall e :: e in taken ==> e in found;
    FoundStored(g, x, y, radius, toroidal, base, taken);
    assert GetPoints(g, x, y, radius, toroidal, results, stopAfterFirst, append) == base + Indices(taken);
  }

  lemma FoundStored(g: Grid, x: real, y: real, radius: real, toroidal: bool, base: seq<int>, taken: seq<Entry>)
    requires Shaped(g)
    requires forall e :: e in taken ==> e in Matches(Scan(g, x, y, radius, toroidal), x, y, radius, toroidal)
    ensures var r := base + Indices(taken);
      forall i :: |base| <= i < |r| ==> Hit(g, x, y, radius, toroidal, r[i])
  {
    var r := base + Indices(taken);
    forall i | |base| <= i < |r|
      ensures Hit(g, x, y, radius, toroidal, r[i])
    {
      var e := taken[i - |base|];
      assert e in taken;
      ScanStored(g, x, y, radius, toroidal, e);
      assert r[i] == e.index;
    }
  }

  /** `GetPointDistancesSq`: the squared distances of residents closer than
      `radius`, appended to `results` (cleared first when `append` is false). */
  function GetPointDistancesSq(g: Grid, x: real, y: real, radius: real, toroidal: bool,
                               results: seq<real>, append: bool): (r: seq<real>)
    requires Shaped(g)
    ensures var base := if append then results else [];
      && |base| <= |r| && r[..|base|] == base
      && forall i :: |base| <= i < |r| ==> 0.0 <= r[i] < radius * radius
  {
    var base := if append then results else [];
    base + DistancesWithin(Scan(g, x, y, radius, toroidal), x, y, radius * radius, toroidal)
  }

  /** The squared distances below `rsq` of the visited entries, in visiting order. */
  function DistancesWithin(es: seq<Entry>, x: real, y: real, rsq: real, toroidal: bool): (r: seq<real>)
    ensures forall i :: 0 <= i < |r| ==> 0.0 <= r[i] < rsq
    ensures rsq <= 0.0 ==> r == []
    ensures |r| <= |es|
  {
    if es == [] then []
    else
      var d := DistanceTo(x, y, es[0], toroidal);
      (if d < rsq then [d] else []) + DistancesWithin(es[1..], x, y, rsq, toroidal)
  }

  /** A query of radius zero reports nothing. */
  lemma ZeroRadiusFindsNothing(g: Grid, x: real, y: real, radius: real, toroidal: bool)
    requires Shaped(g) && radius == 0.0
    ensures GetPointDistancesSq(g, x, y, radius, toroidal, [], false) == []
  {
    assert radius * radius == 0.0;
  }

  /** The squared distances from `(x, y)` to the class-`c` points. */
  ghost function ClassDistances(pts: seq<Point>, c: int, x: real, y: real, toroidal: bool): set<real>
  {
    set n | 0 <= n < |pts| && pts[n].classIndex == c :: DistanceTo(x, y, Entry(n, pts[n].v.x, pts[n].v.y), toroidal)
  }

  /** Every distance in `r` is the distance to some class-`c` point. */
  ghost predicate DistancesOfClass(pts: seq<Point>, c: int, x: real, y: real, r: seq<real>, toroidal: bool) {
    forall i :: 0 <= i < |r| ==> r[i] in ClassDistances(pts, c, x, y, toroidal)
  }

  /** On a grid that mirrors the class-`c` points, every distance the query
      reports is the distance to one of those points. */
  lemma DistancesOfMirrored(g: Grid, pts: seq<Point>, c: int, x: real, y: real, radius: real, toroidal: bool)
    requires Shaped(g) && Mirrors(g, pts, c)
    ensures DistancesOfClass(pts, c, x, y, GetPointDistancesSq(g, x, y, radius, toroidal, [], false), toroidal)
  {
    var es := Scan(g, x, y, radius, toroidal);
    forall e | e in es
      ensures Stored(g, e)
    {
      ScanStored(g, x, y, radius, toroidal, e);
    }
    StoredDistances(g, pts, c, es, x, y, radius * radius, toroidal);
  }

  lemma {:induction false} StoredDistances(g: Grid, pts: seq<Point>, c: int, es: seq<Entry>,
                                           x: real, y: real, rsq: real, toroidal: bool)
    requires Mirrors(g, pts, c) && forall e :: e in es ==> Stored(g, e)
    ensures DistancesOfClass(pts, c, x, y, DistancesWithin(es, x, y, rsq, toroidal), toroidal)
    decreases |es|
  {
    if es != [] {
      StoredDistances(g, pts, c, es[1..], x, y, rsq, toroidal);
      var d := DistanceTo(x, y, es[0], toroidal);
      var head := if d < rsq then [d] else [];
      var rest := DistancesWithin(es[1..], x, y, rsq, toroidal);
      var r := DistancesWithin(es, x, y, rsq, toroidal);
      assert r == head + rest;
      MirroredEntry(g, pts, c, es[0]);
      assert d in ClassDistances(pts, c, x, y, toroidal);
      ClassConcat(pts, c, x, y, head, rest, toroidal);
    } else {
      assert DistancesWithin(es, x, y, rsq, toroidal) == [];
    }
  }

  lemma ClassConcat(pts: seq<Point>, c: int, x: real, y: real, a: seq<real>, b: seq<real>, toroidal: bool)
    requires DistancesOfClass(pts, c, x, y, a, toroidal) && DistancesOfClass(pts, c, x, y, b, toroidal)
    ensures DistancesOfClass(pts, c, x, y, a + b, toroidal)
  {
    forall i | 0 <= i < |a + b|
      ensures (a + b)[i] in ClassDistances(pts, c, x, y, toroidal)
    {
      if i < |a| {
        assert (a + b)[i] == a[i];
      } else {
        assert (a + b)[i] == b[i - |a|];
      }
    }
  }

  /** A stored entry of a mirroring grid names its point and repeats its coordinates. */
  lemma MirroredEntry(g: Grid, pts: seq<Point>, c: int, e: Entry)
    requires Mirrors(g, pts, c) && Stored(g, e)
    ensures 0 <= e.index < |pts| && pts[e.index] == Point(c, Vec2(e.x, e.y))
    ensures e == Entry(e.index, pts[e.index].v.x, pts[e.index].v.y)
  {
  }

  lemma BelowRadius(d: real, s: real, radius: real)
    requires radius >= 0.0 && s >= 0.0 && d * d + s < radius * radius
    ensures -radius < d < radius
  {
  }

  /** In clamped mode, with `stopAfterFirst` off, every stored point within
      `radius` is returned: the clamped span covers its cell. */
  lemma GetPointsComplete(g: Grid, x: real, y: real, radius: real, results: seq<int>, append: bool, e: Entry)
    requires Shaped(g) && Consistent(g) && radius >= 0.0
    requires Stored(g, e) && DistanceSq(Vec2(x, y), Vec2(e.x, e.y)) < radius * radius
    ensures e.index in GetPoints(g, x, y, radius, false, results, false, append)
  {
    ScanCovers(g, x, y, radius, e);
    var found := Matches(Scan(g, x, y, radius, false), x, y, radius, false);
    assert DistanceTo(x, y, e, false) < radius * radius;
    assert e in found;
    var k :| 0 <= k < |found| && found[k] == e;
    var base := if append then results else [];
    var r := GetPoints(g, x, y, radius, false, results, false, append);
    assert r == base + Indices(found);
    assert r[|base| + k] == e.index;
  }

  /** The clamped scan visits every stored entry within `radius` on both axes. */
  lemma ScanCovers(g: Grid, x: real, y: real, radius: real, e: Entry)
    requires Shaped(g) && Consistent(g) && radius >= 0.0
    requires Stored(g, e) && DistanceSq(Vec2(x, y), Vec2(e.x, e.y)) < radius * radius
    ensures e in Scan(g, x, y, radius, false)
  {
    var i, j :| 0 <= i < |g.cells| && 0 <= j < |g.cells[i]| && e in g.cells[i][j];
    var dx, dy := e.x - x, e.y - y;
    assert DistanceSq(Vec2(x, y), Vec2(e.x, e.y)) == dx * dx + dy * dy;
    BelowRadius(dx, dy * dy, radius);
    BelowRadius(dy, dx * dx, radius);
    ToCellMonotone(x - radius, e.x, g.cellsX);
    ToCellMonotone(e.x, x + radius, g.cellsX);
    ToCellMonotone(y - radius, e.y, g.cellsY);
    ToCellMonotone(e.y, y + radius, g.cellsY);
    var sx := Span(x - radius, x + radius, g.cellsX, false);
    var sy := Span(y - radius, y + radius, g.cellsY, false);
    RowsCover(g, sy.0, sy.1, sx.0, sx.1, i, j, e);
  }

  /** In clamped mode every stored resident within `radius` has its squared
      distance among the ones the query appends. */
  lemma GetPointDistancesSqComplete(g: Grid, x: real, y: real, radius: real, results: seq<real>, append: bool, e: Entry)
    requires Shaped(g) && Consistent(g) && radius >= 0.0
    requires Stored(g, e) && DistanceSq(Vec2(x, y), Vec2(e.x, e.y)) < radius * radius
    ensures var base := if append then results else [];
      DistanceSq(Vec2(x, y), Vec2(e.x, e.y)) in GetPointDistancesSq(g, x, y, radius, false, results, append)[|base|..]
  {
    var es := Scan(g, x, y, radius, false);
    ScanCovers(g, x, y, radius, e);
    DistancesWithinMember(es, x, y, radius * radius, false, e);
    var base := if append then results else [];
    assert GetPointDistancesSq(g, x, y, radius, false, results, append)[|base|..]
        == DistancesWithin(es, x, y, radius * radius, false);
  }

  lemma {:induction false} DistancesWithinMember(es: seq<Entry>, x: real, y: real, rsq: real, toroidal: bool, e: Entry)
    requires e in es && DistanceTo(x, y, e, toroidal) < rsq
    ensures DistanceTo(x, y, e, toroidal) in DistancesWithin(es, x, y, rsq, toroidal)
    decreases |es|
  {
    if es[0] != e {
      DistancesWithinMember(es[1..], x, y, rsq, toroidal, e);
    }
  }

  // ------------------------------------------------------------ query size

  /** No cell holds more than `s` residents. */
  ghost predicate CellsWithin(g: Grid, s: nat) {
    forall i, j :: 0 <= i < |g.cells| && 0 <= j < |g.cells[i]| ==> |g.cells[i][j]| <= s
  }

  /** Bucketing one point lets the fullest cell grow by at most one. */
  lemma AddPointCellsWithin(g: Grid, index: int, x: real, y: real, s: nat)
    requires Shaped(g) && 0.0 <= x < 1.0 && 0.0 <= y < 1.0 && CellsWithin(g, s)
    ensures CellsWithin(AddPoint(g, index, x, y), s + 1)
  {
  }

  /** The number of cells from `lo` to `hi`. */
  function Width(lo: int, hi: int): nat {
    if hi < lo then 0 else hi - lo + 1
  }

  /** The most cells a box of half-width `radius` can span along an axis of
      `n` cells: `floor(2 radius n) + 2`, or none. */
  function Reach(radius: real, n: nat): nat {
    var f := (2.0 * radius * n as real).Floor + 2;
    if f > 0 then f else 0
  }

  /** A query box spans at most `Reach` cells per axis, wrapped or clamped. */
  lemma SpanWidth(x: real, radius: real, n: nat, toroidal: bool)
    ensures var s := Span(x - radius, x + radius, n, toroidal);
      Width(s.0, s.1) <= Reach(radius, n)
  {
    var a, b := (x - radius) * n as real, (x + radius) * n as real;
    var lo, hi := ToCell(x - radius, n), ToCell(x + radius, n);
    assert lo as real > a - 1.0 && hi as real <= b;
    assert b - a == 2.0 * radius * n as real;
  }

  lemma {:induction false} RowLength(g: Grid, cy: int, ix: int, hi: int, s: nat)
    requires Shaped(g) && 0 <= cy < g.cellsY && CellsWithin(g, s)
    ensures |Row(g, cy, ix, hi)| <= Width(ix, hi) * s
    decreases hi - ix + 1
  {
    if ix <= hi {
      var c := WrapCell(ix, g.cellsX);
      assert Row(g, cy, ix, hi) == g.cells[c][cy] + Row(g, cy, ix + 1, hi);
      assert |g.cells[c][cy]| <= s;
      RowLength(g, cy, ix + 1, hi, s);
      MulSucc(Width(ix + 1, hi), s);
    }
  }

  lemma {:induction false} RowsLength(g: Grid, iy: int, hiy: int, lox: int, hix: int, s: nat)
    requires Shaped(g) && CellsWithin(g, s)
    ensures |Rows(g, iy, hiy, lox, hix)| <= Width(iy, hiy) * (Width(lox, hix) * s)
    decreases hiy - iy + 1
  {
    if iy <= hiy {
      var w := Width(lox, hix) * s;
      RowLength(g, WrapCell(iy, g.cellsY), lox, hix, s);
      RowsLength(g, iy + 1, hiy, lox, hix, s);
      MulSucc(Width(iy + 1, hiy), w);
    }
  }

  /** With at most `s` residents per cell, a distance query reports at most
      `Reach(radius, cellsY) * Reach(radius, cellsX) * s` distances, however
      large the radius and wherever the box lies. */
  lemma QueryLength(g: Grid, x: real, y: real, radius: real, toroidal: bool, s: nat)
    requires Shaped(g) && CellsWithin(g, s)
    ensures |GetPointDistancesSq(g, x, y, radius, toroidal, [], false)|
      <= Reach(radius, g.cellsY) * (Reach(radius, g.cellsX) * s)
  {
    var es := Scan(g, x, y, radius, toroidal);
    var n := |GetPointDistancesSq(g, x, y, radius, toroidal, [], false)|;
    assert n <= |es|;
    var wx, wy := ScanBox(g, x, y, radius, toroidal, s);
    BoxBound(n, wx, wy, s, Reach(radius, g.cellsX), Reach(radius, g.cellsY));
  }

  /** The scan visits `wy` rows of `wx` cells, each within its axis's reach. */
  lemma ScanBox(g: Grid, x: real, y: real, radius: real, toroidal: bool, s: nat) returns (wx: nat, wy: nat)
    requires Shaped(g) && CellsWithin(g, s)
    ensures |Scan(g, x, y, radius, toroidal)| <= wy * (wx * s)
    ensures wx <= Reach(radius, g.cellsX) && wy <= Reach(radius, g.cellsY)
  {
    var sx := Span(x - radius, x + radius, g.cellsX, toroidal);
    var sy := Span(y - radius, y + radius, g.cellsY, toroidal);
    wx, wy := Width(sx.0, sx.1), Width(sy.0, sy.1);
    SpanWidth(x, radius, g.cellsX, toroidal);
    SpanWidth(y, radius, g.cellsY, toroidal);
    RowsLength(g, sy.0, sy.1, sx.0, sx.1, s);
  }

  /** At most `rx` by `ry` cells of at most `s` residents hold at most `ry * (rx * s)`. */
  lemma BoxBound(n: nat, wx: nat, wy: nat, s: nat, rx: nat, ry: nat)
    requires n <= wy * (wx * s) && wx <= rx && wy <= ry
    ensures n <= ry * (rx * s)
  {
    MulLe(wx, rx, s);
    MulLe(wy, ry, wx * s);
    assert ry * (wx * s) <= ry * (rx * s) by {
      MulLe(wx * s, rx * s, ry);
    }
  }

  lemma MulSucc(w: nat, s: nat)
    ensures (w + 1) * s == s + w * s
  {
  }
}

=== FILE: Hard.dfy ===
/** Multi-class dart throwing with hard disks: layers are sorted by
    decreasing radius, each gets a share of the target count, an r-matrix of
    minimum distances is built, and random points are offered to the least
    filled layer. A point is kept when no earlier point is too close; every
    so often the conflicting points are evicted instead, provided none of
    them belongs to a layer that is less filled or has a smaller radius. */
module Hard {
  import opened MathUtils
  import opened Points
  import opened Layers
  import opened Separation
  import opened Engine

  /** The fixed inputs of the dart-throwing loop. `sqrt` is the square root
      used by the distance test. */
  datatype Config = Config(
    m: seq<seq<real>>,
    targetCount: int,
    failCountFatal: int,
    failCountRemove: int,
    sqrt: real -> real)

  /** Point `p` is too close to a candidate at `point` for class `c`. */
  predicate Blocks(cfg: Config, p: Point, point: Vec2, c: int) {
    && 0 <= p.classIndex < |cfg.m| && 0 <= c < |cfg.m[p.classIndex]|
    && cfg.sqrt(ToroidalDistanceSq(p.v, point)) < cfg.m[p.classIndex][c]
  }

  /** An earlier point `p` does not block a later point `q`. */
  function Apart(cfg: Config): (Point, Point) -> bool {
    (p: Point, q: Point) => !Blocks(cfg, p, q.v, q.classIndex)
  }

  ghost predicate Valid(cfg: Config, st: State) {
    && Square(cfg.m, |st.layers|)
    && ClassesIn(st.points, |st.layers|)
    && CountsMatch(st.layers, st.points)
    && Pairwise(st.points, Apart(cfg))
    && st.failCount >= 0 && st.pointsRemoved >= 0
  }

  /** The positions of the points that block a candidate at `point` for class `c`. */
  ghost function ConflictSet(cfg: Config, pts: seq<Point>, point: Vec2, c: int): set<int> {
    set k | 0 <= k < |pts| && Blocks(cfg, pts[k], point, c)
  }

  /** A blocking point of class `cls` may be evicted for a candidate of class
      `c`: its layer is at least as full and its radius at least as large. */
  predicate Evictable(ls: seq<Layer>, cls: int, c: int)
    requires 0 <= cls < |ls| && 0 <= c < |ls|
  {
    && AtLeast(FillOf(ls[cls].sampleCount, ls[cls].targetCount), FillOf(ls[c].sampleCount, ls[c].targetCount))
    && ls[cls].radius >= ls[c].radius
  }

  /** The scan over the first `n` points. Once removal is off it stays off,
      and blocking points are only collected while it is on. */
  function ScanPoints(cfg: Config, ls: seq<Layer>, pts: seq<Point>, point: Vec2, c: int,
                      consider0: bool, n: nat): (r: Scan)
    requires Square(cfg.m, |ls|) && ClassesIn(pts, |ls|) && 0 <= c < |ls| && n <= |pts|
    ensures r.satisfies <==> forall k :: 0 <= k < n ==> !Blocks(cfg, pts[k], point, c)
    ensures r.consider <==>
      consider0 && forall k :: 0 <= k < n && Blocks(cfg, pts[k], point, c) ==> Evictable(ls, pts[k].classIndex, c)
    ensures StrictlyIncreasing(r.conflicts)
    ensures forall j :: 0 <= j < |r.conflicts| ==>
      0 <= r.conflicts[j] < n && Blocks(cfg, pts[r.conflicts[j]], point, c)
    ensures r.consider ==> forall k :: 0 <= k < n && Blocks(cfg, pts[k], point, c) ==> k in r.conflicts
  {
    if n == 0 then Scan(true, consider0, [])
    else
      var s := ScanPoints(cfg, ls, pts, point, c, consider0, n - 1);
      var k := n - 1;
      if Blocks(cfg, pts[k], point, c) then
        var consider := s.consider && Evictable(ls, pts[k].classIndex, c);
        var r := Scan(false, consider, if consider then s.conflicts + [k] else s.conflicts);
        ScanBlocked(cfg, ls, pts, point, c, consider0, n, s, r);
        r
      else s
  }

  /** The step of `ScanPoints` at a blocking point `n - 1`. */
  lemma ScanBlocked(cfg: Config, ls: seq<Layer>, pts: seq<Point>, point: Vec2, c: int,
                    consider0: bool, n: nat, s: Scan, r: Scan)
    requires Square(cfg.m, |ls|) && ClassesIn(pts, |ls|) && 0 <= c < |ls| && 0 < n <= |pts|
    requires Blocks(cfg, pts[n - 1], point, c)
    requires s.consider <==>
      consider0 && forall k :: 0 <= k < n - 1 && Blocks(cfg, pts[k], point, c) ==> Evictable(ls, pts[k].classIndex, c)
    requires StrictlyIncreasing(s.conflicts)
    requires forall j :: 0 <= j < |s.conflicts| ==>
      0 <= s.conflicts[j] < n - 1 && Blocks(cfg, pts[s.conflicts[j]], point, c)
    requires s.consider ==> forall k :: 0 <= k < n - 1 && Blocks(cfg, pts[k], point, c) ==> k in s.conflicts
    requires r.consider == (s.consider && Evictable(ls, pts[n - 1].classIndex, c))
    requires r.conflicts == if r.consider then s.conflicts + [n - 1] else s.conflicts
    ensures r.consider <==>
      consider0 && forall k :: 0 <= k < n && Blocks(cfg, pts[k], point, c) ==> Evictable(ls, pts[k].classIndex, c)
    ensures StrictlyIncreasing(r.conflicts)
    ensures forall j :: 0 <= j < |r.conflicts| ==>
      0 <= r.conflicts[j] < n && Blocks(cfg, pts[r.conflicts[j]], point, c)
    ensures r.consider ==> forall k :: 0 <= k < n && Blocks(cfg, pts[k], point, c) ==> k in r.conflicts
  {
    ScanBlockedConsider(cfg, ls, pts, point, c, consider0, n, s, r);
    ScanBlockedConflicts(cfg, pts, point, c, n, s.conflicts, r.conflicts, r.consider);
  }

  lemma ScanBlockedConsider(cfg: Config, ls: seq<Layer>, pts: seq<Point>, point: Vec2, c: int,
                            consider0: bool, n: nat, s: Scan, r: Scan)
    requires Square(cfg.m, |ls|) && ClassesIn(pts, |ls|) && 0 <= c < |ls| && 0 < n <= |pts|
    requires Blocks(cfg, pts[n - 1], point, c)
    requires s.consider <==>
      consider0 && forall k :: 0 <= k < n - 1 && Blocks(cfg, pts[k], point, c) ==> Evictable(ls, pts[k].classIndex, c)
    requires s.consider ==> forall k :: 0 <= k < n - 1 && Blocks(cfg, pts[k], point, c) ==> k in s.conflicts
    requires r.consider == (s.consider && Evictable(ls, pts[n - 1].classIndex, c))
    requires r.conflicts == if r.consider then s.conflicts + [n - 1] else s.conflicts
    ensures r.consider <==>
      consider0 && forall k :: 0 <= k < n && Blocks(cfg, pts[k], point, c) ==> Evictable(ls, pts[k].classIndex, c)
    ensures r.consider ==> forall k :: 0 <= k < n && Blocks(cfg, pts[k], point, c) ==> k in r.conflicts
  {
    if r.consider {
      forall k | 0 <= k < n && Blocks(cfg, pts[k], point, c)
        ensures Evictable(ls, pts[k].classIndex, c) && k in r.conflicts
      {
        if k < n - 1 {
          assert k in s.conflicts;
        }
      }
    }
  }

  lemma ScanBlockedConflicts(cfg: Config, pts: seq<Point>, point: Vec2, c: int, n: nat,
                             before: seq<int>, after: seq<int>, extend: bool)
    requires 0 < n <= |pts| && Blocks(cfg, pts[n - 1], point, c)
    requires StrictlyIncreasing(before)
    requires forall j :: 0 <= j < |before| ==> 0 <= before[j] < n - 1 && Blocks(cfg, pts[before[j]], point, c)
    requires after == if extend then before + [n - 1] else before
    ensures StrictlyIncreasing(after)
    ensures forall j :: 0 <= j < |after| ==> 0 <= after[j] < n && Blocks(cfg, pts[after[j]], point, c)
  {
  }

  /** What the loop body did with a candidate at `point` for the least
      filled layer `c`: accept it when nothing blocks it; evict every blocking
      point when the failure count reaches the eviction period and all of
      them are evictable; otherwise count a failure, giving up past the fatal
      limit. */
  ghost predicate Explains(cfg: Config, st: State, point: Vec2, c: int, r: Outcome)
    requires Valid(cfg, st) && 0 <= c < |st.layers| && cfg.failCountRemove != 0
  {
    match r
    case Next(next, Accept) =>
      && ConflictSet(cfg, st.points, point, c) == {}
      && next == State(Bump(st.layers, c, 1), st.points + [Point(c, point)], 0, st.pointsRemoved)
    case Next(next, EvictAll) =>
      && ConflictSet(cfg, st.points, point, c) != {}
      && CMod(st.failCount + 1, cfg.failCountRemove) == 0
      && (forall k :: k in ConflictSet(cfg, st.points, point, c) ==>
            0 <= k < |st.points| && Evictable(st.layers, st.points[k].classIndex, c))
      && next.points == Survivors(st.points, ConflictSet(cfg, st.points, point, c), |st.points|)
      && next.failCount == st.failCount + 1
      && |next.points| <= |st.points|
      && next.pointsRemoved == st.pointsRemoved + (|st.points| - |next.points|)
    case Next(next, Reject) =>
      && ConflictSet(cfg, st.points, point, c) != {}
      && next == st.(failCount := st.failCount + 1)
      && next.failCount <= cfg.failCountFatal
    case GiveUp(last) =>
      && ConflictSet(cfg, st.points, point, c) != {}
      && last == st.(failCount := st.failCount + 1)
      && last.failCount > cfg.failCountFatal
    case StepUndefined => false
  }

  /** One iteration of the loop body for the drawn `point`. */
  function Step(cfg: Config, st: State, point: Vec2): (r: Outcome)
    requires Valid(cfg, st)
    ensures r.StepUndefined? <==> LeastFilled(LayerFills(st.layers)).None? || cfg.failCountRemove == 0
    ensures r.Next? ==> Valid(cfg, r.next) && SameLayers(st.layers, r.next.layers)
    ensures r.Next? ==> |r.next.points| <= |st.points| + 1 && r.next.pointsRemoved >= st.pointsRemoved
    ensures r.GiveUp? ==> r.last.points == st.points && r.last.pointsRemoved == st.pointsRemoved
    ensures r.Next? || r.GiveUp? ==> Explains(cfg, st, point, LeastFilled(LayerFills(st.layers)).value, r)
  {
    match LeastFilled(LayerFills(st.layers))
    case None => StepUndefined
    case Some(c) =>
      if cfg.failCountRemove == 0 then StepUndefined
      else
        var r := Respond(cfg, st, point, c);
        ExplainedSizes(cfg, st, point, c, r);
        r
  }

  /** An explained outcome adds at most one point and never lowers the
      eviction total. */
  lemma ExplainedSizes(cfg: Config, st: State, point: Vec2, c: int, r: Outcome)
    requires Valid(cfg, st) && 0 <= c < |st.layers| && cfg.failCountRemove != 0
    requires Explains(cfg, st, point, c, r)
    ensures r.Next? ==> |r.next.points| <= |st.points| + 1 && r.next.pointsRemoved >= st.pointsRemoved
    ensures r.GiveUp? ==> r.last.points == st.points && r.last.pointsRemoved == st.pointsRemoved
  {
  }

  /** The loop body once the least filled layer `c` is known: scan the
      points, then accept, evict or count a failure. */
  function Respond(cfg: Config, st: State, point: Vec2, c: int): (r: Outcome)
    requires Valid(cfg, st) && 0 <= c < |st.layers| && cfg.failCountRemove != 0
    ensures r.Next? || r.GiveUp?
    ensures r.Next? ==> Valid(cfg, r.next) && SameLayers(st.layers, r.next.layers)
    ensures Explains(cfg, st, point, c, r)
  {
    var consider0 := CMod(st.failCount + 1, cfg.failCountRemove) == 0;
    var s := ScanPoints(cfg, st.layers, st.points, point, c, consider0, |st.points|);
    ConflictSetEmpty(cfg, st.points, point, c);
    if s.satisfies then
      AcceptValid(cfg, st, point, c);
      Next(State(Bump(st.layers, c, 1), st.points + [Point(c, point)], 0, st.pointsRemoved), Accept)
    else if s.consider then
      var e := Evict(st.layers, st.points, Reverse(s.conflicts));
      EvictExplained(cfg, st, point, c, s);
      Next(State(e.0, e.1, st.failCount + 1, st.pointsRemoved + |s.conflicts|), EvictAll)
    else
      FailureExplained(cfg, st, point, c);
      if st.failCount + 1 > cfg.failCountFatal then
        GiveUp(st.(failCount := st.failCount + 1))
      else
        Next(st.(failCount := st.failCount + 1), Reject)
  }

  /** An eviction after a blocked scan that collected its conflicts. */
  lemma EvictExplained(cfg: Config, st: State, point: Vec2, c: int, s: Scan)
    requires Valid(cfg, st) && 0 <= c < |st.layers| && cfg.failCountRemove != 0
    requires s == ScanPoints(cfg, st.layers, st.points, point, c,
                             CMod(st.failCount + 1, cfg.failCountRemove) == 0, |st.points|)
    requires !s.satisfies && s.consider
    ensures var e := Evict(st.layers, st.points, Reverse(s.conflicts));
      var next := State(e.0, e.1, st.failCount + 1, st.pointsRemoved + |s.conflicts|);
      && Valid(cfg, next) && SameLayers(st.layers, next.layers)
      && Explains(cfg, st, point, c, Next(next, EvictAll))
  {
    ConflictSetEmpty(cfg, st.points, point, c);
    EvictValid(cfg, st, point, c, s);
  }

  /** A failed candidate: something blocks it. */
  lemma FailureExplained(cfg: Config, st: State, point: Vec2, c: int)
    requires Valid(cfg, st) && 0 <= c < |st.layers| && cfg.failCountRemove != 0
    requires ConflictSet(cfg, st.points, point, c) != {}
    ensures Explains(cfg, st, point, c, Next(st.(failCount := st.failCount + 1), Reject))
              == (st.failCount + 1 <= cfg.failCountFatal)
    ensures Explains(cfg, st, point, c, GiveUp(st.(failCount := st.failCount + 1)))
              == (st.failCount + 1 > cfg.failCountFatal)
  {
  }

  lemma ConflictSetEmpty(cfg: Config, pts: seq<Point>, point: Vec2, c: int)
    ensures ConflictSet(cfg, pts, point, c) == {} <==> forall k :: 0 <= k < |pts| ==> !Blocks(cfg, pts[k], point, c)
  {
    if exists k :: 0 <= k < |pts| && Blocks(cfg, pts[k], point, c) {
      var k :| 0 <= k < |pts| && Blocks(cfg, pts[k], point, c);
      assert k in ConflictSet(cfg, pts, point, c);
    }
  }

  /** Accepting a point that nothing blocks keeps the state valid. */
  lemma AcceptValid(cfg: Config, st: State, point: Vec2, c: int)
    requires Valid(cfg, st) && 0 <= c < |st.layers|
    requires forall k :: 0 <= k < |st.points| ==> !Blocks(cfg, st.points[k], point, c)
    ensures Valid(cfg, State(Bump(st.layers, c, 1), st.points + [Point(c, point)], 0, st.pointsRemoved))
    ensures ConflictSet(cfg, st.points, point, c) == {}
    ensures cfg.failCountRemove != 0 ==> Explains(cfg, st, point, c,
      Next(State(Bump(st.layers, c, 1), st.points + [Point(c, point)], 0, st.pointsRemoved), Accept))
  {
    ConflictSetEmpty(cfg, st.points, point, c);
    CountsMatchPush(st.layers, st.points, c, point);
    PushPairwise(st.points, Point(c, point), Apart(cfg));
  }

  /** Evicting the collected conflicts removes exactly the blocking points
      and keeps the state valid. */
  lemma EvictValid(cfg: Config, st: State, point: Vec2, c: int, s: Scan)
    requires Valid(cfg, st) && 0 <= c < |st.layers|
    requires StrictlyIncreasing(s.conflicts)
    requires forall j :: 0 <= j < |s.conflicts| ==>
      0 <= s.conflicts[j] < |st.points| && Blocks(cfg, st.points[s.conflicts[j]], point, c)
    requires forall k :: 0 <= k < |st.points| && Blocks(cfg, st.points[k], point, c) ==> k in s.conflicts
    ensures var e := Evict(st.layers, st.points, Reverse(s.conflicts));
      && Valid(cfg, State(e.0, e.1, st.failCount + 1, st.pointsRemoved + |s.conflicts|))
      && SameLayers(st.layers, e.0)
      && e.1 == Survivors(st.points, ConflictSet(cfg, st.points, point, c), |st.points|)
      && |e.1| == |st.points| - |s.conflicts|
  {
    var desc := Reverse(s.conflicts);
    ReverseSorts(s.conflicts);
    assert Elements(s.conflicts) == ConflictSet(cfg, st.points, point, c);
    EvictSurvivors(st.layers, st.points, desc);
    EvictPairwise(st.layers, st.points, desc, Apart(cfg));
  }

  /** The loop: runs while the point list is short of the target and fewer
      points than the target have been evicted, one draw per iteration. */
  function Run(cfg: Config, st: State, draws: seq<Vec2>): (r: RunResult)
    requires Valid(cfg, st)
    ensures r.Ran? ==> Valid(cfg, r.final) && SameLayers(st.layers, r.final.layers)
    ensures r.Ran? ==> (r.exit == Filled <==> |r.final.points| >= cfg.targetCount)
    ensures r.Ran? && r.exit == RemovalBudget ==> r.final.pointsRemoved >= cfg.targetCount
    ensures r.Ran? && (r.exit == Abandoned || r.exit == DrawsExhausted) ==>
      r.final.pointsRemoved < cfg.targetCount
    ensures r.Ran? && r.exit == Abandoned ==> r.final.failCount > cfg.failCountFatal
    ensures r.Ran? ==> |r.final.points| <= Max(cfg.targetCount, |st.points|)
    ensures r.Ran? ==> r.final.pointsRemoved >= st.pointsRemoved
    decreases |draws|
  {
    if !(|st.points| < cfg.targetCount && st.pointsRemoved < cfg.targetCount) then
      Ran(st, if |st.points| >= cfg.targetCount then Filled else RemovalBudget)
    else if draws == [] then Ran(st, DrawsExhausted)
    else
      match Step(cfg, st, draws[0])
      case StepUndefined => RunUndefined
      case GiveUp(last) => Ran(last, Abandoned)
      case Next(next, _) => Run(cfg, next, draws[1..])
  }

  /** The failure limits derived from a target count. */
  function Limits(targetCount: int): (l: (int, int))
    ensures l.0 == 5 * targetCount && Abs(l.1) == Abs(targetCount) / 2
    ensures targetCount >= 0 ==> l.1 >= 0
    ensures targetCount <= 0 ==> l.1 <= 0
  {
    (targetCount * 5, CDiv(targetCount, 2))
  }

  /** The whole of `Make` for caller radii `radii`, with the failure limits
      taken from `limitsFrom` and the relabelling of the unsort step chosen
      by `asWritten`. */
  function Build(radii: seq<real>, targetCount: int, limitsFrom: int,
                 sqrt: real -> real, invSqrt: real -> real, draws: seq<Vec2>, asWritten: bool): (r: Generated)
    requires NonZero(radii)
    ensures r.Generated? ==> ClassesIn(r.points, |radii|)
    ensures r.Generated? ==> |r.points| <= Max(targetCount, 0)
    ensures r.Generated? ==> (r.exit == Filled <==> |r.points| >= targetCount)
    ensures targetCount > 0 && |draws| > 0 && Limits(limitsFrom).1 == 0 ==> r.Undefined?
    ensures targetCount <= 0 ==> r == Generated([], Filled)
    ensures !asWritten && r.Generated? ==> SameClassApart(r.points, radii, sqrt)
    ensures !asWritten && r.Generated? ==>
      CallerApart(r.points, SortByKey(radii, |radii|), SortedMatrix(radii, invSqrt), sqrt)
  {
    var s := Setup(radii, targetCount, limitsFrom, sqrt, invSqrt);
    StartLayersOrder(radii, targetCount);
    assert s.0 == SortByKey(radii, |radii|);
    assert Radii(s.2.layers) == Permute(radii, s.0);
    Finish(radii, s.0, s.1, s.2, draws, asWritten)
  }

  /** The r-matrix `Make` builds: that of the caller's radii sorted by
      decreasing value, with equal radii grouped. */
  function SortedMatrix(radii: seq<real>, invSqrt: real -> real): seq<seq<real>>
    requires NonZero(radii)
  {
    RMatrix(Permute(radii, SortByKey(radii, |radii|)), true, invSqrt)
  }

  /** The loop and the unsort step of `Make`, from the state `Setup` built. */
  function Finish(radii: seq<real>, order: seq<int>, cfg: Config, st: State, draws: seq<Vec2>, asWritten: bool): (r: Generated)
    requires |order| == |radii| && multiset(order) == multiset(Range(|radii|))
    requires forall k :: 0 <= k < |order| ==> 0 <= order[k] < |radii|
    requires Valid(cfg, st) && Origs(st.layers) == order
    requires forall k :: 0 <= k < |order| ==> cfg.m[k][k] == radii[order[k]]
    requires st == State(st.layers, [], 0, 0)
    ensures r.Generated? ==> ClassesIn(r.points, |radii|)
    ensures r.Generated? ==> |r.points| <= Max(cfg.targetCount, 0)
    ensures r.Generated? ==> (r.exit == Filled <==> |r.points| >= cfg.targetCount)
    ensures cfg.targetCount > 0 && |draws| > 0 && cfg.failCountRemove == 0 ==> r.Undefined?
    ensures cfg.targetCount <= 0 ==> r == Generated([], Filled)
    ensures !asWritten && r.Generated? ==> SameClassApart(r.points, radii, cfg.sqrt)
    ensures !asWritten && r.Generated? ==> CallerApart(r.points, order, cfg.m, cfg.sqrt)
  {
    if cfg.targetCount > 0 && |draws| > 0 && cfg.failCountRemove == 0 then
      RunWithoutRemoval(cfg, st, draws);
      Undefined
    else
      match Run(cfg, st, draws)
      case RunUndefined => Undefined
      case Ran(final, exit) =>
        assert Origs(final.layers) == order;
        Relabel(radii, order, cfg, final, exit, asWritten)
  }

  /** The finished run's points handed back in the caller's classes. */
  function Relabel(radii: seq<real>, order: seq<int>, cfg: Config, final: State, exit: Exit, asWritten: bool): (r: Generated)
    requires multiset(order) == multiset(Range(|radii|)) && |order| == |radii|
    requires forall k :: 0 <= k < |order| ==> 0 <= order[k] < |radii|
    requires Valid(cfg, final) && Origs(final.layers) == order
    requires forall k :: 0 <= k < |order| ==> cfg.m[k][k] == radii[order[k]]
    ensures r.Generated? && r.exit == exit && |r.points| == |final.points|
    ensures ClassesIn(r.points, |radii|)
    ensures !asWritten ==> SameClassApart(r.points, radii, cfg.sqrt)
    ensures !asWritten ==> CallerApart(r.points, order, cfg.m, cfg.sqrt)
  {
    if asWritten then Generated(Unsort(final.layers, final.points, true).points, exit)
    else
      UnsortedApart(radii, order, cfg, final);
      UnsortedCallerApart(order, cfg, final);
      Generated(Unsort(final.layers, final.points, false).points, exit)
  }

  /** What `Make` sets up before the loop: the permutation sorting the radii
      by decreasing value, the r-matrix of the sorted radii with the failure
      limits, and the sorted layers with their shares of the target count. */
  function Setup(radii: seq<real>, targetCount: int, limitsFrom: int,
                 sqrt: real -> real, invSqrt: real -> real): (s: (seq<int>, Config, State))
    requires NonZero(radii)
    ensures SetUp(radii, targetCount, limitsFrom, sqrt, invSqrt, s.0, s.1, s.2)
  {
    SetupFrom(radii, targetCount, limitsFrom, sqrt, invSqrt, StartLayers(radii, targetCount))
  }

  /** The rest of `Setup` once the layers are sorted: the matrix of the
      sorted radii, the limits and a state without points. */
  function SetupFrom(radii: seq<real>, targetCount: int, limitsFrom: int,
                     sqrt: real -> real, invSqrt: real -> real, ls: seq<Layer>): (s: (seq<int>, Config, State))
    requires |ls| == |radii| && multiset(Origs(ls)) == multiset(Range(|radii|))
    requires forall k :: 0 <= k < |ls| ==> 0 <= ls[k].originalIndex < |radii| && ls[k].radius == radii[ls[k].originalIndex]
    requires forall i, j :: 0 <= i < j < |ls| ==> ls[i].radius >= ls[j].radius
    requires Targeted(ls, targetCount) && CountsMatch(ls, [])
    ensures SetUp(radii, targetCount, limitsFrom, sqrt, invSqrt, s.0, s.1, s.2)
  {
    var limits := Limits(limitsFrom);
    var cfg := Config(RMatrix(Radii(ls), true, invSqrt), targetCount, limits.0, limits.1, sqrt);
    var st := State(ls, [], 0, 0);
    assert Valid(cfg, st);
    (Origs(ls), cfg, st)
  }

  /** What `Setup` promises: `order` sorts the caller's radii into
      non-increasing order, `st` holds the layers in that order with their
      shares of the target and no points, and `cfg` the grouped r-matrix of
      the sorted radii and the limits. */
  ghost predicate SetUp(radii: seq<real>, targetCount: int, limitsFrom: int, sqrt: real -> real,
                        invSqrt: real -> real, order: seq<int>, cfg: Config, st: State)
  {
    && |order| == |radii| && multiset(order) == multiset(Range(|radii|))
    && (forall k :: 0 <= k < |order| ==> 0 <= order[k] < |radii|)
    && Valid(cfg, st) && Origs(st.layers) == order
    && (forall k :: 0 <= k < |order| ==> st.layers[k].radius == radii[order[k]])
    && (forall i, j :: 0 <= i < j < |st.layers| ==> st.layers[i].radius >= st.layers[j].radius)
    && Targeted(st.layers, targetCount)
    && cfg.m == RMatrix(Radii(st.layers), true, invSqrt)
    && (forall k :: 0 <= k < |order| ==> cfg.m[k][k] == radii[order[k]])
    && st == State(st.layers, [], 0, 0)
    && cfg.targetCount == targetCount && cfg.sqrt == sqrt
    && cfg.failCountRemove == Limits(limitsFrom).1
  }

  /** Without an eviction period the first iteration of the loop is undefined. */
  lemma RunWithoutRemoval(cfg: Config, st: State, draws: seq<Vec2>)
    requires Valid(cfg, st) && cfg.failCountRemove == 0 && draws != []
    requires |st.points| < cfg.targetCount && st.pointsRemoved < cfg.targetCount
    ensures Run(cfg, st, draws) == RunUndefined
  {
    assert Step(cfg, st, draws[0]).StepUndefined?;
  }

  /** Two points of the same caller class are at least that class's radius
      apart. */
  ghost predicate SameClassApart(pts: seq<Point>, radii: seq<real>, sqrt: real -> real) {
    forall a, b :: 0 <= a < b < |pts| && pts[a].classIndex == pts[b].classIndex && 0 <= pts[a].classIndex < |radii| ==>
      sqrt(ToroidalDistanceSq(pts[a].v, pts[b].v)) >= radii[pts[a].classIndex]
  }

  /** With the intended relabelling, the hard-disk constraint of the sorted
      run carries over to the caller's classes. */
  lemma UnsortedApart(radii: seq<real>, order: seq<int>, cfg: Config, final: State)
    requires multiset(order) == multiset(Range(|radii|)) && |order| == |radii|
    requires forall k :: 0 <= k < |order| ==> 0 <= order[k] < |radii|
    requires Valid(cfg, final) && Origs(final.layers) == order
    requires forall k :: 0 <= k < |order| ==> cfg.m[k][k] == radii[order[k]]
    ensures SameClassApart(Unsort(final.layers, final.points, false).points, radii, cfg.sqrt)
  {
    PermutationDistinct(order, |radii|);
    UnsortRestoresCallerClasses(final.layers, final.points);
    var u := Unsort(final.layers, final.points, false).points;
    forall a, b | 0 <= a < b < |u| && u[a].classIndex == u[b].classIndex && 0 <= u[a].classIndex < |radii|
      ensures cfg.sqrt(ToroidalDistanceSq(u[a].v, u[b].v)) >= radii[u[a].classIndex]
    {
      var pa, pb := final.points[a], final.points[b];
      assert u[a] == Point(order[pa.classIndex], pa.v);
      assert u[b] == Point(order[pb.classIndex], pb.v);
      assert pa.classIndex == pb.classIndex;
      assert Apart(cfg)(pa, pb);
    }
  }

  /** Two points of any caller classes are at least the r-matrix entry of
      their sorted layers apart: `order[i]` is the caller class generated in
      sorted layer `i` and `m` the r-matrix of the sorted radii. */
  ghost predicate CallerApart(pts: seq<Point>, order: seq<int>, m: seq<seq<real>>, sqrt: real -> real) {
    forall a, b, i, j ::
      (&& 0 <= a < b < |pts| && 0 <= i < |m| && 0 <= j < |m[i]| && i < |order| && j < |order|
       && order[i] == pts[a].classIndex && order[j] == pts[b].classIndex) ==>
      sqrt(ToroidalDistanceSq(pts[a].v, pts[b].v)) >= m[i][j]
  }

  /** With the intended relabelling, the r-matrix spacing of the sorted run,
      across classes as well as within one, carries over to the caller's
      classes. */
  lemma UnsortedCallerApart(order: seq<int>, cfg: Config, final: State)
    requires Valid(cfg, final) && Origs(final.layers) == order
    requires multiset(order) == multiset(Range(|order|))
    ensures CallerApart(Unsort(final.layers, final.points, false).points, order, cfg.m, cfg.sqrt)
  {
    UnsortKeepsPairwise(final.layers, final.points, Apart(cfg));
    SortedApartIsCallerApart(Unsort(final.layers, final.points, false).points, order, cfg);
  }

  /** Spacing stated through the sort order is spacing in the caller's classes. */
  lemma SortedApartIsCallerApart(u: seq<Point>, order: seq<int>, cfg: Config)
    requires PairwiseSorted(u, order, Apart(cfg))
    ensures CallerApart(u, order, cfg.m, cfg.sqrt)
  {
    forall a, b, i, j |
        && 0 <= a < b < |u| && 0 <= i < |cfg.m| && 0 <= j < |cfg.m[i]| && i < |order| && j < |order|
        && order[i] == u[a].classIndex && order[j] == u[b].classIndex
      ensures cfg.sqrt(ToroidalDistanceSq(u[a].v, u[b].v)) >= cfg.m[i][j]
    {
      assert Apart(cfg)(Point(i, u[a].v), Point(j, u[b].v));
    }
  }

  /** `Make` as written. The failure limits are `static const` locals, so
      they are computed once, from the target count of the first call of
      this instantiation (`firstTargetCount`), and the unsort step relabels
      with the literal 1. */
  function Make(radii: seq<real>, targetCount: int, firstTargetCount: int,
                sqrt: real -> real, invSqrt: real -> real, draws: seq<Vec2>): (r: Generated)
    requires NonZero(radii)
    ensures r.Generated? ==> ClassesIn(r.points, |radii|) && |r.points| <= Max(targetCount, 0)
    ensures r.Generated? ==> (r.exit == Filled <==> |r.points| >= targetCount)
    ensures targetCount > 0 && |draws| > 0 && -1 <= firstTargetCount <= 1 ==> r.Undefined?
  {
    Build(radii, targetCount, firstTargetCount, sqrt, invSqrt, draws, true)
  }

  /** `Make` as evidently intended: limits from this call's target count and
      the unsort relabelling a true swap. Points of one caller class then
      keep that class's radius apart. */
  function MakeIntended(radii: seq<real>, targetCount: int,
                        sqrt: real -> real, invSqrt: real -> real, draws: seq<Vec2>): (r: Generated)
    requires NonZero(radii)
    ensures r.Generated? ==> ClassesIn(r.points, |radii|) && |r.points| <= Max(targetCount, 0)
    ensures r.Generated? ==> (r.exit == Filled <==> |r.points| >= targetCount)
    ensures r.Generated? ==> SameClassApart(r.points, radii, sqrt)
    ensures r.Generated? ==>
      CallerApart(r.points, SortByKey(radii, |radii|), SortedMatrix(radii, invSqrt), sqrt)
    ensures targetCount == 1 && |draws| > 0 ==> r.Undefined?
  {
    assert Limits(1).1 == 0;
    Build(radii, targetCount, targetCount, sqrt, invSqrt, draws, false)
  }

  /** With one layer and a target of at least two, the first dart is always
      kept when the limits come from this call. An earlier call for no
      points is defined and returns nothing, yet freezes the eviction period
      at zero, after which the same call is undefined. */
  lemma FirstDartAccepted(radius: real, targetCount: int, sqrt: real -> real, invSqrt: real -> real, p: Vec2)
    requires radius != 0.0 && targetCount >= 2
    ensures MakeIntended([radius], targetCount, sqrt, invSqrt, [p]) == Generated([Point(0, p)], DrawsExhausted)
    ensures Make([radius], 0, 0, sqrt, invSqrt, [p]) == Generated([], Filled)
    ensures Make([radius], targetCount, 0, sqrt, invSqrt, [p]) == Undefined
  {
    IntendedKeepsFirstDart(radius, targetCount, sqrt, invSqrt, p);
    assert Limits(0).1 == 0;
  }

  lemma IntendedKeepsFirstDart(radius: real, targetCount: int, sqrt: real -> real, invSqrt: real -> real, p: Vec2)
    requires radius != 0.0 && targetCount >= 2
    ensures MakeIntended([radius], targetCount, sqrt, invSqrt, [p]) == Generated([Point(0, p)], DrawsExhausted)
  {
    SingleLayerSetup(radius, targetCount);
    var s := Setup([radius], targetCount, targetCount, sqrt, invSqrt);
    assert s.2.layers == [Layer(radius, 0, 0, targetCount)];
    SingleLayerRun(s.1, radius, p);
    var final := State(Bump(s.2.layers, 0, 1), [Point(0, p)], 0, 0);
    SingleLayerUnsort(final.layers, p);
  }

  /** Unsorting a single layer leaves its points as they are. */
  lemma SingleLayerUnsort(ls: seq<Layer>, p: Vec2)
    requires |ls| == 1
    ensures Unsort(ls, [Point(0, p)], false).points == [Point(0, p)]
  {
    var u := Unsort(ls, [Point(0, p)], false).points;
    assert ClassesIn([Point(0, p)], 1);
    assert |u| == 1 && u[0].v == p && 0 <= u[0].classIndex < 1;
  }

  lemma SingleLayerSetup(radius: real, targetCount: int)
    requires radius != 0.0 && targetCount >= 0
    ensures SortByKey([radius], 1) == [0]
    ensures TargetCounts(Weights(Permute([radius], [0])), targetCount) == [targetCount]
  {
    var ws := Weights(Permute([radius], [0]));
    assert Sum(ws, 1) == ws[0];
    WholeShare(targetCount as real, ws[0]);
    assert Trunc(targetCount as real) == targetCount;
    assert TargetShare(ws, 0, targetCount) == targetCount;
  }

  /** A lone layer accepts the first dart, and with one draw the run stops there. */
  lemma SingleLayerRun(cfg: Config, radius: real, p: Vec2)
    requires cfg.targetCount >= 2 && cfg.failCountRemove != 0 && Square(cfg.m, 1)
    ensures var ls := [Layer(radius, 0, 0, cfg.targetCount)];
      && Valid(cfg, State(ls, [], 0, 0))
      && Run(cfg, State(ls, [], 0, 0), [p]) == Ran(State(Bump(ls, 0, 1), [Point(0, p)], 0, 0), DrawsExhausted)
  {
    var ls := [Layer(radius, 0, 0, cfg.targetCount)];
    var st := State(ls, [], 0, 0);
    var next := State(Bump(ls, 0, 1), [Point(0, p)], 0, 0);
    SingleLayerStep(cfg, radius, p);
    assert [p][1..] == [];
    assert Run(cfg, st, [p]) == Run(cfg, next, []);
  }

  lemma SingleLayerStep(cfg: Config, radius: real, p: Vec2)
    requires cfg.targetCount >= 2 && cfg.failCountRemove != 0 && Square(cfg.m, 1)
    ensures var ls := [Layer(radius, 0, 0, cfg.targetCount)];
      && Valid(cfg, State(ls, [], 0, 0))
      && Step(cfg, State(ls, [], 0, 0), p) == Next(State(Bump(ls, 0, 1), [Point(0, p)], 0, 0), Accept)
  {
    var ls := [Layer(radius, 0, 0, cfg.targetCount)];
    var st := State(ls, [], 0, 0);
    assert Valid(cfg, st);
    SingleLayerLeast(ls);
    assert ConflictSet(cfg, [], p, 0) == {};
  }

  lemma SingleLayerLeast(ls: seq<Layer>)
    requires |ls| == 1 && ls[0].sampleCount == 0 && ls[0].targetCount > 0
    ensures LeastFilled(LayerFills(ls)) == Some(0)
  {
    assert LayerFills(ls)[0] == Finite(0.0);
  }
}

=== FILE: HardAdaptive.dfy ===
/** Adaptive multi-class dart throwing: every layer carries an image of
    radii, one per pixel, so every pixel has its own r-matrix. Candidates
    are drawn on the pixel grid; the minimum distance between a candidate
    and an existing point is the mean of the two pixels' matrix entries.
    Image loading is not part of this model: the loaded radii are inputs. */
module HardAdaptive {
  import opened MathUtils
  import opened Points
  import opened Layers
  import opened Separation
  import opened Engine

  /** A caller layer once its image is loaded: `imageRadius` holds one
      radius per pixel of the `w` × `h` grid, row by row, and
      `expectedRadius` is their mean. */
  datatype LayerImage = LayerImage(imageRadius: seq<real>, expectedRadius: real)

  /** One draw of the discrete random source: a pixel column and row. */
  datatype Draw = Draw(x: int, y: int)

  /** The fixed inputs of the loop. `asWritten` selects the source's
      comparison of a squared distance with an unsquared threshold; when it
      is off the threshold is squared as well. */
  datatype Config = Config(
    ms: seq<seq<seq<real>>>,
    w: int,
    h: int,
    targetCount: int,
    failCountFatal: int,
    failCountRemove: int,
    asWritten: bool)

  /** One `n` × `n` matrix per pixel, with no zero entry. */
  ghost predicate ConfigOk(cfg: Config, n: nat) {
    && cfg.w >= 2 && cfg.h >= 2 && |cfg.ms| == cfg.w * cfg.h
    && (forall p :: 0 <= p < |cfg.ms| ==> Square(cfg.ms[p], n))
    && forall p, i, j :: 0 <= p < |cfg.ms| && 0 <= i < n && 0 <= j < n ==> cfg.ms[p][i][j] != 0.0
  }

  /** The random source's contract: column below `w - 1`, row below `h - 1`. */
  ghost predicate DrawsOk(w: int, h: int, draws: seq<Draw>) {
    forall k :: 0 <= k < |draws| ==> 0 <= draws[k].x < w - 1 && 0 <= draws[k].y < h - 1
  }

  lemma PixelInRange(x: int, y: int, w: int, h: int)
    requires 0 <= x < w && 0 <= y < h
    ensures 0 <= y * w + x < w * h
  {
    assert y * w <= (h - 1) * w;
  }

  /** The drawn pixel as a point of the unit square. */
  function PointOf(w: int, h: int, d: Draw): (v: Vec2)
    requires w >= 2 && h >= 2
    ensures 0 <= d.x < w - 1 && 0 <= d.y < h - 1 ==> InUnitSquare(v)
  {
    Vec2(d.x as real / (w - 1) as real, d.y as real / (h - 1) as real)
  }

  /** The row-major index of the drawn pixel. */
  function CandidatePixel(w: int, d: Draw): int {
    d.y * w + d.x
  }

  /** One coordinate of the pixel an existing point is looked up at: scaled
      by the grid size, clamped to the grid and truncated. */
  function CellIndex(f: real, n: int): (i: int)
    ensures n >= 1 ==> 0 <= i < n
  {
    Trunc(Clamp(f * n as real, 0.0, (n - 1) as real))
  }

  /** The row-major index of the pixel an existing point is looked up at. */
  function PixelAt(w: int, h: int, v: Vec2): (p: int)
    ensures w >= 1 && h >= 1 ==> 0 <= p < w * h
  {
    var ex, ey := CellIndex(v.x, w), CellIndex(v.y, h);
    if w >= 1 && h >= 1 then
      PixelInRange(ex, ey, w, h);
      ey * w + ex
    else ey * w + ex
  }

  /** A coordinate drawn below `n - 1` comes back unchanged from dividing by
      `n - 1` and looking the result up on a grid of `n` cells. */
  lemma CoordinateRoundTrip(u: int, n: int)
    requires n >= 2 && 0 <= u < n - 1
    ensures CellIndex(u as real / (n - 1) as real, n) == u
  {
    var d := (n - 1) as real;
    var a := u as real / d;
    assert a * d == u as real;
    assert 0.0 <= a < 1.0;
    var x := a * n as real;
    assert x == a * d + a;
    assert u as real <= x < u as real + 1.0 <= d;
  }

  /** A stored point is looked up at the pixel it was drawn at. */
  lemma DrawPixelRoundTrip(w: int, h: int, d: Draw)
    requires w >= 2 && h >= 2 && 0 <= d.x < w - 1 && 0 <= d.y < h - 1
    ensures PixelAt(w, h, PointOf(w, h, d)) == CandidatePixel(w, d)
  {
    CoordinateRoundTrip(d.x, w);
    CoordinateRoundTrip(d.y, h);
  }

  /** The distance test: as written the squared distance is compared with
      the threshold itself, otherwise with its square. */
  predicate TooClose(dsq: real, threshold: real, asWritten: bool) {
    if asWritten then dsq < threshold else dsq < threshold * threshold
  }

  /** Point `q` blocks a candidate at `point`, drawn at pixel `cand`, for
      class `c`. */
  predicate Blocks(cfg: Config, q: Point, point: Vec2, cand: int, c: int) {
    var e := PixelAt(cfg.w, cfg.h, q.v);
    && 0 <= cand < |cfg.ms| && 0 <= e < |cfg.ms|
    && 0 <= c < |cfg.ms[cand]| && 0 <= c < |cfg.ms[e]|
    && 0 <= q.classIndex < |cfg.ms[cand][c]| && 0 <= q.classIndex < |cfg.ms[e][c]|
    && TooClose(ToroidalDistanceSq(q.v, point),
                (cfg.ms[cand][c][q.classIndex] + cfg.ms[e][c][q.classIndex]) / 2.0, cfg.asWritten)
  }

  /** An earlier point `p` does not block a later point `q` at `q`'s pixel. */
  function Apart(cfg: Config): (Point, Point) -> bool {
    (p: Point, q: Point) => !Blocks(cfg, p, q.v, PixelAt(cfg.w, cfg.h, q.v), q.classIndex)
  }

  ghost predicate Valid(cfg: Config, st: State) {
    && ConfigOk(cfg, |st.layers|)
    && ClassesIn(st.points, |st.layers|)
    && CountsMatch(st.layers, st.points)
    && Pairwise(st.points, Apart(cfg))
    && st.failCount >= 0 && st.pointsRemoved >= 0
  }

  ghost function ConflictSet(cfg: Config, pts: seq<Point>, point: Vec2, cand: int, c: int): set<int> {
    set k | 0 <= k < |pts| && Blocks(cfg, pts[k], point, cand, c)
  }

  /** A blocking point `q` may be evicted for a candidate of class `c` at
      pixel `cand`: its layer is at least as full, and the reciprocal of its
      own pixel's entry is at least that of the candidate's. */
  predicate Evictable(cfg: Config, ls: seq<Layer>, q: Point, cand: int, c: int)
    requires ConfigOk(cfg, |ls|) && 0 <= cand < |cfg.ms| && 0 <= c < |ls| && 0 <= q.classIndex < |ls|
  {
    var e := PixelAt(cfg.w, cfg.h, q.v);
    && AtLeast(FillOf(ls[q.classIndex].sampleCount, ls[q.classIndex].targetCount),
               FillOf(ls[c].sampleCount, ls[c].targetCount))
    && 1.0 / cfg.ms[e][c][q.classIndex] >= 1.0 / cfg.ms[cand][c][q.classIndex]
  }

  /** What the scan has established after the first `i` points: every
      blocking point among them is collected, in increasing order, while
      eviction is still on; `consider` says whether eviction is on, which
      needs the eviction period and every blocking point so far evictable. */
  ghost predicate Scanned(cfg: Config, ls: seq<Layer>, pts: seq<Point>, point: Vec2, cand: int, c: int,
                          consider0: bool, i: nat, consider: bool, conflicts: seq<int>)
    requires ConfigOk(cfg, |ls|) && ClassesIn(pts, |ls|) && 0 <= c < |ls| && 0 <= cand < |cfg.ms| && i <= |pts|
  {
    && StrictlyIncreasing(conflicts)
    && (forall j :: 0 <= j < |conflicts| ==> 0 <= conflicts[j] < i && Blocks(cfg, pts[conflicts[j]], point, cand, c))
    && (forall k :: 0 <= k < i && Blocks(cfg, pts[k], point, cand, c) ==> k in conflicts)
    && (consider <==>
          consider0 && forall k :: 0 <= k < i && Blocks(cfg, pts[k], point, cand, c) ==> Evictable(cfg, ls, pts[k], cand, c))
    && (!consider ==> conflicts == [])
  }

  /** What the scan reports about all the points: nothing blocks the
      candidate exactly when no conflict is listed; eviction stays on only
      with the eviction period and every blocking point evictable, and then
      the conflicts are exactly the blocking points, in increasing order. */
  ghost predicate Reports(cfg: Config, ls: seq<Layer>, pts: seq<Point>, point: Vec2, cand: int, c: int,
                          consider0: bool, r: Scan)
    requires ConfigOk(cfg, |ls|) && ClassesIn(pts, |ls|) && 0 <= c < |ls| && 0 <= cand < |cfg.ms|
  {
    && (r.satisfies <==> r.conflicts == [])
    && (r.satisfies <==> forall k :: 0 <= k < |pts| ==> !Blocks(cfg, pts[k], point, cand, c))
    && (r.consider <==>
          consider0 && forall k :: 0 <= k < |pts| && Blocks(cfg, pts[k], point, cand, c) ==> Evictable(cfg, ls, pts[k], cand, c))
    && StrictlyIncreasing(r.conflicts)
    && (forall j :: 0 <= j < |r.conflicts| ==>
          0 <= r.conflicts[j] < |pts| && Blocks(cfg, pts[r.conflicts[j]], point, cand, c))
    && (r.consider ==> forall k :: 0 <= k < |pts| && Blocks(cfg, pts[k], point, cand, c) ==> k in r.conflicts)
  }

  /** The scan from position `i` on. A blocking point is always collected;
      once eviction is off the scan stops at that point. */
  function ScanFrom(cfg: Config, ls: seq<Layer>, pts: seq<Point>, point: Vec2, cand: int, c: int,
                    consider0: bool, i: nat, consider: bool, conflicts: seq<int>): (r: Scan)
    requires ConfigOk(cfg, |ls|) && ClassesIn(pts, |ls|) && 0 <= c < |ls| && 0 <= cand < |cfg.ms| && i <= |pts|
    requires Scanned(cfg, ls, pts, point, cand, c, consider0, i, consider, conflicts)
    ensures Reports(cfg, ls, pts, point, cand, c, consider0, r)
    decreases |pts| - i
  {
    if i == |pts| then
      ScanDone(cfg, ls, pts, point, cand, c, consider0, consider, conflicts);
      Scan(conflicts == [], consider, conflicts)
    else if Blocks(cfg, pts[i], point, cand, c) then
      var consider' := consider && Evictable(cfg, ls, pts[i], cand, c);
      ScanCollect(cfg, ls, pts, point, cand, c, consider0, i, consider, conflicts);
      if !consider' then Scan(false, false, conflicts + [i])
      else ScanFrom(cfg, ls, pts, point, cand, c, consider0, i + 1, true, conflicts + [i])
    else
      ScanSkip(cfg, ls, pts, point, cand, c, consider0, i, consider, conflicts);
      ScanFrom(cfg, ls, pts, point, cand, c, consider0, i + 1, consider, conflicts)
  }

  /** At the end of the points the scan reports what it has established. */
  lemma ScanDone(cfg: Config, ls: seq<Layer>, pts: seq<Point>, point: Vec2, cand: int, c: int,
                 consider0: bool, consider: bool, conflicts: seq<int>)
    requires ConfigOk(cfg, |ls|) && ClassesIn(pts, |ls|) && 0 <= c < |ls| && 0 <= cand < |cfg.ms|
    requires Scanned(cfg, ls, pts, point, cand, c, consider0, |pts|, consider, conflicts)
    ensures Reports(cfg, ls, pts, point, cand, c, consider0, Scan(conflicts == [], consider, conflicts))
  {
    assert conflicts != [] ==> Blocks(cfg, pts[conflicts[0]], point, cand, c);
  }

  /** A point that does not block leaves the scan's findings as they are. */
  lemma ScanSkip(cfg: Config, ls: seq<Layer>, pts: seq<Point>, point: Vec2, cand: int, c: int,
                 consider0: bool, i: nat, consider: bool, conflicts: seq<int>)
    requires ConfigOk(cfg, |ls|) && ClassesIn(pts, |ls|) && 0 <= c < |ls| && 0 <= cand < |cfg.ms| && i < |pts|
    requires Scanned(cfg, ls, pts, point, cand, c, consider0, i, consider, conflicts)
    requires !Blocks(cfg, pts[i], point, cand, c)
    ensures Scanned(cfg, ls, pts, point, cand, c, consider0, i + 1, consider, conflicts)
  {
  }

  /** Collecting the blocking point `i`: the scan goes on while eviction
      stays on, and otherwise it already reports the final answer. */
  lemma ScanCollect(cfg: Config, ls: seq<Layer>, pts: seq<Point>, point: Vec2, cand: int, c: int,
                    consider0: bool, i: nat, consider: bool, conflicts: seq<int>)
    requires ConfigOk(cfg, |ls|) && ClassesIn(pts, |ls|) && 0 <= c < |ls| && 0 <= cand < |cfg.ms| && i < |pts|
    requires Blocks(cfg, pts[i], point, cand, c)
    requires Scanned(cfg, ls, pts, point, cand, c, consider0, i, consider, conflicts)
    ensures consider && Evictable(cfg, ls, pts[i], cand, c) ==>
      Scanned(cfg, ls, pts, point, cand, c, consider0, i + 1, true, conflicts + [i])
    ensures !(consider && Evictable(cfg, ls, pts[i], cand, c)) ==>
      Reports(cfg, ls, pts, point, cand, c, consider0, Scan(false, false, conflicts + [i]))
  {
    var cs := conflicts + [i];
    assert StrictlyIncreasing(cs);
    assert forall j :: 0 <= j < |cs| ==> 0 <= cs[j] < i + 1 && Blocks(cfg, pts[cs[j]], point, cand, c);
    if consider && Evictable(cfg, ls, pts[i], cand, c) {
      ScanGoesOn(cfg, ls, pts, point, cand, c, consider0, i, conflicts);
    } else {
      assert !(consider0 && forall k :: 0 <= k < |pts| && Blocks(cfg, pts[k], point, cand, c) ==> Evictable(cfg, ls, pts[k], cand, c));
    }
  }

  lemma ScanGoesOn(cfg: Config, ls: seq<Layer>, pts: seq<Point>, point: Vec2, cand: int, c: int,
                   consider0: bool, i: nat, conflicts: seq<int>)
    requires ConfigOk(cfg, |ls|) && ClassesIn(pts, |ls|) && 0 <= c < |ls| && 0 <= cand < |cfg.ms| && i < |pts|
    requires Blocks(cfg, pts[i], point, cand, c) && Evictable(cfg, ls, pts[i], cand, c)
    requires Scanned(cfg, ls, pts, point, cand, c, consider0, i, true, conflicts)
    requires StrictlyIncreasing(conflicts + [i])
    ensures Scanned(cfg, ls, pts, point, cand, c, consider0, i + 1, true, conflicts + [i])
  {
    var cs := conflicts + [i];
    assert forall j :: 0 <= j < |cs| ==> 0 <= cs[j] < i + 1 && Blocks(cfg, pts[cs[j]], point, cand, c);
  }

  function ScanPoints(cfg: Config, ls: seq<Layer>, pts: seq<Point>, point: Vec2, cand: int, c: int,
                      consider0: bool): (r: Scan)
    requires ConfigOk(cfg, |ls|) && ClassesIn(pts, |ls|) && 0 <= c < |ls| && 0 <= cand < |cfg.ms|
    ensures r.satisfies <==> forall k :: 0 <= k < |pts| ==> !Blocks(cfg, pts[k], point, cand, c)
    ensures r.consider <==>
      consider0 && forall k :: 0 <= k < |pts| && Blocks(cfg, pts[k], point, cand, c) ==> Evictable(cfg, ls, pts[k], cand, c)
    ensures StrictlyIncreasing(r.conflicts)
    ensures forall j :: 0 <= j < |r.conflicts| ==>
      0 <= r.conflicts[j] < |pts| && Blocks(cfg, pts[r.conflicts[j]], point, cand, c)
    ensures r.consider ==> forall k :: 0 <= k < |pts| && Blocks(cfg, pts[k], point, cand, c) ==> k in r.conflicts
  {
    assert Scanned(cfg, ls, pts, point, cand, c, consider0, 0, consider0, []);
    ScanFrom(cfg, ls, pts, point, cand, c, consider0, 0, consider0, [])
  }

  lemma ConflictSetEmpty(cfg: Config, pts: seq<Point>, point: Vec2, cand: int, c: int)
    ensures ConflictSet(cfg, pts, point, cand, c) == {} <==>
      forall k :: 0 <= k < |pts| ==> !Blocks(cfg, pts[k], point, cand, c)
  {
    if exists k :: 0 <= k < |pts| && Blocks(cfg, pts[k], point, cand, c) {
      var k :| 0 <= k < |pts| && Blocks(cfg, pts[k], point, cand, c);
      assert k in ConflictSet(cfg, pts, point, cand, c);
    }
  }

  /** What the loop body did with a candidate at `point`, drawn at pixel
      `cand`, for the least filled layer `c`: accept it when nothing blocks
      it; evict every blocking point when the failure count reaches the
      eviction period and all of them are evictable; otherwise count a
      failure, giving up past the fatal limit. */
  ghost predicate Explains(cfg: Config, st: State, point: Vec2, cand: int, c: int, r: Outcome)
    requires Valid(cfg, st) && 0 <= c < |st.layers| && 0 <= cand < |cfg.ms| && cfg.failCountRemove != 0
  {
    match r
    case Next(next, Accept) =>
      && ConflictSet(cfg, st.points, point, cand, c) == {}
      && next == State(Bump(st.layers, c, 1), st.points + [Point(c, point)], 0, st.pointsRemoved)
    case Next(next, EvictAll) =>
      && ConflictSet(cfg, st.points, point, cand, c) != {}
      && CMod(st.failCount + 1, cfg.failCountRemove) == 0
      && (forall k :: k in ConflictSet(cfg, st.points, point, cand, c) ==>
            0 <= k < |st.points| && Evictable(cfg, st.layers, st.points[k], cand, c))
      && next.points == Survivors(st.points, ConflictSet(cfg, st.points, point, cand, c), |st.points|)
      && next.failCount == st.failCount + 1
      && |next.points| <= |st.points|
      && next.pointsRemoved == st.pointsRemoved + (|st.points| - |next.points|)
    case Next(next, Reject) =>
      && ConflictSet(cfg, st.points, point, cand, c) != {}
      && next == st.(failCount := st.failCount + 1)
      && next.failCount <= cfg.failCountFatal
    case GiveUp(last) =>
      && ConflictSet(cfg, st.points, point, cand, c) != {}
      && last == st.(failCount := st.failCount + 1)
      && last.failCount > cfg.failCountFatal
    case StepUndefined => false
  }

  /** One iteration of the loop body for the draw `d`. */
  function Step(cfg: Config, st: State, d: Draw): (r: Outcome)
    requires Valid(cfg, st) && 0 <= d.x < cfg.w - 1 && 0 <= d.y < cfg.h - 1
    ensures r.StepUndefined? <==> LeastFilled(LayerFills(st.layers)).None? || cfg.failCountRemove == 0
    ensures r.Next? ==> Valid(cfg, r.next) && SameLayers(st.layers, r.next.layers)
    ensures r.Next? ==> |r.next.points| <= |st.points| + 1 && r.next.pointsRemoved >= st.pointsRemoved
    ensures r.GiveUp? ==> r.last.points == st.points && r.last.pointsRemoved == st.pointsRemoved
    ensures r.Next? || r.GiveUp? ==>
      && 0 <= CandidatePixel(cfg.w, d) < |cfg.ms|
      && Explains(cfg, st, PointOf(cfg.w, cfg.h, d), CandidatePixel(cfg.w, d), LeastFilled(LayerFills(st.layers)).value, r)
  {
    match LeastFilled(LayerFills(st.layers))
    case None => StepUndefined
    case Some(c) =>
      if cfg.failCountRemove == 0 then StepUndefined
      else
        PixelInRange(d.x, d.y, cfg.w, cfg.h);
        var r := Respond(cfg, st, d, c);
        ExplainedSizes(cfg, st, PointOf(cfg.w, cfg.h, d), CandidatePixel(cfg.w, d), c, r);
        r
  }

  /** An explained outcome adds at most one point and never lowers the
      eviction total. */
  lemma ExplainedSizes(cfg: Config, st: State, point: Vec2, cand: int, c: int, r: Outcome)
    requires Valid(cfg, st) && 0 <= c < |st.layers| && 0 <= cand < |cfg.ms| && cfg.failCountRemove != 0
    requires Explains(cfg, st, point, cand, c, r)
    ensures r.Next? ==> |r.next.points| <= |st.points| + 1 && r.next.pointsRemoved >= st.pointsRemoved
    ensures r.GiveUp? ==> r.last.points == st.points && r.last.pointsRemoved == st.pointsRemoved
  {
  }

  /** The loop body once the least filled layer `c` is known: scan the
      points, then accept, evict or count a failure. */
  function Respond(cfg: Config, st: State, d: Draw, c: int): (r: Outcome)
    requires Valid(cfg, st) && 0 <= d.x < cfg.w - 1 && 0 <= d.y < cfg.h - 1
    requires 0 <= c < |st.layers| && cfg.failCountRemove != 0
    requires 0 <= CandidatePixel(cfg.w, d) < |cfg.ms|
    ensures r.Next? || r.GiveUp?
    ensures r.Next? ==> Valid(cfg, r.next) && SameLayers(st.layers, r.next.layers)
    ensures Explains(cfg, st, PointOf(cfg.w, cfg.h, d), CandidatePixel(cfg.w, d), c, r)
  {
    var point, cand := PointOf(cfg.w, cfg.h, d), CandidatePixel(cfg.w, d);
    var consider0 := CMod(st.failCount + 1, cfg.failCountRemove) == 0;
    var s := ScanPoints(cfg, st.layers, st.points, point, cand, c, consider0);
    ConflictSetEmpty(cfg, st.points, point, cand, c);
    if s.satisfies then Accepted(cfg, st, d, c)
    else if s.consider then Evicted(cfg, st, point, cand, c, s)
    else Failed(cfg, st, point, cand, c)
  }

  /** The candidate is added to layer `c` and the failure count resets. */
  function Accepted(cfg: Config, st: State, d: Draw, c: int): (r: Outcome)
    requires Valid(cfg, st) && 0 <= d.x < cfg.w - 1 && 0 <= d.y < cfg.h - 1
    requires 0 <= c < |st.layers| && cfg.failCountRemove != 0
    requires 0 <= CandidatePixel(cfg.w, d) < |cfg.ms|
    requires forall k :: 0 <= k < |st.points| ==>
      !Blocks(cfg, st.points[k], PointOf(cfg.w, cfg.h, d), CandidatePixel(cfg.w, d), c)
    ensures r.Next? && Valid(cfg, r.next) && SameLayers(st.layers, r.next.layers)
    ensures Explains(cfg, st, PointOf(cfg.w, cfg.h, d), CandidatePixel(cfg.w, d), c, r)
  {
    AcceptValid(cfg, st, d, c);
    Next(State(Bump(st.layers, c, 1), st.points + [Point(c, PointOf(cfg.w, cfg.h, d))], 0, st.pointsRemoved), Accept)
  }

  /** Every conflicting point is removed and the failure count grows. */
  function Evicted(cfg: Config, st: State, point: Vec2, cand: int, c: int, s: Scan): (r: Outcome)
    requires Valid(cfg, st) && 0 <= c < |st.layers| && 0 <= cand < |cfg.ms| && cfg.failCountRemove != 0
    requires s == ScanPoints(cfg, st.layers, st.points, point, cand, c,
                             CMod(st.failCount + 1, cfg.failCountRemove) == 0)
    requires !s.satisfies && s.consider
    ensures r.Next? && Valid(cfg, r.next) && SameLayers(st.layers, r.next.layers)
    ensures Explains(cfg, st, point, cand, c, r)
  {
    EvictExplained(cfg, st, point, cand, c, s);
    ReverseInRange(s.conflicts, |st.points|);
    var e := Evict(st.layers, st.points, Reverse(s.conflicts));
    Next(State(e.0, e.1, st.failCount + 1, st.pointsRemoved + |s.conflicts|), EvictAll)
  }

  /** A blocked candidate that may not evict: one more failure, fatal past the limit. */
  function Failed(cfg: Config, st: State, point: Vec2, cand: int, c: int): (r: Outcome)
    requires Valid(cfg, st) && 0 <= c < |st.layers| && 0 <= cand < |cfg.ms| && cfg.failCountRemove != 0
    requires ConflictSet(cfg, st.points, point, cand, c) != {}
    ensures r.Next? || r.GiveUp?
    ensures r.Next? ==> Valid(cfg, r.next) && SameLayers(st.layers, r.next.layers)
    ensures Explains(cfg, st, point, cand, c, r)
  {
    FailureExplained(cfg, st, point, cand, c);
    if st.failCount + 1 > cfg.failCountFatal then
      GiveUp(st.(failCount := st.failCount + 1))
    else
      Next(st.(failCount := st.failCount + 1), Reject)
  }

  /** An eviction after a blocked scan that collected its conflicts. */
  lemma EvictExplained(cfg: Config, st: State, point: Vec2, cand: int, c: int, s: Scan)
    requires Valid(cfg, st) && 0 <= c < |st.layers| && 0 <= cand < |cfg.ms| && cfg.failCountRemove != 0
    requires s == ScanPoints(cfg, st.layers, st.points, point, cand, c,
                             CMod(st.failCount + 1, cfg.failCountRemove) == 0)
    requires !s.satisfies && s.consider
    ensures var e := Evict(st.layers, st.points, Reverse(s.conflicts));
      var next := State(e.0, e.1, st.failCount + 1, st.pointsRemoved + |s.conflicts|);
      && Valid(cfg, next) && SameLayers(st.layers, next.layers)
      && Explains(cfg, st, point, cand, c, Next(next, EvictAll))
  {
    ConflictSetEmpty(cfg, st.points, point, cand, c);
    EvictValid(cfg, st, point, cand, c, s);
  }

  /** A failed candidate: something blocks it. */
  lemma FailureExplained(cfg: Config, st: State, point: Vec2, cand: int, c: int)
    requires Valid(cfg, st) && 0 <= c < |st.layers| && 0 <= cand < |cfg.ms| && cfg.failCountRemove != 0
    requires ConflictSet(cfg, st.points, point, cand, c) != {}
    ensures Explains(cfg, st, point, cand, c, Next(st.(failCount := st.failCount + 1), Reject))
              == (st.failCount + 1 <= cfg.failCountFatal)
    ensures Explains(cfg, st, point, cand, c, GiveUp(st.(failCount := st.failCount + 1)))
              == (st.failCount + 1 > cfg.failCountFatal)
  {
  }

  /** Accepting a drawn point that nothing blocks keeps the state valid:
      the point will be looked up at the pixel it was drawn at. */
  lemma AcceptValid(cfg: Config, st: State, d: Draw, c: int)
    requires Valid(cfg, st) && 0 <= c < |st.layers| && 0 <= d.x < cfg.w - 1 && 0 <= d.y < cfg.h - 1
    requires forall k :: 0 <= k < |st.points| ==>
      !Blocks(cfg, st.points[k], PointOf(cfg.w, cfg.h, d), CandidatePixel(cfg.w, d), c)
    ensures Valid(cfg, State(Bump(st.layers, c, 1), st.points + [Point(c, PointOf(cfg.w, cfg.h, d))], 0, st.pointsRemoved))
    ensures 0 <= CandidatePixel(cfg.w, d) < |cfg.ms| && cfg.failCountRemove != 0 ==>
      Explains(cfg, st, PointOf(cfg.w, cfg.h, d), CandidatePixel(cfg.w, d), c,
        Next(State(Bump(st.layers, c, 1), st.points + [Point(c, PointOf(cfg.w, cfg.h, d))], 0, st.pointsRemoved), Accept))
  {
    var point := PointOf(cfg.w, cfg.h, d);
    ConflictSetEmpty(cfg, st.points, point, CandidatePixel(cfg.w, d), c);
    DrawPixelRoundTrip(cfg.w, cfg.h, d);
    CountsMatchPush(st.layers, st.points, c, point);
    PushPairwise(st.points, Point(c, point), Apart(cfg));
  }

  lemma EvictValid(cfg: Config, st: State, point: Vec2, cand: int, c: int, s: Scan)
    requires Valid(cfg, st) && 0 <= c < |st.layers| && 0 <= cand < |cfg.ms|
    requires StrictlyIncreasing(s.conflicts)
    requires forall j :: 0 <= j < |s.conflicts| ==>
      0 <= s.conflicts[j] < |st.points| && Blocks(cfg, st.points[s.conflicts[j]], point, cand, c)
    requires forall k :: 0 <= k < |st.points| && Blocks(cfg, st.points[k], point, cand, c) ==> k in s.conflicts
    ensures var e := Evict(st.layers, st.points, Reverse(s.conflicts));
      && Valid(cfg, State(e.0, e.1, st.failCount + 1, st.pointsRemoved + |s.conflicts|))
      && SameLayers(st.layers, e.0)
      && e.1 == Survivors(st.points, ConflictSet(cfg, st.points, point, cand, c), |st.points|)
      && |e.1| == |st.points| - |s.conflicts|
  {
    var desc := Reverse(s.conflicts);
    ReverseSorts(s.conflicts);
    assert Elements(s.conflicts) == ConflictSet(cfg, st.points, point, cand, c);
    EvictSurvivors(st.layers, st.points, desc);
    EvictPairwise(st.layers, st.points, desc, Apart(cfg));
  }

  /** The loop, one draw per iteration, under the same condition as `Hard`. */
  function Run(cfg: Config, st: State, draws: seq<Draw>): (r: RunResult)
    requires Valid(cfg, st) && DrawsOk(cfg.w, cfg.h, draws)
    ensures r.Ran? ==> Valid(cfg, r.final) && SameLayers(st.layers, r.final.layers)
    ensures r.Ran? ==> (r.exit == Filled <==> |r.final.points| >= cfg.targetCount)
    ensures r.Ran? && r.exit == RemovalBudget ==> r.final.pointsRemoved >= cfg.targetCount
    ensures r.Ran? && (r.exit == Abandoned || r.exit == DrawsExhausted) ==>
      r.final.pointsRemoved < cfg.targetCount
    ensures r.Ran? && r.exit == Abandoned ==> r.final.failCount > cfg.failCountFatal
    ensures r.Ran? ==> |r.final.points| <= Max(cfg.targetCount, |st.points|)
    ensures r.Ran? ==> r.final.pointsRemoved >= st.pointsRemoved
    decreases |draws|, 1
  {
    if !(|st.points| < cfg.targetCount && st.pointsRemoved < cfg.targetCount) then
      Ran(st, if |st.points| >= cfg.targetCount then Filled else RemovalBudget)
    else if draws == [] then Ran(st, DrawsExhausted)
    else Continue(cfg, st, draws, Step(cfg, st, draws[0]))
  }

  /** The loop after the step for `draws[0]` produced `o`. */
  function Continue(cfg: Config, st: State, draws: seq<Draw>, o: Outcome): (r: RunResult)
    requires Valid(cfg, st) && DrawsOk(cfg.w, cfg.h, draws) && draws != []
    requires |st.points| < cfg.targetCount && st.pointsRemoved < cfg.targetCount
    requires o.Next? ==>
      && Valid(cfg, o.next) && SameLayers(st.layers, o.next.layers)
      && |o.next.points| <= |st.points| + 1 && o.next.pointsRemoved >= st.pointsRemoved
    requires o.GiveUp? ==>
      && Valid(cfg, o.last) && SameLayers(st.layers, o.last.layers)
      && o.last.points == st.points && o.last.pointsRemoved == st.pointsRemoved
      && o.last.failCount > cfg.failCountFatal
    ensures r.Ran? ==> Valid(cfg, r.final) && SameLayers(st.layers, r.final.layers)
    ensures r.Ran? ==> (r.exit == Filled <==> |r.final.points| >= cfg.targetCount)
    ensures r.Ran? && r.exit == RemovalBudget ==> r.final.pointsRemoved >= cfg.targetCount
    ensures r.Ran? && (r.exit == Abandoned || r.exit == DrawsExhausted) ==>
      r.final.pointsRemoved < cfg.targetCount
    ensures r.Ran? && r.exit == Abandoned ==> r.final.failCount > cfg.failCountFatal
    ensures r.Ran? ==> |r.final.points| <= Max(cfg.targetCount, |st.points|)
    ensures r.Ran? ==> r.final.pointsRemoved >= st.pointsRemoved
    decreases |draws|, 0
  {
    match o
    case StepUndefined => RunUndefined
    case GiveUp(last) => Ran(last, Abandoned)
    case Next(next, _) => Run(cfg, next, draws[1..])
  }

  function ExpectedRadii(images: seq<LayerImage>): (rs: seq<real>)
    ensures |rs| == |images| && forall k :: 0 <= k < |images| ==> rs[k] == images[k].expectedRadius
  {
    seq(|images|, k requires 0 <= k < |images| => images[k].expectedRadius)
  }

  /** Every image has one radius per pixel and none of them is zero. */
  ghost predicate ImagesOk(images: seq<LayerImage>, w: int, h: int) {
    forall k :: 0 <= k < |images| ==> |images[k].imageRadius| == w * h && NonZero(images[k].imageRadius)
  }

  /** The layers' radii at pixel `p`, in sorted order; the source reads
      them at row `p / w`, column `p % w`. */
  function PixelRow(images: seq<LayerImage>, order: seq<int>, w: int, h: int, p: int): (row: seq<real>)
    requires w >= 1 && h >= 1 && 0 <= p < w * h && ImagesOk(images, w, h)
    requires forall k :: 0 <= k < |order| ==> 0 <= order[k] < |images|
    ensures |row| == |order| && NonZero(row)
    ensures forall k :: 0 <= k < |order| ==> row[k] == images[order[k]].imageRadius[p]
  {
    PixelIndexRoundTrip(p, w);
    seq(|order|, k requires 0 <= k < |order| => images[order[k]].imageRadius[(p / w) * w + p % w])
  }

  function PixelRadii(images: seq<LayerImage>, order: seq<int>, w: int, h: int): (pr: seq<seq<real>>)
    requires w >= 1 && h >= 1 && ImagesOk(images, w, h)
    requires forall k :: 0 <= k < |order| ==> 0 <= order[k] < |images|
    ensures |pr| == w * h && forall p :: 0 <= p < w * h ==> pr[p] == PixelRow(images, order, w, h, p)
  {
    seq(w * h, p requires 0 <= p < w * h => PixelRow(images, order, w, h, p))
  }

  /** The per-pixel r-matrices of the sorted layers: at every pixel an
      `n` × `n` matrix without a zero entry whose diagonal holds the sorted
      layers' image radii at that pixel. */
  function PixelMatrices(images: seq<LayerImage>, order: seq<int>, w: int, h: int,
                         invSqrt: real -> real): (ms: seq<seq<seq<real>>>)
    requires w >= 1 && h >= 1 && ImagesOk(images, w, h) && PositiveOnPositive(invSqrt)
    requires forall k :: 0 <= k < |order| ==> 0 <= order[k] < |images|
    ensures |ms| == w * h && ms == PixelRMatrices(PixelRadii(images, order, w, h), invSqrt)
    ensures forall p :: 0 <= p < |ms| ==> Square(ms[p], |order|)
    ensures forall p, i, j :: 0 <= p < |ms| && Square(ms[p], |order|) && 0 <= i < |order| && 0 <= j < |order| ==>
      ms[p][i][j] != 0.0
    ensures forall p, k :: 0 <= p < |ms| && Square(ms[p], |order|) && 0 <= k < |order| ==>
      ms[p][k][k] == images[order[k]].imageRadius[p]
  {
    var pr := PixelRadii(images, order, w, h);
    var ms := PixelRMatrices(pr, invSqrt);
    MatricesOk(ms, pr, |order|, invSqrt);
    ms
  }

  /** The matrices built from rows of `n` non-zero radii are `n` × `n`,
      without a zero entry, with the radii on the diagonal. */
  lemma MatricesOk(ms: seq<seq<seq<real>>>, pr: seq<seq<real>>, n: nat, invSqrt: real -> real)
    requires PositiveOnPositive(invSqrt)
    requires forall p :: 0 <= p < |pr| ==> |pr[p]| == n && NonZero(pr[p])
    requires ms == PixelRMatrices(pr, invSqrt)
    ensures forall p :: 0 <= p < |ms| ==> Square(ms[p], n)
    ensures forall p, i, j :: 0 <= p < |ms| && 0 <= i < n && 0 <= j < n ==> ms[p][i][j] != 0.0
    ensures forall p, k :: 0 <= p < |ms| && 0 <= k < n ==> ms[p][k][k] == pr[p][k]
  {
    forall p | 0 <= p < |pr|
      ensures Square(ms[p], n)
      ensures forall i, j :: 0 <= i < n && 0 <= j < n ==> ms[p][i][j] != 0.0
    {
      UngroupedNonZero(pr[p], invSqrt);
    }
  }

  /** Points at `a` and `b` pass the squared-threshold test against the mean
      of the image radii `img` at their two pixels: their squared distance
      is at least that mean squared. */
  ghost predicate Separated(img: seq<real>, w: int, h: int, a: Vec2, b: Vec2)
    requires w >= 1 && h >= 1 && |img| == w * h
  {
    !TooClose(ToroidalDistanceSq(a, b), (img[PixelAt(w, h, b)] + img[PixelAt(w, h, a)]) / 2.0, false)
  }

  /** Two points of one caller class `k` are `Separated` by `k`'s image. */
  ghost predicate SameClassApart(pts: seq<Point>, images: seq<LayerImage>, w: int, h: int)
    requires w >= 1 && h >= 1 && ImagesOk(images, w, h)
  {
    forall a, b :: 0 <= a < b < |pts| && pts[a].classIndex == pts[b].classIndex && 0 <= pts[a].classIndex < |images| ==>
      Separated(images[pts[a].classIndex].imageRadius, w, h, pts[a].v, pts[b].v)
  }

  /** Two points of any caller classes pass the loop's squared test for
      their sorted layers at their pixels: `order[i]` is the caller class
      generated in sorted layer `i` and `ms` holds one matrix per pixel. */
  ghost predicate CallerApart(pts: seq<Point>, order: seq<int>, ms: seq<seq<seq<real>>>, w: int, h: int)
    requires w >= 1 && h >= 1 && |ms| == w * h
  {
    forall a, b, i, j ::
      (&& 0 <= a < b < |pts| && 0 <= i < |order| && 0 <= j < |order|
       && order[i] == pts[a].classIndex && order[j] == pts[b].classIndex) ==>
      PixelApart(ms, w, h, Point(i, pts[a].v), Point(j, pts[b].v))
  }

  /** An earlier point `p` and a later point `q`, labelled with sorted
      layers, are apart by the mean of the two pixels' entries for the pair
      of layers. */
  ghost predicate PixelApart(ms: seq<seq<seq<real>>>, w: int, h: int, p: Point, q: Point)
    requires w >= 1 && h >= 1 && |ms| == w * h
  {
    var ep, eq := PixelAt(w, h, p.v), PixelAt(w, h, q.v);
    && 0 <= q.classIndex < |ms[eq]| && 0 <= q.classIndex < |ms[ep]|
    && 0 <= p.classIndex < |ms[eq][q.classIndex]| && 0 <= p.classIndex < |ms[ep][q.classIndex]|
    && !TooClose(ToroidalDistanceSq(p.v, q.v),
                 (ms[eq][q.classIndex][p.classIndex] + ms[ep][q.classIndex][p.classIndex]) / 2.0, false)
  }

  /** With the squared threshold and the intended relabelling, the test of
      the sorted run, across classes as well as within one, carries over to
      the caller's classes. */
  lemma UnsortedCallerApart(order: seq<int>, cfg: Config, final: State)
    requires Valid(cfg, final) && !cfg.asWritten && Origs(final.layers) == order
    requires multiset(order) == multiset(Range(|order|))
    ensures CallerApart(Unsort(final.layers, final.points, false).points, order, cfg.ms, cfg.w, cfg.h)
  {
    UnsortKeepsPairwise(final.layers, final.points, Apart(cfg));
    SortedApartIsCallerApart(Unsort(final.layers, final.points, false).points, order, cfg);
  }

  /** Spacing stated through the sort order is spacing in the caller's classes. */
  lemma SortedApartIsCallerApart(u: seq<Point>, order: seq<int>, cfg: Config)
    requires ConfigOk(cfg, |order|) && !cfg.asWritten
    requires PairwiseSorted(u, order, Apart(cfg))
    ensures CallerApart(u, order, cfg.ms, cfg.w, cfg.h)
  {
    forall a, b, i, j |
        && 0 <= a < b < |u| && 0 <= i < |order| && 0 <= j < |order|
        && order[i] == u[a].classIndex && order[j] == u[b].classIndex
      ensures PixelApart(cfg.ms, cfg.w, cfg.h, Point(i, u[a].v), Point(j, u[b].v))
    {
      var ea, eb := PixelAt(cfg.w, cfg.h, u[a].v), PixelAt(cfg.w, cfg.h, u[b].v);
      assert Square(cfg.ms[ea], |order|) && Square(cfg.ms[eb], |order|);
      assert Apart(cfg)(Point(i, u[a].v), Point(j, u[b].v));
    }
  }

  /** With the squared threshold and the intended relabelling, the
      separation of the sorted run carries over to the caller's classes. */
  lemma UnsortedApart(images: seq<LayerImage>, order: seq<int>, cfg: Config, final: State)
    requires ImagesOk(images, cfg.w, cfg.h) && !cfg.asWritten
    requires multiset(order) == multiset(Range(|images|)) && |order| == |images|
    requires forall k :: 0 <= k < |order| ==> 0 <= order[k] < |images|
    requires Valid(cfg, final) && Origs(final.layers) == order
    requires forall p, k :: 0 <= p < |cfg.ms| && 0 <= k < |order| ==>
      cfg.ms[p][k][k] == images[order[k]].imageRadius[p]
    ensures SameClassApart(Unsort(final.layers, final.points, false).points, images, cfg.w, cfg.h)
  {
    PermutationDistinct(order, |images|);
    UnsortRestoresCallerClasses(final.layers, final.points);
    var u := Unsort(final.layers, final.points, false).points;
    forall a, b | 0 <= a < b < |u| && u[a].classIndex == u[b].classIndex && 0 <= u[a].classIndex < |images|
      ensures Separated(images[u[a].classIndex].imageRadius, cfg.w, cfg.h, u[a].v, u[b].v)
    {
      var pa, pb := final.points[a], final.points[b];
      assert u[a] == Point(order[pa.classIndex], pa.v);
      assert u[b] == Point(order[pb.classIndex], pb.v);
      UnsortedPair(images, order, cfg, pa, pb);
    }
  }

  lemma UnsortedPair(images: seq<LayerImage>, order: seq<int>, cfg: Config, pa: Point, pb: Point)
    requires ConfigOk(cfg, |order|) && !cfg.asWritten && |order| == |images|
    requires forall i, j :: 0 <= i < j < |order| ==> order[i] != order[j]
    requires forall k :: 0 <= k < |order| ==> 0 <= order[k] < |images|
    requires forall k :: 0 <= k < |images| ==> |images[k].imageRadius| == |cfg.ms|
    requires forall p, k :: 0 <= p < |cfg.ms| && 0 <= k < |order| ==>
      cfg.ms[p][k][k] == images[order[k]].imageRadius[p]
    requires 0 <= pa.classIndex < |order| && 0 <= pb.classIndex < |order|
    requires order[pa.classIndex] == order[pb.classIndex]
    requires Apart(cfg)(pa, pb)
    ensures Separated(images[order[pa.classIndex]].imageRadius, cfg.w, cfg.h, pa.v, pb.v)
  {
    PairApart(cfg, |order|, pa, pb, images[order[pa.classIndex]].imageRadius);
  }

  /** One pair of `UnsortedApart`: an earlier point of sorted layer `k` that
      does not block a later one of the same layer is apart from it by the
      mean of the layer's radii at the two pixels. */
  lemma PairApart(cfg: Config, n: nat, pa: Point, pb: Point, img: seq<real>)
    requires ConfigOk(cfg, n) && !cfg.asWritten
    requires 0 <= pa.classIndex < n && pb.classIndex == pa.classIndex && |img| == |cfg.ms|
    requires forall p :: 0 <= p < |cfg.ms| ==> cfg.ms[p][pa.classIndex][pa.classIndex] == img[p]
    requires Apart(cfg)(pa, pb)
    ensures Separated(img, cfg.w, cfg.h, pa.v, pb.v)
  {
    var ea, eb := PixelAt(cfg.w, cfg.h, pa.v), PixelAt(cfg.w, cfg.h, pb.v);
    var c := pa.classIndex;
    assert Square(cfg.ms[ea], n) && Square(cfg.ms[eb], n);
    assert !Blocks(cfg, pa, pb.v, eb, c);
    var t := (cfg.ms[eb][c][c] + cfg.ms[ea][c][c]) / 2.0;
    assert !TooClose(ToroidalDistanceSq(pa.v, pb.v), t, false);
    assert t == (img[eb] + img[ea]) / 2.0;
    SeparatedBy(img, cfg.w, cfg.h, pa.v, pb.v, t);
  }

  lemma SeparatedBy(img: seq<real>, w: int, h: int, a: Vec2, b: Vec2, t: real)
    requires w >= 1 && h >= 1 && |img| == w * h
    requires t == (img[PixelAt(w, h, b)] + img[PixelAt(w, h, a)]) / 2.0
    requires !TooClose(ToroidalDistanceSq(a, b), t, false)
    ensures Separated(img, w, h, a, b)
  {
  }

  /** The whole of `Make` on loaded images of `w` × `h` pixels. */
  function Build(images: seq<LayerImage>, w: int, h: int, targetCount: int,
                 invSqrt: real -> real, draws: seq<Draw>, asWritten: bool): (r: Generated)
    requires w >= 2 && h >= 2 && ImagesOk(images, w, h)
    requires NonZero(ExpectedRadii(images)) && PositiveOnPositive(invSqrt)
    requires DrawsOk(w, h, draws)
    ensures r.Generated? ==> ClassesIn(r.points, |images|) && |r.points| <= Max(targetCount, 0)
    ensures r.Generated? ==> (r.exit == Filled <==> |r.points| >= targetCount)
    ensures 0 < targetCount < 10 && |draws| > 0 ==> r.Undefined?
    ensures targetCount <= 0 ==> r == Generated([], Filled)
    ensures !asWritten && r.Generated? ==> SameClassApart(r.points, images, w, h)
    ensures !asWritten && r.Generated? ==>
      CallerApart(r.points, SortOrder(images), PixelMatrices(images, SortOrder(images), w, h, invSqrt), w, h)
  {
    var s := Setup(images, w, h, targetCount, invSqrt, asWritten);
    Finish(images, s.0, s.1, s.2, draws)
  }

  /** The order `Make` sorts the layers into: by decreasing expected radius. */
  function SortOrder(images: seq<LayerImage>): (order: seq<int>)
    ensures |order| == |images| && forall k :: 0 <= k < |order| ==> 0 <= order[k] < |images|
  {
    SortByKey(ExpectedRadii(images), |images|)
  }

  /** The loop and the unsort step of `Make`, from the state `Setup` built. */
  function Finish(images: seq<LayerImage>, order: seq<int>, cfg: Config, st: State, draws: seq<Draw>): (r: Generated)
    requires ImagesOk(images, cfg.w, cfg.h) && DrawsOk(cfg.w, cfg.h, draws)
    requires |order| == |images| && multiset(order) == multiset(Range(|images|))
    requires forall k :: 0 <= k < |order| ==> 0 <= order[k] < |images|
    requires Valid(cfg, st) && Origs(st.layers) == order && |cfg.ms| == cfg.w * cfg.h
    requires forall p, k :: 0 <= p < |cfg.ms| && 0 <= k < |order| ==>
      cfg.ms[p][k][k] == images[order[k]].imageRadius[p]
    requires st == State(st.layers, [], 0, 0)
    requires cfg.failCountRemove == CDiv(cfg.targetCount, 10)
    ensures r.Generated? ==> ClassesIn(r.points, |images|) && |r.points| <= Max(cfg.targetCount, 0)
    ensures r.Generated? ==> (r.exit == Filled <==> |r.points| >= cfg.targetCount)
    ensures 0 < cfg.targetCount < 10 && |draws| > 0 ==> r.Undefined?
    ensures cfg.targetCount <= 0 ==> r == Generated([], Filled)
    ensures !cfg.asWritten && r.Generated? ==> SameClassApart(r.points, images, cfg.w, cfg.h)
    ensures !cfg.asWritten && r.Generated? ==> CallerApart(r.points, order, cfg.ms, cfg.w, cfg.h)
  {
    if 0 < cfg.targetCount < 10 && |draws| > 0 then
      RunWithoutRemoval(cfg, st, draws);
      Undefined
    else
      match Run(cfg, st, draws)
      case RunUndefined => Undefined
      case Ran(final, exit) =>
        assert Origs(final.layers) == order;
        if cfg.asWritten then Generated(Unsort(final.layers, final.points, true).points, exit)
        else
          UnsortedApart(images, order, cfg, final);
          UnsortedCallerApart(order, cfg, final);
          Generated(Unsort(final.layers, final.points, false).points, exit)
  }

  /** What `Make` sets up before the loop: the permutation sorting the
      layers by decreasing expected radius, one r-matrix per pixel from the
      sorted image radii with the failure limits, and the sorted layers with
      their shares of the target count. */
  function Setup(images: seq<LayerImage>, w: int, h: int, targetCount: int,
                 invSqrt: real -> real, asWritten: bool): (s: (seq<int>, Config, State))
    requires w >= 2 && h >= 2 && ImagesOk(images, w, h)
    requires NonZero(ExpectedRadii(images)) && PositiveOnPositive(invSqrt)
    ensures SetUp(images, w, h, targetCount, invSqrt, asWritten, s.0, s.1, s.2)
    ensures s.0 == SortOrder(images) && s.1.ms == PixelMatrices(images, s.0, w, h, invSqrt)
  {
    var ls := StartLayers(ExpectedRadii(images), targetCount);
    StartLayersOrder(ExpectedRadii(images), targetCount);
    StartLayersStarted(images, targetCount, ls);
    SetupFrom(images, w, h, targetCount, invSqrt, asWritten, ls)
  }

  lemma StartLayersStarted(images: seq<LayerImage>, targetCount: int, ls: seq<Layer>)
    requires NonZero(ExpectedRadii(images)) && ls == StartLayers(ExpectedRadii(images), targetCount)
    ensures |ls| == |images| && multiset(Origs(ls)) == multiset(Range(|images|))
    ensures forall k :: 0 <= k < |ls| ==> 0 <= ls[k].originalIndex < |images|
    ensures Started(images, Origs(ls), ls, targetCount) && CountsMatch(ls, [])
  {
    StartLayersSorted(images, ls, Origs(ls));
  }

  lemma StartLayersSorted(images: seq<LayerImage>, ls: seq<Layer>, order: seq<int>)
    requires |ls| == |images| && order == Origs(ls)
    requires forall k :: 0 <= k < |ls| ==>
      0 <= ls[k].originalIndex < |images| && ls[k].radius == ExpectedRadii(images)[ls[k].originalIndex]
    requires forall i, j :: 0 <= i < j < |ls| ==> ls[i].radius >= ls[j].radius
    ensures forall k :: 0 <= k < |order| ==> 0 <= order[k] < |images| && ls[k].radius == images[order[k]].expectedRadius
    ensures forall i, j :: 0 <= i < j < |order| ==> images[order[i]].expectedRadius >= images[order[j]].expectedRadius
  {
  }

  /** The rest of `Setup` once the layers are sorted: the matrices of the
      sorted order and a state without points. */
  function SetupFrom(images: seq<LayerImage>, w: int, h: int, targetCount: int,
                     invSqrt: real -> real, asWritten: bool, ls: seq<Layer>): (s: (seq<int>, Config, State))
    requires w >= 2 && h >= 2 && ImagesOk(images, w, h) && PositiveOnPositive(invSqrt)
    requires |ls| == |images| && multiset(Origs(ls)) == multiset(Range(|images|))
    requires forall k :: 0 <= k < |ls| ==> 0 <= ls[k].originalIndex < |images|
    requires Started(images, Origs(ls), ls, targetCount) && CountsMatch(ls, [])
    ensures SetUp(images, w, h, targetCount, invSqrt, asWritten, s.0, s.1, s.2)
  {
    var order := Origs(ls);
    var cfg := Configure(images, order, w, h, targetCount, invSqrt, asWritten);
    var st := State(ls, [], 0, 0);
    assert Valid(cfg, st);
    (order, cfg, st)
  }

  /** What `Setup` promises: `order` sorts the caller's layers by
      non-increasing expected radius, `st` holds those layers with their
      shares of the target and no points, and `cfg` the matrices and limits
      of that order. */
  ghost predicate SetUp(images: seq<LayerImage>, w: int, h: int, targetCount: int,
                        invSqrt: real -> real, asWritten: bool, order: seq<int>, cfg: Config, st: State)
    requires w >= 1 && h >= 1 && ImagesOk(images, w, h)
  {
    && |order| == |images| && multiset(order) == multiset(Range(|images|))
    && (forall k :: 0 <= k < |order| ==> 0 <= order[k] < |images|)
    && Valid(cfg, st) && Origs(st.layers) == order && st == State(st.layers, [], 0, 0)
    && Started(images, order, st.layers, targetCount)
    && Configured(images, order, cfg, w, h, targetCount, invSqrt, asWritten)
  }

  /** The layers `ls` are the caller's layers taken in the order `order`:
      by non-increasing expected radius, each with its share of `total`. */
  ghost predicate Started(images: seq<LayerImage>, order: seq<int>, ls: seq<Layer>, total: int)
    requires forall k :: 0 <= k < |order| ==> 0 <= order[k] < |images|
  {
    && |ls| == |order|
    && (forall k :: 0 <= k < |order| ==> ls[k].radius == images[order[k]].expectedRadius)
    && (forall i, j :: 0 <= i < j < |order| ==> images[order[i]].expectedRadius >= images[order[j]].expectedRadius)
    && Targeted(ls, total)
  }

  /** `cfg` holds the per-pixel matrices of the layers in the order `order`
      and the failure limits of `targetCount`. */
  ghost predicate Configured(images: seq<LayerImage>, order: seq<int>, cfg: Config, w: int, h: int,
                             targetCount: int, invSqrt: real -> real, asWritten: bool)
    requires w >= 1 && h >= 1 && ImagesOk(images, w, h)
    requires forall k :: 0 <= k < |order| ==> 0 <= order[k] < |images|
  {
    && |cfg.ms| == w * h
    && cfg.ms == PixelRMatrices(PixelRadii(images, order, w, h), invSqrt)
    && (forall p, k :: 0 <= p < |cfg.ms| && 0 <= k < |order| && |cfg.ms[p]| == |order| && |cfg.ms[p][k]| == |order| ==>
          cfg.ms[p][k][k] == images[order[k]].imageRadius[p])
    && cfg.targetCount == targetCount && cfg.w == w && cfg.h == h && cfg.asWritten == asWritten
    && cfg.failCountRemove == CDiv(targetCount, 10)
  }

  /** The loop's fixed inputs: the per-pixel r-matrices of the layers in
      the order `order`, and failure limits of 20 and 1/10 of the target. */
  function Configure(images: seq<LayerImage>, order: seq<int>, w: int, h: int, targetCount: int,
                     invSqrt: real -> real, asWritten: bool): (cfg: Config)
    requires w >= 2 && h >= 2 && ImagesOk(images, w, h) && PositiveOnPositive(invSqrt)
    requires forall k :: 0 <= k < |order| ==> 0 <= order[k] < |images|
    ensures ConfigOk(cfg, |order|) && |cfg.ms| == w * h
    ensures cfg.ms == PixelRMatrices(PixelRadii(images, order, w, h), invSqrt)
    ensures forall p, k :: 0 <= p < |cfg.ms| && 0 <= k < |order| ==>
      cfg.ms[p][k][k] == images[order[k]].imageRadius[p]
    ensures cfg.w == w && cfg.h == h && cfg.asWritten == asWritten && cfg.targetCount == targetCount
    ensures cfg.failCountFatal == targetCount * 20 && cfg.failCountRemove == CDiv(targetCount, 10)
  {
    Config(PixelMatrices(images, order, w, h, invSqrt), w, h, targetCount,
           targetCount * 20, CDiv(targetCount, 10), asWritten)
  }

  /** Below ten points the eviction period is zero and the first iteration
      of the loop is undefined. */
  lemma RunWithoutRemoval(cfg: Config, st: State, draws: seq<Draw>)
    requires Valid(cfg, st) && DrawsOk(cfg.w, cfg.h, draws) && draws != []
    requires 0 < cfg.targetCount < 10 && cfg.failCountRemove == CDiv(cfg.targetCount, 10)
    requires st.points == [] && st.pointsRemoved == 0
    ensures Run(cfg, st, draws) == RunUndefined
  {
    assert cfg.failCountRemove == 0;
    assert Step(cfg, st, draws[0]).StepUndefined?;
  }

  /** `Make` as written: squared distance against an unsquared threshold,
      and the unsort step relabelling with the literal 1. */
  function Make(images: seq<LayerImage>, w: int, h: int, targetCount: int,
                invSqrt: real -> real, draws: seq<Draw>): (r: Generated)
    requires w >= 2 && h >= 2 && ImagesOk(images, w, h)
    requires NonZero(ExpectedRadii(images)) && PositiveOnPositive(invSqrt)
    requires DrawsOk(w, h, draws)
    ensures r.Generated? ==> ClassesIn(r.points, |images|) && |r.points| <= Max(targetCount, 0)
    ensures r.Generated? ==> (r.exit == Filled <==> |r.points| >= targetCount)
    ensures 0 < targetCount < 10 && |draws| > 0 ==> r.Undefined?
  {
    Build(images, w, h, targetCount, invSqrt, draws, true)
  }

  /** `Make` as evidently intended: the threshold squared before the
      comparison and the unsort relabelling a true swap. */
  function MakeIntended(images: seq<LayerImage>, w: int, h: int, targetCount: int,
                        invSqrt: real -> real, draws: seq<Draw>): (r: Generated)
    requires w >= 2 && h >= 2 && ImagesOk(images, w, h)
    requires NonZero(ExpectedRadii(images)) && PositiveOnPositive(invSqrt)
    requires DrawsOk(w, h, draws)
    ensures r.Generated? ==> ClassesIn(r.points, |images|) && |r.points| <= Max(targetCount, 0)
    ensures r.Generated? ==> (r.exit == Filled <==> |r.points| >= targetCount)
    ensures r.Generated? ==> SameClassApart(r.points, images, w, h)
    ensures r.Generated? ==>
      CallerApart(r.points, SortOrder(images), PixelMatrices(images, SortOrder(images), w, h, invSqrt), w, h)
  {
    Build(images, w, h, targetCount, invSqrt, draws, false)
  }

  /** As written, two points 0.2 apart are judged closer than a threshold of
      0.1: their squared distance 0.04 is compared with 0.1 itself. */
  lemma UnsquaredThresholdRejects()
    ensures var dsq := ToroidalDistanceSq(Vec2(0.0, 0.0), Vec2(0.2, 0.0));
      && dsq == 0.04
      && TooClose(dsq, 0.1, true)
      && !TooClose(dsq, 0.1, false)
  {
    assert Wrap(0.2) == 0.2 && Wrap(0.0) == 0.0;
  }

  /** With the squared threshold the test is exactly "closer than the
      threshold" for a non-negative threshold. */
  lemma SquaredThresholdIsDistance(dsq: real, t: real, dist: real)
    requires t >= 0.0 && dist >= 0.0 && dist * dist == dsq
    ensures TooClose(dsq, t, false) <==> dist < t
  {
    if dist < t {
      MulStrict(dist, t);
    } else {
      MulMonotone(t, dist);
    }
  }

  lemma MulStrict(a: real, b: real)
    requires 0.0 <= a < b
    ensures a * a < b * b
  {
    calc {
      a * a;
    <= a * b;
    < b * b;
    }
  }

  lemma MulMonotone(a: real, b: real)
    requires 0.0 <= a <= b
    ensures a * a <= b * b
  {
    assert a * a <= a * b;
    assert a * b <= b * b;
  }
}

=== FILE: Images.dfy ===
/** The pure bookkeeping of the sample-image writer and of the spectrum
    driver: the per-class histogram of a point list, the numbering of the
    images that show one subset of classes each with their binary mask
    names, the black-and-white dot images, and the 3 × 3 tiling of the
    image that shows every class. */
module Images {
  import opened MathUtils
  import opened Points
  import opened Layers

  // ------------------------------------------------------------ histogram

  /** One more than the largest class index of the list; 0 when no point has
      a non-negative class. */
  function Width(pts: seq<Point>): (w: nat)
    ensures forall k :: 0 <= k < |pts| ==> pts[k].classIndex < w
    decreases |pts|
  {
    if pts == [] then 0
    else
      var w := Width(pts[..|pts| - 1]);
      var c := pts[|pts| - 1].classIndex;
      assert forall k :: 0 <= k < |pts| - 1 ==> pts[k] == pts[..|pts| - 1][k];
      if c + 1 > w then c + 1 else w
  }

  /** Some point has class `Width(pts) - 1`, so the width is the least one
      that holds every class. */
  lemma {:induction false} WidthAttained(pts: seq<Point>)
    requires Width(pts) > 0
    ensures exists k :: 0 <= k < |pts| && pts[k].classIndex == Width(pts) - 1
    decreases |pts|
  {
    var m := |pts| - 1;
    var pre := pts[..m];
    if pts[m].classIndex + 1 <= Width(pre) {
      WidthAttained(pre);
      var k :| 0 <= k < |pre| && pre[k].classIndex == Width(pre) - 1;
      assert pts[k] == pre[k];
    }
  }

  /** The histogram loop: a class beyond the current length grows the list
      with zeros up to it. A negative class makes the unsigned comparison
      succeed and the resize and increment undefined, hence `None`. */
  function ClassCounts(pts: seq<Point>): (r: Option<seq<int>>)
    ensures r.Some? <==> forall k :: 0 <= k < |pts| ==> pts[k].classIndex >= 0
    ensures r.Some? ==> |r.value| == Width(pts)
    ensures r.Some? ==> forall c :: 0 <= c < |r.value| ==> r.value[c] == CountClass(pts, c)
    decreases |pts|
  {
    if pts == [] then Some([])
    else
      var m := |pts| - 1;
      var pre := pts[..m];
      assert forall k :: 0 <= k < m ==> pts[k] == pre[k];
      match ClassCounts(pre)
      case None => None
      case Some(h) =>
        if pts[m].classIndex < 0 then None
        else
          assert pre + [pts[m]] == pts;
          Some(Tally(pre, pts[m], h))
  }

  /** The histogram `h` of `pre`, grown with zeros up to `p`'s class and
      bumped there: the histogram of `pre + [p]`. */
  function Tally(pre: seq<Point>, p: Point, h: seq<int>): (r: seq<int>)
    requires p.classIndex >= 0 && |h| == Width(pre)
    requires forall c :: 0 <= c < |h| ==> h[c] == CountClass(pre, c)
    ensures |r| == Width(pre + [p])
    ensures forall c :: 0 <= c < |r| ==> r[c] == CountClass(pre + [p], c)
  {
    var c := p.classIndex;
    var grown := if c >= |h| then h + seq(c + 1 - |h|, _ => 0) else h;
    CountGrow(pre, p, h, grown);
    assert (pre + [p])[..|pre|] == pre;
    grown[c := grown[c] + 1]
  }

  /** Growing the histogram with zeros and bumping the new point's class
      gives the histogram of the longer list. */
  lemma CountGrow(pre: seq<Point>, p: Point, h: seq<int>, grown: seq<int>)
    requires 0 <= p.classIndex < |grown| && |h| <= |grown|
    requires forall k :: 0 <= k < |pre| ==> pre[k].classIndex < |h|
    requires forall c :: 0 <= c < |h| ==> h[c] == CountClass(pre, c)
    requires forall c :: 0 <= c < |grown| ==> grown[c] == if c < |h| then h[c] else 0
    ensures forall c :: 0 <= c < |grown| ==>
      grown[p.classIndex := grown[p.classIndex] + 1][c] == CountClass(pre + [p], c)
  {
    forall c | 0 <= c < |grown|
      ensures grown[p.classIndex := grown[p.classIndex] + 1][c] == CountClass(pre + [p], c)
    {
      if c >= |h| {
        CountAbsent(pre, c);
      }
      CountPush(pre, p, c);
    }
  }

  /** A class no point reaches has count zero. */
  lemma {:induction false} CountAbsent(pts: seq<Point>, c: int)
    requires forall k :: 0 <= k < |pts| ==> pts[k].classIndex != c
    ensures CountClass(pts, c) == 0
    decreases |pts|
  {
    if pts != [] {
      var pre := pts[..|pts| - 1];
      assert forall k :: 0 <= k < |pre| ==> pre[k] == pts[k];
      CountAbsent(pre, c);
    }
  }

  /** The histogram entries add up to the number of points. */
  lemma HistogramTotal(pts: seq<Point>)
    requires ClassCounts(pts).Some?
    ensures var h := ClassCounts(pts).value; SumInts(h, |h|) == |pts|
  {
    var h := ClassCounts(pts).value;
    HistogramPrefix(pts, h, |h|);
    CountAllClasses(pts, |h|);
  }

  lemma {:induction false} HistogramPrefix(pts: seq<Point>, h: seq<int>, n: nat)
    requires n <= |h| && forall c :: 0 <= c < |h| ==> h[c] == CountClass(pts, c)
    ensures SumInts(h, n) == SumCounts(pts, n)
  {
    if n > 0 {
      HistogramPrefix(pts, h, n - 1);
    }
  }

  // ------------------------------------------------------ subset images

  function Pow2(n: nat): (p: nat)
    ensures p >= 1
  {
    if n == 0 then 1 else 2 * Pow2(n - 1)
  }

  /** `(1 << n) - 1` images: one per non-empty subset of the `n` classes. */
  function ImageCount(n: nat): int {
    Pow2(n) - 1
  }

  /** Bit `j` of `v`, the test `(v & (1 << j)) != 0`. */
  predicate Bit(v: nat, j: nat) {
    if j == 0 then v % 2 == 1 else Bit(v / 2, j - 1)
  }

  /** Image `i` shows the classes whose bit is set in `i + 1`. */
  predicate InImage(i: nat, c: nat) {
    Bit(i + 1, c)
  }

  /** Below `2^n` no bit from `n` on is set. */
  lemma {:induction false} BitsBelowPow2(v: nat, n: nat, j: nat)
    requires v < Pow2(n) && n <= j
    ensures !Bit(v, j)
    decreases j
  {
    if j > 0 {
      if n > 0 {
        BitsBelowPow2(v / 2, n - 1, j - 1);
      } else {
        assert v == 0;
        ZeroHasNoBits(j - 1);
      }
    }
  }

  lemma {:induction false} ZeroHasNoBits(j: nat)
    ensures !Bit(0, j)
  {
    if j > 0 {
      ZeroHasNoBits(j - 1);
    }
  }

  /** `2^n - 1` has every bit below `n` set. */
  lemma {:induction false} AllOnes(n: nat, j: nat)
    requires j < n
    ensures Bit(Pow2(n) - 1, j)
    decreases j
  {
    assert (Pow2(n) - 1) / 2 == Pow2(n - 1) - 1;
    if j > 0 {
      AllOnes(n - 1, j - 1);
    }
  }

  /** The last image, `2^n - 2`, shows every class, which is why it is the
      source of the tiled image. */
  lemma LastImageHasAllClasses(n: nat, c: nat)
    requires c < n
    ensures ImageCount(n) >= 1
    ensures InImage(ImageCount(n) - 1, c)
  {
    AllOnes(n, c);
  }

  /** Distinct image numbers differ in some class. */
  lemma ImagesDiffer(n: nat, i: nat, i': nat)
    requires i < ImageCount(n) && i' < ImageCount(n) && i != i'
    ensures exists c :: 0 <= c < n && InImage(i, c) != InImage(i', c)
  {
    BitsDiffer(i + 1, i' + 1, n);
    var c :| 0 <= c < n && Bit(i + 1, c) != Bit(i' + 1, c);
    assert InImage(i, c) != InImage(i', c);
  }

  lemma {:induction false} BitsDiffer(v: nat, v': nat, n: nat)
    requires v < Pow2(n) && v' < Pow2(n) && v != v'
    ensures exists c :: 0 <= c < n && Bit(v, c) != Bit(v', c)
    decreases n
  {
    if v % 2 != v' % 2 {
      assert Bit(v, 0) != Bit(v', 0);
    } else {
      assert n > 0;
      BitsDiffer(v / 2, v' / 2, n - 1);
      var c :| 0 <= c < n - 1 && Bit(v / 2, c) != Bit(v' / 2, c);
      assert Bit(v, c + 1) != Bit(v', c + 1);
    }
  }

  // ---------------------------------------------------------- mask names

  function Digit(b: bool): char {
    if b then '1' else '0'
  }

  /** The `n`-character name of the subset `v`, most significant class first. */
  function Mask(n: nat, v: nat): (s: seq<char>)
    ensures |s| == n
  {
    if n == 0 then [] else Mask(n - 1, v / 2) + [Digit(v % 2 == 1)]
  }

  /** Character `n - 1 - j` of the name is bit `j`. */
  lemma {:induction false} MaskAt(n: nat, v: nat, j: nat)
    requires j < n
    ensures Mask(n, v)[n - 1 - j] == Digit(Bit(v, j))
    decreases n
  {
    if j > 0 {
      MaskAt(n - 1, v / 2, j - 1);
    }
  }

  /** Reads a name back: binary, most significant character first. */
  function MaskValue(s: seq<char>): (v: nat)
    ensures v < Pow2(|s|)
  {
    if s == [] then 0
    else 2 * MaskValue(s[..|s| - 1]) + (if s[|s| - 1] == '1' then 1 else 0)
  }

  ghost predicate Binary(s: seq<char>) {
    forall p :: 0 <= p < |s| ==> s[p] == '0' || s[p] == '1'
  }

  /** Reading a name gives back the subset it was made from. */
  lemma {:induction false} MaskRoundTrip(n: nat, v: nat)
    requires v < Pow2(n)
    ensures MaskValue(Mask(n, v)) == v && Binary(Mask(n, v))
    decreases n
  {
    if n > 0 {
      MaskRoundTrip(n - 1, v / 2);
      assert Mask(n, v)[..n - 1] == Mask(n - 1, v / 2);
    }
  }

  /** Every binary string is the name of the subset it reads as. */
  lemma {:induction false} MaskValueRoundTrip(s: seq<char>)
    requires Binary(s)
    ensures Mask(|s|, MaskValue(s)) == s
    decreases |s|
  {
    if s != [] {
      var pre := s[..|s| - 1];
      MaskValueRoundTrip(pre);
      assert s == pre + [s[|s| - 1]];
    }
  }

  /** A name with no `'1'` reads as the empty subset. */
  lemma {:induction false} ZerosValue(s: seq<char>)
    requires forall p :: 0 <= p < |s| ==> s[p] != '1'
    ensures MaskValue(s) == 0
    decreases |s|
  {
    if s != [] {
      ZerosValue(s[..|s| - 1]);
    }
  }

  ghost predicate HasOne(s: seq<char>) {
    exists p :: 0 <= p < |s| && s[p] == '1'
  }

  /** No image name is all zeros, and no two images share a name. */
  lemma MaskNamesDistinct(n: nat, i: nat, i': nat)
    requires i < ImageCount(n) && i' < ImageCount(n)
    ensures HasOne(Mask(n, i + 1))
    ensures i != i' ==> Mask(n, i + 1) != Mask(n, i' + 1)
  {
    MaskRoundTrip(n, i + 1);
    MaskRoundTrip(n, i' + 1);
    if !HasOne(Mask(n, i + 1)) {
      ZerosValue(Mask(n, i + 1));
    }
  }

  /** The name loop of the image writer: character `n - j - 1` gets bit `j`
      of `i + 1`. */
  method MaskString(n: nat, i: nat) returns (mask: seq<char>)
    ensures mask == Mask(n, i + 1)
  {
    mask := seq(n, _ => 0 as char);
    var j := 0;
    while j < n
      invariant 0 <= j <= n && |mask| == n
      invariant forall p :: n - j <= p < n ==> mask[p] == Digit(Bit(i + 1, n - 1 - p))
    {
      mask := mask[n - j - 1 := Digit(Bit(i + 1, j))];
      j := j + 1;
    }
    forall p | 0 <= p < n
      ensures mask[p] == Mask(n, i + 1)[p]
    {
      MaskAt(n, i + 1, n - 1 - p);
    }
  }

  /** The spectrum driver's patterns, one per image, in image order: the
      same names the image writer gives its files. */
  method Patterns(numClasses: nat) returns (patterns: seq<seq<char>>)
    ensures |patterns| == ImageCount(numClasses)
    ensures forall i :: 0 <= i < |patterns| ==> patterns[i] == Mask(numClasses, i + 1)
  {
    patterns := [];
    var imageIndex := 0;
    while imageIndex < ImageCount(numClasses)
      invariant 0 <= imageIndex <= ImageCount(numClasses) && |patterns| == imageIndex
      invariant forall i :: 0 <= i < imageIndex ==> patterns[i] == Mask(numClasses, i + 1)
    {
      var pattern := MaskString(numClasses, imageIndex);
      patterns := patterns + [pattern];
      imageIndex := imageIndex + 1;
    }
  }

  // ---------------------------------------------------------- dot images

  /** The pixel column (or row) of coordinate `f` in an `size`-pixel image:
      `f · size` clamped to `[0, size - 1]` and truncated. */
  function PixelCoord(f: real, size: int): (x: int)
    requires size >= 1
    ensures 0 <= x < size
  {
    Trunc(Clamp(f * size as real, 0.0, (size - 1) as real))
  }

  /** Inside the unit interval the clamp never changes the pixel: it is the
      one the scaled coordinate falls in. */
  lemma PixelCoordOfUnit(f: real, size: int)
    requires size >= 1 && 0.0 <= f < 1.0
    ensures PixelCoord(f, size) as real <= f * size as real < PixelCoord(f, size) as real + 1.0
  {
    ScaledInRange(f, size as real, f * size as real);
    ClampTruncInRange(f * size as real, size);
  }

  lemma ClampTruncInRange(p: real, n: int)
    requires n >= 1 && 0.0 <= p < n as real
    ensures Trunc(Clamp(p, 0.0, (n - 1) as real)) as real <= p < Trunc(Clamp(p, 0.0, (n - 1) as real)) as real + 1.0
  {
    var c := Clamp(p, 0.0, (n - 1) as real);
    if p <= (n - 1) as real {
      assert c == p;
    } else {
      assert c == (n - 1) as real;
      var r := Trunc(c);
      assert r as real <= (n - 1) as real < r as real + 1.0;
      assert r == n - 1;
    }
  }

  lemma ScaledInRange(f: real, n: real, p: real)
    requires 0.0 <= f < 1.0 && n >= 1.0 && p == f * n
    ensures 0.0 <= p < n
  {
  }

  /** The row-major pixel index `y · size + x`. */
  function PixelIndex(v: Vec2, size: int): (p: int)
    requires size >= 1
    ensures 0 <= p < size * size
  {
    var x, y := PixelCoord(v.x, size), PixelCoord(v.y, size);
    RowMajorInBounds(x, y, size);
    y * size + x
  }

  lemma RowMajorInBounds(x: int, y: int, size: int)
    requires 0 <= x < size && 0 <= y < size
    ensures 0 <= y * size + x < size * size
  {
    assert y * size <= (size - 1) * size;
  }

  /** Some point of a class shown in image `i` lands on pixel `q`. */
  ghost predicate Dotted(pts: seq<Point>, size: int, i: nat, q: int)
    requires size >= 1
  {
    exists k :: 0 <= k < |pts| && pts[k].classIndex >= 0 && InImage(i, pts[k].classIndex) && PixelIndex(pts[k].v, size) == q
  }

  /** The black-and-white image `i`: white, with a black pixel under every
      point of a class it shows. */
  function BwImage(pts: seq<Point>, size: int, i: nat): (img: seq<int>)
    requires size >= 1 && forall k :: 0 <= k < |pts| ==> pts[k].classIndex >= 0
    ensures |img| == size * size
    ensures forall q :: 0 <= q < |img| ==> img[q] == 0 || img[q] == 255
    ensures forall q :: 0 <= q < |img| ==> (img[q] == 0 <==> Dotted(pts, size, i, q))
    decreases |pts|
  {
    if pts == [] then seq(size * size, _ => 255)
    else
      var m := |pts| - 1;
      var pre := pts[..m];
      var img := BwImage(pre, size, i);
      DottedSnoc(pts, size, i);
      if InImage(i, pts[m].classIndex) then img[PixelIndex(pts[m].v, size) := 0] else img
  }

  lemma DottedSnoc(pts: seq<Point>, size: int, i: nat)
    requires size >= 1 && |pts| > 0 && forall k :: 0 <= k < |pts| ==> pts[k].classIndex >= 0
    ensures var m := |pts| - 1;
      forall q :: Dotted(pts, size, i, q) <==>
        Dotted(pts[..m], size, i, q) || (InImage(i, pts[m].classIndex) && PixelIndex(pts[m].v, size) == q)
  {
    var m := |pts| - 1;
    forall q | Dotted(pts, size, i, q)
      ensures Dotted(pts[..m], size, i, q) || (InImage(i, pts[m].classIndex) && PixelIndex(pts[m].v, size) == q)
    {
      var k :| 0 <= k < |pts| && pts[k].classIndex >= 0 && InImage(i, pts[k].classIndex) && PixelIndex(pts[k].v, size) == q;
      if k < m {
        assert pts[..m][k] == pts[k];
      }
    }
    forall q | Dotted(pts[..m], size, i, q)
      ensures Dotted(pts, size, i, q)
    {
      var k :| 0 <= k < m && pts[..m][k].classIndex >= 0 && InImage(i, pts[..m][k].classIndex) && PixelIndex(pts[..m][k].v, size) == q;
      assert pts[k] == pts[..m][k];
    }
  }

  // --------------------------------------------------------------- tiling

  /** Where byte `b` of copy `t` of tiled row `r` goes: each tiled row holds
      `9 · size` bytes, three copies of a `3 · size`-byte source row. */
  function TileOffset(size: int, r: int, t: int, b: int): int {
    r * (9 * size) + t * (3 * size) + b
  }

  /** Byte `b` of source row `r % size`. */
  function RowOffset(size: int, r: int, b: int): int
    requires size >= 1
  {
    (r % size) * (3 * size) + b
  }

  /** Channel `ch` of pixel `(x, y)` in a row-major RGB image `w` pixels wide. */
  function PixelByte(w: int, x: int, y: int, ch: int): int {
    (y * w + x) * 3 + ch
  }

  lemma OffsetBounds(size: int, r: int, t: int, b: int)
    requires size >= 1 && 0 <= r < 3 * size && 0 <= t < 3 && 0 <= b < 3 * size
    ensures 0 <= TileOffset(size, r, t, b) < 27 * size * size
    ensures 0 <= RowOffset(size, r, b) < size * size * 3
  {
    TileBounds(size, r, t, b);
    RowBounds(size, r % size, b);
  }

  lemma TileBounds(size: int, r: int, t: int, b: int)
    requires size >= 1 && 0 <= r < 3 * size && 0 <= t < 3 && 0 <= b < 3 * size
    ensures 0 <= r * (9 * size) + t * (3 * size) + b < 27 * size * size
  {
    var row, copy := 9 * size, 3 * size;
    MulLe(0, r, row);
    MulLe(0, t, copy);
    MulLe(t + 1, 3, copy);
    assert (t + 1) * copy == t * copy + copy;
    MulLe(r + 1, 3 * size, row);
    assert (r + 1) * row == r * row + row;
    assert (3 * size) * row == 27 * size * size;
  }

  lemma RowBounds(size: int, q: int, b: int)
    requires size >= 1 && 0 <= q < size && 0 <= b < 3 * size
    ensures 0 <= q * (3 * size) + b < size * size * 3
  {
    var copy := 3 * size;
    MulLe(0, q, copy);
    MulLe(q + 1, size, copy);
    assert (q + 1) * copy == q * copy + copy;
    assert size * copy == size * size * 3;
  }

  /** Copies are laid down in order: a byte of an earlier copy sits below
      the start of a later one. */
  lemma OffsetBefore(size: int, r: int, t: int, b: int, i: int, u: int)
    requires size >= 1 && 0 <= r && 0 <= t < 3 && 0 <= b < 3 * size && 0 <= u <= 3
    requires r < i || (r == i && t < u)
    ensures TileOffset(size, r, t, b) < i * (9 * size) + u * (3 * size)
  {
    MulLe(t + 1, 3, 3 * size);
    if r < i {
      MulLe(r + 1, i, 9 * size);
    } else {
      MulLe(t + 1, u, 3 * size);
    }
  }

  /** Every byte of the copies before copy `t` of row `i` holds its source
      byte. */
  ghost predicate TiledUpTo(tiled: seq<int>, src: seq<int>, size: int, i: int, t: int)
    requires size >= 1
  {
    forall r, u, b :: 0 <= r < 3 * size && 0 <= u < 3 && 0 <= b < 3 * size && (r < i || (r == i && u < t)) ==>
      0 <= TileOffset(size, r, u, b) < |tiled| && 0 <= RowOffset(size, r, b) < |src| &&
      tiled[TileOffset(size, r, u, b)] == src[RowOffset(size, r, b)]
  }

  /** `memcpy` of `piece` into `buf` at offset `at`. */
  function Paste(buf: seq<int>, at: int, piece: seq<int>): (r: seq<int>)
    requires 0 <= at && at + |piece| <= |buf|
    ensures |r| == |buf|
    ensures forall k :: 0 <= k < |buf| ==> r[k] == if at <= k < at + |piece| then piece[k - at] else buf[k]
  {
    buf[..at] + piece + buf[at + |piece|..]
  }

  /** One `memcpy` of a source row to the write position extends the copied
      prefix by that copy. */
  lemma CopyStep(tiled: seq<int>, src: seq<int>, size: int, i: int, t: int)
    requires size >= 1 && |src| == size * size * 3 && |tiled| == 27 * size * size
    requires 0 <= i < 3 * size && 0 <= t < 3 && TiledUpTo(tiled, src, size, i, t)
    ensures 0 <= TileOffset(size, i, t, 0) && TileOffset(size, i, t, 3 * size - 1) < |tiled|
    ensures 0 <= RowOffset(size, i, 0) && RowOffset(size, i, 3 * size - 1) < |src|
    ensures var dest, from := TileOffset(size, i, t, 0), RowOffset(size, i, 0);
      TiledUpTo(Paste(tiled, dest, src[from..from + 3 * size]), src, size, i, t + 1)
  {
    OffsetBounds(size, i, t, 0);
    OffsetBounds(size, i, t, 3 * size - 1);
    var dest, from := TileOffset(size, i, t, 0), RowOffset(size, i, 0);
    var next := Paste(tiled, dest, src[from..from + 3 * size]);
    forall r, u, b | 0 <= r < 3 * size && 0 <= u < 3 && 0 <= b < 3 * size && (r < i || (r == i && u < t + 1))
      ensures 0 <= TileOffset(size, r, u, b) < |next| && 0 <= RowOffset(size, r, b) < |src|
      ensures next[TileOffset(size, r, u, b)] == src[RowOffset(size, r, b)]
    {
      OffsetBounds(size, r, u, b);
      if r < i || u < t {
        OffsetBefore(size, r, u, b, i, t);
      } else {
        assert TileOffset(size, r, u, b) == dest + b;
        assert RowOffset(size, r, b) == from + b;
      }
    }
  }

  /** Byte `b` of each of the three copies in tiled row `r` is byte `b` of
      source row `r mod size`. */
  ghost predicate Tiled(tiled: seq<int>, src: seq<int>, size: int)
    requires size >= 1
  {
    forall r, t, b :: 0 <= r < 3 * size && 0 <= t < 3 && 0 <= b < 3 * size ==>
      0 <= TileOffset(size, r, t, b) < |tiled| && 0 <= RowOffset(size, r, b) < |src| &&
      tiled[TileOffset(size, r, t, b)] == src[RowOffset(size, r, b)]
  }

  /** The tiling loop: for each of the `3 · size` rows, three copies of the
      source row go to the write position, which then advances by a row of
      the source; it ends exactly at the end of the buffer. */
  method Tile(src: seq<int>, size: int) returns (tiled: seq<int>, dest: int)
    requires size >= 1 && |src| == size * size * 3
    ensures |tiled| == 27 * size * size && dest == |tiled|
    ensures Tiled(tiled, src, size)
  {
    tiled := seq(27 * size * size, _ => 255);
    dest := 0;
    var i := 0;
    while i < 3 * size
      invariant 0 <= i <= 3 * size && |tiled| == 27 * size * size
      invariant dest == i * (9 * size)
      invariant TiledUpTo(tiled, src, size, i, 0)
    {
      tiled, dest := TileRow(tiled, src, size, i, dest);
      i := i + 1;
    }
    assert dest == 27 * size * size by {
      assert (3 * size) * (9 * size) == 27 * size * size;
    }
    WholeTile(tiled, src, size);
  }

  /** The three copies of one tiled row, each followed by advancing the
      write position by a source row. */
  method TileRow(tiled: seq<int>, src: seq<int>, size: int, i: int, dest: int) returns (next: seq<int>, after: int)
    requires size >= 1 && |src| == size * size * 3 && |tiled| == 27 * size * size
    requires 0 <= i < 3 * size && dest == i * (9 * size) && TiledUpTo(tiled, src, size, i, 0)
    ensures |next| == |tiled| && after == (i + 1) * (9 * size)
    ensures TiledUpTo(next, src, size, i + 1, 0)
  {
    next, after := CopyRow(tiled, src, size, i, 0, dest);
    next, after := CopyRow(next, src, size, i, 1, after);
    next, after := CopyRow(next, src, size, i, 2, after);
    NextRow(next, src, size, i);
  }

  /** One `memcpy` of source row `i mod size` to `dest`, then `dest += 3 · size`. */
  method CopyRow(tiled: seq<int>, src: seq<int>, size: int, i: int, t: int, dest: int) returns (next: seq<int>, after: int)
    requires size >= 1 && |src| == size * size * 3 && |tiled| == 27 * size * size
    requires 0 <= i < 3 * size && 0 <= t < 3 && dest == TileOffset(size, i, t, 0)
    requires TiledUpTo(tiled, src, size, i, t)
    ensures |next| == |tiled| && after == TileOffset(size, i, t + 1, 0)
    ensures TiledUpTo(next, src, size, i, t + 1)
  {
    CopyStep(tiled, src, size, i, t);
    var from := RowOffset(size, i, 0);
    next := Paste(tiled, dest, src[from..from + 3 * size]);
    after := dest + 3 * size;
    assert (t + 1) * (3 * size) == t * (3 * size) + 3 * size;
  }

  lemma NextRow(tiled: seq<int>, src: seq<int>, size: int, i: int)
    requires size >= 1 && TiledUpTo(tiled, src, size, i, 3)
    ensures TiledUpTo(tiled, src, size, i + 1, 0)
    ensures TileOffset(size, i, 3, 0) == (i + 1) * (9 * size)
  {
    forall r, u, b | 0 <= r < 3 * size && 0 <= u < 3 && 0 <= b < 3 * size && (r < i + 1 || (r == i + 1 && u < 0))
      ensures 0 <= TileOffset(size, r, u, b) < |tiled| && 0 <= RowOffset(size, r, b) < |src|
      ensures tiled[TileOffset(size, r, u, b)] == src[RowOffset(size, r, b)]
    {
      assert r < i || (r == i && u < 3);
    }
  }

  lemma WholeTile(tiled: seq<int>, src: seq<int>, size: int)
    requires size >= 1 && TiledUpTo(tiled, src, size, 3 * size, 0)
    ensures Tiled(tiled, src, size)
  {
    forall r, t, b | 0 <= r < 3 * size && 0 <= t < 3 && 0 <= b < 3 * size
      ensures 0 <= TileOffset(size, r, t, b) < |tiled| && 0 <= RowOffset(size, r, b) < |src|
      ensures tiled[TileOffset(size, r, t, b)] == src[RowOffset(size, r, b)]
    {
      assert r < 3 * size || (r == 3 * size && t < 0);
    }
  }

  /** Pixel `(x, y)` of the tiled image is pixel `(x mod size, y mod size)`
      of the source: the copy offsets of `Tile` are the pixel layout of a
      `3 · size`-wide image. */
  lemma TiledPixel(size: int, x: int, y: int, ch: int)
    requires size >= 1 && 0 <= x < 3 * size && 0 <= y < 3 * size && 0 <= ch < 3
    ensures 0 <= x / size < 3 && 0 <= (x % size) * 3 + ch < 3 * size
    ensures PixelByte(3 * size, x, y, ch) == TileOffset(size, y, x / size, (x % size) * 3 + ch)
    ensures PixelByte(size, x % size, y % size, ch) == RowOffset(size, y, (x % size) * 3 + ch)
  {
    var t, m := x / size, x % size;
    assert x == t * size + m;
    TileIndices(size, x, t, m, ch);
    TargetByte(size, x, y, ch, t, m);
    SourceByte(size, y, ch, m, y % size);
  }

  lemma TileIndices(size: int, x: int, t: int, m: int, ch: int)
    requires size >= 1 && 0 <= x < 3 * size && 0 <= m < size && x == t * size + m && 0 <= ch < 3
    ensures 0 <= t < 3 && 0 <= m * 3 + ch < 3 * size
  {
    if t >= 3 {
      MulLe(3, t, size);
    }
    if t < 0 {
      MulLe(t, -1, size);
    }
    MulLe(m + 1, size, 3);
  }

  lemma TargetByte(size: int, x: int, y: int, ch: int, t: int, m: int)
    requires x == t * size + m
    ensures PixelByte(3 * size, x, y, ch) == TileOffset(size, y, t, m * 3 + ch)
  {
    assert (y * (3 * size) + x) * 3 == y * (9 * size) + (t * size) * 3 + m * 3;
  }

  lemma SourceByte(size: int, y: int, ch: int, m: int, r: int)
    requires size >= 1 && r == y % size
    ensures PixelByte(size, m, r, ch) == RowOffset(size, y, m * 3 + ch)
  {
    assert (r * size + m) * 3 == r * (3 * size) + m * 3;
  }
}

=== FILE: Layers.dfy ===
/** The layer bookkeeping shared by the three strategies: sorting layers by
    radius, the per-layer target counts, fill fractions as the source's
    float division produces them, the least-filled scheduler, and the final
    "unsort" that hands class indices back in the caller's order. */
module Layers {
  import opened MathUtils
  import opened Points

  /** One class in the engine's sorted order. */
  datatype Layer = Layer(radius: real, originalIndex: int, sampleCount: int, targetCount: int)

  function Range(n: nat): (r: seq<int>)
    ensures |r| == n && forall i :: 0 <= i < n ==> r[i] == i
  {
    seq(n, i => i)
  }

  // ------------------------------------------------------------------ sort

  /** `order` lists layers from largest to smallest key. */
  ghost predicate NonIncreasing(key: seq<real>, order: seq<int>)
    requires forall i :: 0 <= i < |order| ==> 0 <= order[i] < |key|
  {
    forall i, j :: 0 <= i < j < |order| ==> key[order[i]] >= key[order[j]]
  }

  function Insert(key: seq<real>, x: int, s: seq<int>): (r: seq<int>)
    requires 0 <= x < |key|
    requires forall i :: 0 <= i < |s| ==> 0 <= s[i] < |key|
    requires NonIncreasing(key, s)
    ensures forall i :: 0 <= i < |r| ==> 0 <= r[i] < |key|
    ensures |r| == |s| + 1 && multiset(r) == multiset(s) + multiset{x}
    ensures NonIncreasing(key, r)
    ensures r[0] == x || (|s| > 0 && r[0] == s[0])
  {
    if s == [] then [x]
    else if key[s[0]] >= key[x] then
      var t := Insert(key, x, s[1..]);
      InsertBehind(key, x, s, t);
      [s[0]] + t
    else
      [x] + s
  }

  /** Putting the head of `s` in front of the insertion into its tail keeps
      the order, because the head is at least every key behind it. */
  lemma InsertBehind(key: seq<real>, x: int, s: seq<int>, t: seq<int>)
    requires s != [] && 0 <= x < |key|
    requires forall i :: 0 <= i < |s| ==> 0 <= s[i] < |key|
    requires key[s[0]] >= key[x] && NonIncreasing(key, s)
    requires forall i :: 0 <= i < |t| ==> 0 <= t[i] < |key|
    requires |t| == |s| && multiset(t) == multiset(s[1..]) + multiset{x}
    requires NonIncreasing(key, t)
    requires t[0] == x || (|s| > 1 && t[0] == s[1])
    ensures NonIncreasing(key, [s[0]] + t)
    ensures multiset([s[0]] + t) == multiset(s) + multiset{x}
  {
    assert s == [s[0]] + s[1..];
    var r := [s[0]] + t;
    forall i, j | 0 <= i < j < |r|
      ensures key[r[i]] >= key[r[j]]
    {
      if i == 0 {
        assert key[s[0]] >= key[t[0]];
        assert key[t[0]] >= key[t[j - 1]] || j - 1 == 0;
      }
    }
  }

  /** Indices `0..n-1` ordered by non-increasing key (a stable insertion
      sort; the source's `std::sort` leaves the order of equal keys open). */
  function SortByKey(key: seq<real>, n: nat): (order: seq<int>)
    requires n <= |key|
    ensures |order| == n
    ensures forall i :: 0 <= i < n ==> 0 <= order[i] < n
    ensures multiset(order) == multiset(Range(n))
    ensures NonIncreasing(key, order)
  {
    if n == 0 then []
    else
      var s := SortByKey(key, n - 1);
      var r := Insert(key, n - 1, s);
      assert Range(n) == Range(n - 1) + [n - 1];
      RangeMembers(r, n);
      r
  }

  /** A permutation of `0..n-1` holds only indices below `n`. */
  lemma RangeMembers(r: seq<int>, n: nat)
    requires multiset(r) == multiset(Range(n))
    ensures forall i :: 0 <= i < |r| ==> 0 <= r[i] < n
  {
    forall i | 0 <= i < |r|
      ensures 0 <= r[i] < n
    {
      assert r[i] in multiset(r);
      assert r[i] in Range(n);
    }
  }

  /** The layers right after the sort: position `k` holds the caller's layer
      `order[k]`, with no samples yet. */
  function SortedLayers(radii: seq<real>, order: seq<int>, targets: seq<int>): (ls: seq<Layer>)
    requires |order| == |targets| && forall i :: 0 <= i < |order| ==> 0 <= order[i] < |radii|
    ensures |ls| == |order|
    ensures forall k :: 0 <= k < |ls| ==>
      ls[k] == Layer(radii[order[k]], order[k], 0, targets[k])
  {
    seq(|order|, k requires 0 <= k < |order| => Layer(radii[order[k]], order[k], 0, targets[k]))
  }

  function Origs(ls: seq<Layer>): (r: seq<int>)
    ensures |r| == |ls| && forall k :: 0 <= k < |ls| ==> r[k] == ls[k].originalIndex
  {
    seq(|ls|, k requires 0 <= k < |ls| => ls[k].originalIndex)
  }

  function Radii(ls: seq<Layer>): (r: seq<real>)
    ensures |r| == |ls| && forall k :: 0 <= k < |ls| ==> r[k] == ls[k].radius
  {
    seq(|ls|, k requires 0 <= k < |ls| => ls[k].radius)
  }

  /** After the sort the layers are non-increasing in radius and their
      original indices are a permutation of `0..N-1`. */
  lemma SortedLayersOrdered(radii: seq<real>, targets: seq<int>)
    requires |targets| == |radii|
    ensures var ls := SortedLayers(radii, SortByKey(radii, |radii|), targets);
      && (forall i, j :: 0 <= i < j < |ls| ==> ls[i].radius >= ls[j].radius)
      && multiset(Origs(ls)) == multiset(Range(|radii|))
  {
    var order := SortByKey(radii, |radii|);
    var ls := SortedLayers(radii, order, targets);
    assert Origs(ls) == order;
  }

  /** The values of `xs` in the order `order` lists their positions. */
  function Permute(xs: seq<real>, order: seq<int>): (r: seq<real>)
    requires forall i :: 0 <= i < |order| ==> 0 <= order[i] < |xs|
    ensures |r| == |order| && forall k :: 0 <= k < |order| ==> r[k] == xs[order[k]]
    ensures NonZero(xs) ==> NonZero(r)
  {
    seq(|order|, k requires 0 <= k < |order| => xs[order[k]])
  }

  /** A permutation of `0..n-1` lists no position twice. */
  lemma PermutationDistinct(s: seq<int>, n: nat)
    requires multiset(s) == multiset(Range(n))
    ensures forall i, j :: 0 <= i < j < |s| ==> s[i] != s[j]
  {
    forall i, j | 0 <= i < j < |s|
      ensures s[i] != s[j]
    {
      if s[i] == s[j] {
        var v := s[i];
        assert s == s[..j] + s[j..];
        assert v in multiset(s[..j]) by { assert s[..j][i] == v; }
        assert v in multiset(s[j..]) by { assert s[j..][0] == v; }
        assert multiset(s)[v] >= 2;
        RangeCount(n, v);
        assert false;
      }
    }
  }

  lemma {:induction false} RangeCount(n: nat, v: int)
    ensures multiset(Range(n))[v] <= 1
  {
    if n > 0 {
      RangeCount(n - 1, v);
      assert Range(n) == Range(n - 1) + [n - 1];
      if v == n - 1 {
        assert v !in multiset(Range(n - 1));
      }
    }
  }

  // --------------------------------------------------------- target counts

  ghost predicate NonZero(rs: seq<real>) {
    forall k :: 0 <= k < |rs| ==> rs[k] != 0.0
  }

  /** The density weight `1 / r²` of one layer. */
  function InvSq(r: real): (w: real)
    requires r != 0.0
    ensures w > 0.0
  {
    1.0 / (r * r)
  }

  /** A smaller radius carries a larger weight. */
  lemma InvSqMonotone(r1: real, r2: real)
    requires r1 >= r2 > 0.0
    ensures InvSq(r1) <= InvSq(r2)
  {
    assert r1 * r1 >= r1 * r2 >= r2 * r2 > 0.0;
  }

  function Weights(rs: seq<real>): (ws: seq<real>)
    requires NonZero(rs)
    ensures |ws| == |rs| && Positive(ws)
    ensures forall i :: 0 <= i < |rs| ==> ws[i] == InvSq(rs[i])
  {
    seq(|rs|, i requires 0 <= i < |rs| => InvSq(rs[i]))
  }

  ghost predicate Positive(ws: seq<real>) {
    forall k :: 0 <= k < |ws| ==> ws[k] > 0.0
  }

  /** `Σ_{k<n} ws[k]`, accumulated in index order. */
  function Sum(ws: seq<real>, n: nat): (s: real)
    requires n <= |ws| && Positive(ws)
    ensures s >= 0.0 && (n > 0 ==> s > 0.0)
  {
    if n == 0 then 0.0 else Sum(ws, n - 1) + ws[n - 1]
  }

  lemma {:induction false} SumAtLeastTerm(ws: seq<real>, i: nat, n: nat)
    requires i < n <= |ws| && Positive(ws)
    ensures ws[i] <= Sum(ws, n)
    decreases n
  {
    if i < n - 1 {
      SumAtLeastTerm(ws, i, n - 1);
    }
  }

  /** Layer `i` receives the truncated share `int(T · (w_i / Σ w))` of the
      total, where `w_i = 1 / r_i²`. */
  function TargetCounts(ws: seq<real>, total: int): (t: seq<int>)
    requires Positive(ws)
    ensures |t| == |ws|
    ensures total >= 0 ==> forall i :: 0 <= i < |t| ==> 0 <= t[i] <= total
    ensures total >= 0 && |ws| > 0 ==> SharesBounded(t, ws, total as real, Sum(ws, |ws|))
    ensures total >= 0 && |ws| > 0 ==> SharesTight(t, ws, total as real, Sum(ws, |ws|))
  {
    var t := seq(|ws|, i requires 0 <= i < |ws| => TargetShare(ws, i, total));
    if total >= 0 && |ws| > 0 then
      SharesHold(t, ws, total, Sum(ws, |ws|));
      t
    else
      t
  }

  /** The truncated shares lie within one below their exact values. */
  lemma SharesHold(t: seq<int>, ws: seq<real>, total: int, s: real)
    requires Positive(ws) && total >= 0 && |ws| > 0 && |t| == |ws| && s == Sum(ws, |ws|)
    requires forall i :: 0 <= i < |ws| ==> t[i] == TargetShare(ws, i, total)
    ensures SharesBounded(t, ws, total as real, s)
    ensures SharesTight(t, ws, total as real, s)
  {
    SharesBelow(t, ws, total, s);
    SharesAbove(t, ws, total, s);
  }

  lemma SharesBelow(t: seq<int>, ws: seq<real>, total: int, s: real)
    requires Positive(ws) && total >= 0 && |ws| > 0 && |t| == |ws| && s == Sum(ws, |ws|)
    requires forall i :: 0 <= i < |ws| ==> t[i] == TargetShare(ws, i, total)
    ensures SharesBounded(t, ws, total as real, s)
  {
    forall i | 0 <= i < |t|
      ensures t[i] as real <= total as real * (ws[i] / s)
    {
      ShareAt(ws, i, total, t[i], s);
    }
  }

  lemma SharesAbove(t: seq<int>, ws: seq<real>, total: int, s: real)
    requires Positive(ws) && total >= 0 && |ws| > 0 && |t| == |ws| && s == Sum(ws, |ws|)
    requires forall i :: 0 <= i < |ws| ==> t[i] == TargetShare(ws, i, total)
    ensures SharesTight(t, ws, total as real, s)
  {
    forall i | 0 <= i < |t|
      ensures total as real * (ws[i] / s) < t[i] as real + 1.0
    {
      ShareAt(ws, i, total, t[i], s);
    }
  }

  lemma ShareAt(ws: seq<real>, i: nat, total: int, t: int, s: real)
    requires Positive(ws) && total >= 0 && i < |ws|
    requires t == TargetShare(ws, i, total) && s == Sum(ws, |ws|)
    ensures t as real <= total as real * (ws[i] / s) < t as real + 1.0
  {
  }

  function TargetShare(ws: seq<real>, i: nat, total: int): (t: int)
    requires i < |ws| && Positive(ws)
    ensures ws[i] <= Sum(ws, |ws|)
    ensures t == Share(total, ws[i], Sum(ws, |ws|))
  {
    SumAtLeastTerm(ws, i, |ws|);
    Share(total, ws[i], Sum(ws, |ws|))
  }

  /** `int(float(T) * (w / s))` for a weight `w` out of the sum `s`. */
  function Share(total: int, w: real, s: real): (t: int)
    requires 0.0 < w <= s
    ensures total >= 0 ==> 0 <= t <= total
    ensures total >= 0 ==> t as real <= total as real * (w / s) < t as real + 1.0
  {
    if total >= 0 then
      TruncShareBounds(total, w, s);
      Trunc(total as real * (w / s))
    else
      Trunc(total as real * (w / s))
  }

  lemma TruncShareBounds(total: int, w: real, s: real)
    requires total >= 0 && 0.0 < w <= s
    ensures var t := Trunc(total as real * (w / s));
      0 <= t <= total && t as real <= total as real * (w / s)
  {
    var a := total as real;
    ShareBounds(a, w, s);
    TruncAtMost(a * (w / s), total);
  }

  lemma TruncAtMost(x: real, n: int)
    requires 0.0 <= x <= n as real
    ensures 0 <= Trunc(x) <= n && Trunc(x) as real <= x
  {
    var t := Trunc(x);
    assert t as real <= n as real;
  }

  lemma ShareBounds(a: real, w: real, s: real)
    requires a >= 0.0 && 0.0 < w <= s
    ensures 0.0 <= a * (w / s) <= a
  {
    var p := w / s;
    FractionBounds(w, s);
    ScaleLe(0.0, p, a);
    ScaleLe(p, 1.0, a);
  }

  /** A part over a whole at least as large is a fraction in `(0, 1]`. */
  lemma FractionBounds(w: real, s: real)
    requires 0.0 < w <= s
    ensures 0.0 < w / s <= 1.0
  {
    var p := w / s;
    assert p * s == w;
    assert (1.0 - p) * s == s - w;
    SignOfFactor(1.0 - p, s);
    SignOfFactor(p, s);
  }

  lemma ShareMonotone(total: int, w1: real, w2: real, s: real)
    requires total >= 0 && 0.0 < w1 <= w2 <= s
    ensures Share(total, w1, s) <= Share(total, w2, s)
  {
    var a := total as real;
    TruncMonotone(a, w1, w2, s);
    assert Share(total, w1, s) == Trunc(a * (w1 / s));
    assert Share(total, w2, s) == Trunc(a * (w2 / s));
  }

  lemma ScaleMonotone(a: real, w1: real, w2: real, s: real)
    requires a >= 0.0 && s > 0.0 && w1 <= w2
    ensures a * (w1 / s) <= a * (w2 / s)
  {
    assert w2 / s - w1 / s == (w2 - w1) / s;
    ScaleLe(w1 / s, w2 / s, a);
  }

  /** The truncated shares keep the order of their weights. */
  lemma TruncMonotone(a: real, w1: real, w2: real, s: real)
    requires a >= 0.0 && 0.0 < w1 <= w2 <= s
    ensures Trunc(a * (w1 / s)) <= Trunc(a * (w2 / s))
  {
    var x, y := a * (w1 / s), a * (w2 / s);
    ScaleMonotone(a, w1, w2, s);
    ShareBounds(a, w1, s);
    var i, j := Trunc(x), Trunc(y);
    assert i as real <= x <= y < j as real + 1.0;
  }

  lemma PrefixStep(z: int, x: int, y: int, a: real, p: real, w: real, q: real, s: real)
    requires s > 0.0 && z == x + y && q == p + w
    requires x as real <= a * (p / s) && y as real <= a * (w / s)
    ensures z as real <= a * (q / s)
  {
    assert p / s + w / s == q / s;
  }

  function SumInts(t: seq<int>, n: nat): int
    requires n <= |t|
  {
    if n == 0 then 0 else SumInts(t, n - 1) + t[n - 1]
  }

  /** Each count is at most its real-valued share `a · w_i / s`. */
  ghost predicate SharesBounded(t: seq<int>, ws: seq<real>, a: real, s: real)
    requires |t| == |ws| && s > 0.0
  {
    forall i :: 0 <= i < |t| ==> t[i] as real <= a * (ws[i] / s)
  }

  /** Each share falls short of its exact value `a · w_i / s` by less than one. */
  ghost predicate SharesTight(t: seq<int>, ws: seq<real>, a: real, s: real)
    requires |t| == |ws| && s > 0.0
  {
    forall i :: 0 <= i < |t| ==> a * (ws[i] / s) < t[i] as real + 1.0
  }

  /** Shares bounded term by term add up to a bounded prefix sum. */
  lemma {:induction false} SharePrefixBound(t: seq<int>, ws: seq<real>, a: real, s: real, n: nat)
    requires Positive(ws) && |t| == |ws| && n <= |ws| && s > 0.0
    requires SharesBounded(t, ws, a, s)
    ensures SumInts(t, n) as real <= a * (Sum(ws, n) / s)
    decreases n
  {
    if n == 0 {
      assert a * (0.0 / s) == 0.0;
    } else {
      SharePrefixBound(t, ws, a, s, n - 1);
      PrefixStep(SumInts(t, n), SumInts(t, n - 1), t[n - 1], a, Sum(ws, n - 1), ws[n - 1], Sum(ws, n), s);
    }
  }

  /** The target counts never add up to more than the requested total. */
  lemma TargetCountsSum(ws: seq<real>, total: int)
    requires Positive(ws) && total >= 0
    ensures SumInts(TargetCounts(ws, total), |ws|) <= total
  {
    if |ws| > 0 {
      SharesTotal(TargetCounts(ws, total), ws, total);
    }
  }

  lemma SharesTotal(t: seq<int>, ws: seq<real>, total: int)
    requires Positive(ws) && |t| == |ws| > 0
    requires SharesBounded(t, ws, total as real, Sum(ws, |ws|))
    ensures SumInts(t, |ws|) <= total
  {
    var s := Sum(ws, |ws|);
    SharePrefixBound(t, ws, total as real, s, |ws|);
    WholeShare(total as real, s);
  }

  lemma WholeShare(a: real, s: real)
    requires s > 0.0
    ensures a * (s / s) == a
  {
    assert s / s == 1.0;
  }

  /** Along the sorted order (non-increasing positive radii) the target
      counts never decrease. */
  lemma TargetCountsMonotone(rs: seq<real>, total: int, i: nat, j: nat)
    requires NonZero(rs) && total >= 0
    requires i < j < |rs| && rs[i] >= rs[j] > 0.0
    ensures TargetCounts(Weights(rs), total)[i] <= TargetCounts(Weights(rs), total)[j]
  {
    var ws := Weights(rs);
    InvSqMonotone(rs[i], rs[j]);
    assert TargetCounts(ws, total)[i] == TargetShare(ws, i, total);
    assert TargetCounts(ws, total)[j] == TargetShare(ws, j, total);
    ShareMonotone(total, ws[i], ws[j], Sum(ws, |ws|));
  }

  // --------------------------------------------------------------- fills

  /** The float value of `sampleCount / targetCount`: a zero target gives
      +inf, -inf or NaN depending on the numerator. */
  datatype Fill = NegInf | Finite(q: real) | PosInf | NaN

  function FillOf(sampleCount: int, targetCount: int): (f: Fill)
    ensures targetCount != 0 ==> f == Finite(sampleCount as real / targetCount as real)
    ensures targetCount == 0 ==> !f.Finite?
  {
    if targetCount != 0 then Finite(sampleCount as real / targetCount as real)
    else if sampleCount > 0 then PosInf
    else if sampleCount < 0 then NegInf
    else NaN
  }

  /** IEEE `<`: false whenever NaN is involved. */
  predicate Less(a: Fill, b: Fill) {
    match (a, b)
    case (NegInf, Finite(_)) => true
    case (NegInf, PosInf) => true
    case (Finite(p), Finite(q)) => p < q
    case (Finite(_), PosInf) => true
    case _ => false
  }

  /** IEEE `>=`: false whenever NaN is involved. */
  predicate AtLeast(a: Fill, b: Fill) {
    a != NaN && b != NaN && !Less(a, b)
  }

  /** A fill the scheduler can pick: below the initial bound `FLT_MAX`. */
  predicate Eligible(f: Fill) {
    Less(f, Finite(FltMax))
  }

  lemma LessTransitive(a: Fill, b: Fill, c: Fill)
    requires Less(a, b) && Less(b, c)
    ensures Less(a, c)
  {
  }

  /** With positive targets, comparing fills is comparing cross products. */
  lemma FillCrossMultiply(s1: int, t1: int, s2: int, t2: int)
    requires t1 > 0 && t2 > 0
    ensures Less(FillOf(s1, t1), FillOf(s2, t2)) <==> s1 * t2 < s2 * t1
  {
    var a, b := s1 as real / t1 as real, s2 as real / t2 as real;
    assert s1 as real == a * t1 as real;
    assert s2 as real == b * t2 as real;
    assert (s1 * t2) as real == a * (t1 * t2) as real;
    assert (s2 * t1) as real == b * (t1 * t2) as real;
    assert (t1 * t2) as real > 0.0;
  }

  function Fills(sampleCount: seq<int>, targetCount: seq<int>): (f: seq<Fill>)
    requires |sampleCount| == |targetCount|
    ensures |f| == |sampleCount|
    ensures forall i :: 0 <= i < |f| ==> f[i] == FillOf(sampleCount[i], targetCount[i])
  {
    seq(|sampleCount|, i requires 0 <= i < |sampleCount| => FillOf(sampleCount[i], targetCount[i]))
  }

  // ------------------------------------------------------------ scheduler

  /** `r` is the first index attaining the least eligible fill among the first `n`. */
  ghost predicate FirstLeast(fills: seq<Fill>, r: int, n: int)
    requires n <= |fills|
  {
    && 0 <= r < n && Eligible(fills[r])
    && (forall j :: 0 <= j < r && Eligible(fills[j]) ==> Less(fills[r], fills[j]))
    && (forall j :: r < j < n ==> !Less(fills[j], fills[r]))
  }

  function LeastFilledFrom(fills: seq<Fill>, i: nat, best: Option<int>): (r: Option<int>)
    requires i <= |fills|
    requires best.None? ==> forall j :: 0 <= j < i ==> !Eligible(fills[j])
    requires best.Some? ==> FirstLeast(fills, best.value, i)
    ensures r.None? ==> forall j :: 0 <= j < |fills| ==> !Eligible(fills[j])
    ensures r.Some? ==> FirstLeast(fills, r.value, |fills|)
    decreases |fills| - i
  {
    if i == |fills| then best
    else
      var bound := if best.Some? then fills[best.value] else Finite(FltMax);
      if Less(fills[i], bound) then
        LeastFilledSwitch(fills, i, best);
        LeastFilledFrom(fills, i + 1, Some(i))
      else
        LeastFilledFrom(fills, i + 1, best)
  }

  /** Switching to `i` keeps `FirstLeast` when `fills[i]` beats the bound. */
  lemma LeastFilledSwitch(fills: seq<Fill>, i: nat, best: Option<int>)
    requires i < |fills|
    requires best.None? ==> forall j :: 0 <= j < i ==> !Eligible(fills[j])
    requires best.Some? ==> FirstLeast(fills, best.value, i)
    requires Less(fills[i], if best.Some? then fills[best.value] else Finite(FltMax))
    ensures FirstLeast(fills, i, i + 1)
  {
    if best.Some? {
      var b := best.value;
      LessTransitive(fills[i], fills[b], Finite(FltMax));
      forall j | 0 <= j < i && Eligible(fills[j])
        ensures Less(fills[i], fills[j])
      {
        if j < b {
          LessTransitive(fills[i], fills[b], fills[j]);
        } else if b < j {
          assert !Less(fills[j], fills[b]);
          FillTotal(fills[j], fills[b]);
        }
      }
    }
  }

  /** Among non-NaN fills, `!Less(a, b)` and `a != b` give `Less(b, a)`. */
  lemma FillTotal(a: Fill, b: Fill)
    requires a != NaN && b != NaN
    ensures Less(a, b) || Less(b, a) || a == b
  {
  }

  /** The scheduler: the first layer whose fill is strictly smaller than every
      fill before it and no larger than any after it; `None` (the source's
      `-1`) when no fill is below `FLT_MAX`. */
  function LeastFilled(fills: seq<Fill>): (r: Option<int>)
    ensures r.None? <==> forall j :: 0 <= j < |fills| ==> !Eligible(fills[j])
    ensures r.Some? ==> FirstLeast(fills, r.value, |fills|)
  {
    LeastFilledFrom(fills, 0, None)
  }

  // --------------------------------------------------------------- unsort

  /** Point relabelling when layers `i` and `j` are swapped back. As written
      in the source, class `j` becomes the literal `1`; the intended rule
      swaps `i` and `j`. */
  function Relabel(c: int, i: int, j: int, asWritten: bool): (r: int)
    ensures c != i && c != j ==> r == c
    ensures c == i ==> r == j
    ensures c == j && c != i ==> r == (if asWritten then 1 else i)
  {
    if c == i then j
    else if c == j then (if asWritten then 1 else i)
    else c
  }

  /** The literal relabel agrees with a true swap only when `i == 1`. */
  lemma RelabelLiteralIsSwapOnlyAtOne(i: int, j: int)
    requires i != j
    ensures (forall c :: Relabel(c, i, j, true) == Relabel(c, i, j, false)) <==> i == 1
  {
    if i != 1 {
      assert Relabel(j, i, j, true) != Relabel(j, i, j, false);
    }
  }

  function RelabelAll(pts: seq<Point>, i: int, j: int, asWritten: bool): (r: seq<Point>)
    ensures |r| == |pts|
    ensures forall n :: 0 <= n < |pts| ==>
      r[n] == Point(Relabel(pts[n].classIndex, i, j, asWritten), pts[n].v)
  {
    seq(|pts|, n requires 0 <= n < |pts| => Point(Relabel(pts[n].classIndex, i, j, asWritten), pts[n].v))
  }

  /** The first position `j' >= j` holding the caller's layer `i`. */
  function FindLayer(ls: seq<Layer>, i: int, j: nat): (r: Option<nat>)
    requires j <= |ls|
    ensures r.Some? ==> j <= r.value < |ls| && ls[r.value].originalIndex == i
    ensures r.Some? ==> forall k :: j <= k < r.value ==> ls[k].originalIndex != i
    ensures r.None? ==> forall k :: j <= k < |ls| ==> ls[k].originalIndex != i
    decreases |ls| - j
  {
    if j == |ls| then None
    else if ls[j].originalIndex == i then Some(j)
    else FindLayer(ls, i, j + 1)
  }

  function Swap<T>(s: seq<T>, i: nat, j: nat): (r: seq<T>)
    requires i < |s| && j < |s|
    ensures |r| == |s| && r[i] == s[j] && r[j] == s[i]
    ensures forall k :: 0 <= k < |s| && k != i && k != j ==> r[k] == s[k]
  {
    s[i := s[j]][j := s[i]]
  }

  datatype Unsorted = Unsorted(layers: seq<Layer>, points: seq<Point>)

  /** The source's unsort loop from position `i` on: find the caller's layer
      `i` at or after `i`, swap it into place and relabel the points. */
  function UnsortFrom(ls: seq<Layer>, pts: seq<Point>, i: nat, asWritten: bool): (r: Unsorted)
    requires i <= |ls|
    ensures |r.layers| == |ls| && |r.points| == |pts|
    ensures forall n :: 0 <= n < |pts| ==> r.points[n].v == pts[n].v
    ensures ClassesIn(pts, |ls|) ==> ClassesIn(r.points, |ls|)
    decreases |ls| - i
  {
    if i == |ls| then Unsorted(ls, pts)
    else
      match FindLayer(ls, i, i)
      case Some(j) =>
        if i != j then UnsortFrom(Swap(ls, i, j), RelabelAll(pts, i, j, asWritten), i + 1, asWritten)
        else UnsortFrom(ls, pts, i + 1, asWritten)
      case None => UnsortFrom(ls, pts, i + 1, asWritten)
  }

  /** Unsort as written (`asWritten`) or with the intended swap of labels. */
  function Unsort(ls: seq<Layer>, pts: seq<Point>, asWritten: bool): (r: Unsorted)
    ensures |r.layers| == |ls| && |r.points| == |pts|
    ensures forall n :: 0 <= n < |pts| ==> r.points[n].v == pts[n].v
    ensures ClassesIn(pts, |ls|) ==> ClassesIn(r.points, |ls|)
  {
    UnsortFrom(ls, pts, 0, asWritten)
  }

  function Interval(lo: int, hi: int): (r: seq<int>)
    requires lo <= hi
    ensures |r| == hi - lo && forall k :: 0 <= k < |r| ==> r[k] == lo + k
  {
    seq(hi - lo, k => lo + k)
  }

  lemma SwapSuffixMultiset(s: seq<int>, i: nat, j: nat)
    requires i <= j < |s|
    ensures multiset(Swap(s, i, j)[i..]) == multiset(s[i..])
  {
    var t := Swap(s, i, j);
    var a := s[i..];
    var b := t[i..];
    assert b == a[0 := a[j - i]][j - i := a[0]];
  }

  /** The unsort precondition at step `i`: positions below `i` are settled
      and the rest hold exactly the caller's indices `i..N-1`. */
  ghost predicate SettledBelow(ls: seq<Layer>, i: nat)
    requires i <= |ls|
  {
    && (forall k :: 0 <= k < i ==> ls[k].originalIndex == k)
    && multiset(Origs(ls)[i..]) == multiset(Interval(i, |ls|))
  }

  lemma FindLayerPresent(ls: seq<Layer>, i: nat)
    requires i < |ls| && SettledBelow(ls, i)
    ensures FindLayer(ls, i, i).Some?
  {
    var o := Origs(ls);
    assert Interval(i, |ls|)[0] == i;
    assert i in multiset(o[i..]);
    var k :| 0 <= k < |o[i..]| && o[i..][k] == i;
    assert ls[i + k].originalIndex == i;
  }

  lemma SettledStep(ls: seq<Layer>, i: nat, j: nat)
    requires i < |ls| && SettledBelow(ls, i) && FindLayer(ls, i, i) == Some(j)
    ensures SettledBelow(Swap(ls, i, j), i + 1)
  {
    var o := Origs(ls);
    var ls' := Swap(ls, i, j);
    assert Origs(ls') == Swap(o, i, j);
    SuffixStep(o, i, j);
  }

  lemma SuffixStep(o: seq<int>, i: nat, j: nat)
    requires i <= j < |o| && o[j] == i
    requires multiset(o[i..]) == multiset(Interval(i, |o|))
    ensures multiset(Swap(o, i, j)[i + 1..]) == multiset(Interval(i + 1, |o|))
  {
    SwapSuffixMultiset(o, i, j);
    DropSettled(Swap(o, i, j), i);
  }

  /** With `i` in place at position `i`, the rest of a permutation of
      `i..n-1` is a permutation of `i+1..n-1`. */
  lemma DropSettled(u: seq<int>, i: nat)
    requires i < |u| && u[i] == i
    requires multiset(u[i..]) == multiset(Interval(i, |u|))
    ensures multiset(u[i + 1..]) == multiset(Interval(i + 1, |u|))
  {
    SplitFirst(u[i..]);
    assert u[i..][1..] == u[i + 1..];
    SplitFirst(Interval(i, |u|));
    assert Interval(i, |u|)[1..] == Interval(i + 1, |u|);
    Cancel(i, multiset(u[i + 1..]), multiset(Interval(i + 1, |u|)));
  }

  lemma Cancel(x: int, a: multiset<int>, b: multiset<int>)
    requires multiset{x} + a == multiset{x} + b
    ensures a == b
  {
    assert a == (multiset{x} + a) - multiset{x};
    assert b == (multiset{x} + b) - multiset{x};
  }

  lemma SplitFirst(s: seq<int>)
    requires |s| > 0
    ensures multiset(s) == multiset{s[0]} + multiset(s[1..])
  {
    assert s == [s[0]] + s[1..];
  }

  lemma {:induction false} UnsortFromRestores(ls: seq<Layer>, pts: seq<Point>, i: nat, asWritten: bool)
    requires i <= |ls| && SettledBelow(ls, i)
    ensures forall k :: 0 <= k < |ls| ==> UnsortFrom(ls, pts, i, asWritten).layers[k].originalIndex == k
    decreases |ls| - i
  {
    if i < |ls| {
      FindLayerPresent(ls, i);
      var j := FindLayer(ls, i, i).value;
      SettledStep(ls, i, j);
      if i != j {
        UnsortFromRestores(Swap(ls, i, j), RelabelAll(pts, i, j, asWritten), i + 1, asWritten);
      } else {
        assert Swap(ls, i, j) == ls;
        UnsortFromRestores(ls, pts, i + 1, asWritten);
      }
    }
  }

  /** Whenever the original indices are a permutation of `0..N-1` (as the
      sort leaves them), unsorting puts layer `i` back at position `i`. */
  lemma UnsortRestoresOrder(ls: seq<Layer>, pts: seq<Point>, asWritten: bool)
    requires multiset(Origs(ls)) == multiset(Range(|ls|))
    ensures forall k :: 0 <= k < |ls| ==> Unsort(ls, pts, asWritten).layers[k].originalIndex == k
  {
    assert Origs(ls)[0..] == Origs(ls);
    assert Interval(0, |ls|) == Range(|ls|);
    UnsortFromRestores(ls, pts, 0, asWritten);
  }

  /** Invariant of the intended unsort: each point's current layer is the
      layer it was labelled with originally. */
  ghost predicate LabelsTrack(ls0: seq<Layer>, pts0: seq<Point>, ls: seq<Layer>, pts: seq<Point>) {
    && |ls| == |ls0| && |pts| == |pts0|
    && forall n :: 0 <= n < |pts0| && 0 <= pts0[n].classIndex < |ls0| ==>
         0 <= pts[n].classIndex < |ls| && ls[pts[n].classIndex] == ls0[pts0[n].classIndex]
  }

  lemma {:induction false} UnsortFromTracks(ls0: seq<Layer>, pts0: seq<Point>, ls: seq<Layer>, pts: seq<Point>, i: nat)
    requires i <= |ls| && LabelsTrack(ls0, pts0, ls, pts)
    ensures LabelsTrack(ls0, pts0, UnsortFrom(ls, pts, i, false).layers, UnsortFrom(ls, pts, i, false).points)
    decreases |ls| - i
  {
    if i < |ls| {
      match FindLayer(ls, i, i)
      case Some(j) =>
        if i != j {
          var ls', pts' := Swap(ls, i, j), RelabelAll(pts, i, j, false);
          forall n | 0 <= n < |pts0| && 0 <= pts0[n].classIndex < |ls0|
            ensures 0 <= pts'[n].classIndex < |ls'| && ls'[pts'[n].classIndex] == ls0[pts0[n].classIndex]
          {
            var c := pts[n].classIndex;
            assert ls'[Relabel(c, i, j, false)] == ls[c];
          }
          UnsortFromTracks(ls0, pts0, ls', pts', i + 1);
        } else {
          UnsortFromTracks(ls0, pts0, ls, pts, i + 1);
        }
      case None =>
        UnsortFromTracks(ls0, pts0, ls, pts, i + 1);
    }
  }

  /** The intended unsort hands every point the caller's index of the layer
      it was generated in, and keeps its position. */
  lemma UnsortRestoresCallerClasses(ls: seq<Layer>, pts: seq<Point>)
    requires multiset(Origs(ls)) == multiset(Range(|ls|))
    ensures var r := Unsort(ls, pts, false);
      forall n :: 0 <= n < |pts| && 0 <= pts[n].classIndex < |ls| ==>
        r.points[n] == Point(ls[pts[n].classIndex].originalIndex, pts[n].v)
  {
    UnsortFromTracks(ls, pts, ls, pts, 0);
    UnsortRestoresOrder(ls, pts, false);
  }

  /** The literal relabel loses classes: with three layers sorted as the
      caller's `2, 1, 0`, a point generated in sorted layer 2 (caller's
      layer 0) comes back labelled 1. */
  lemma UnsortAsWrittenMislabels()
    ensures var ls := [Layer(0.04, 2, 0, 0), Layer(0.02, 1, 0, 0), Layer(0.01, 0, 0, 0)];
      var pts := [Point(2, Vec2(0.5, 0.5))];
      && ls[pts[0].classIndex].originalIndex == 0
      && Unsort(ls, pts, true).points[0].classIndex == 1
  {
    var ls := [Layer(0.04, 2, 0, 0), Layer(0.02, 1, 0, 0), Layer(0.01, 0, 0, 0)];
    var pts := [Point(2, Vec2(0.5, 0.5))];
    assert FindLayer(ls, 0, 0) == Some(2);
    var ls1 := Swap(ls, 0, 2);
    var pts1 := RelabelAll(pts, 0, 2, true);
    assert pts1[0].classIndex == 1;
    assert FindLayer(ls1, 1, 1) == Some(1);
    assert FindLayer(ls1, 2, 2) == Some(2);
    assert UnsortFrom(ls1, pts1, 3, true).points == pts1;
    assert UnsortFrom(ls1, pts1, 2, true) == UnsortFrom(ls1, pts1, 3, true);
    assert UnsortFrom(ls1, pts1, 1, true) == UnsortFrom(ls1, pts1, 2, true);
  }
}

=== FILE: MathUtils.dfy ===
/** Scalar and vector helpers of the sampler: clamping, vector difference and
    dot product, the toroidal squared distance used by every conflict test,
    and the C++ integer conversions (truncating cast, `/` and `%`) that the
    rest of the model needs written out. Floats are modelled as exact reals. */
module MathUtils {

  datatype Option<T> = None | Some(value: T)

  /** A point or a difference vector in the plane. */
  datatype Vec2 = Vec2(x: real, y: real)

  /** The largest finite single-precision float, the scheduler's initial bound. */
  const FltMax: real := 340282346638528859811704183484516925440.0

  /** Restricts `value` to the interval between `themin` and `themax`;
      the lower bound is tested first. */
  function Clamp(value: real, themin: real, themax: real): (r: real)
    ensures themin <= themax ==> themin <= r <= themax
    ensures themin <= value <= themax ==> r == value
    ensures r == themin || r == themax || r == value
    ensures value <= themin ==> r == themin
    ensures themin < value && value >= themax ==> r == themax
  {
    if value <= themin then themin
    else if value >= themax then themax
    else value
  }

  /** Clamping an already clamped value changes nothing. */
  lemma ClampIdempotent(value: real, themin: real, themax: real)
    requires themin <= themax
    ensures Clamp(Clamp(value, themin, themax), themin, themax) == Clamp(value, themin, themax)
  {
  }

  function Sub(a: Vec2, b: Vec2): Vec2 {
    Vec2(a.x - b.x, a.y - b.y)
  }

  function Dot(a: Vec2, b: Vec2): (r: real)
    ensures a == b ==> r >= 0.0
  {
    a.x * b.x + a.y * b.y
  }

  /** The per-component wrap of the toroidal metric: the smaller of `f` and
      `1 - f`. No absolute value is taken. */
  function Wrap(f: real): (r: real)
    ensures r <= f
    ensures 0.0 <= f <= 1.0 ==> 0.0 <= r <= 0.5
    ensures f <= 0.5 ==> r == f
    ensures f > 0.5 ==> r == 1.0 - f
  {
    if f <= 1.0 - f then f else 1.0 - f
  }

  /** Squared toroidal distance: the components of `b - a` are wrapped, then
      the wrapped vector is dotted with itself. */
  function ToroidalDistanceSq(a: Vec2, b: Vec2): (r: real)
    ensures r >= 0.0
  {
    var v := Sub(b, a);
    var w := Vec2(Wrap(v.x), Wrap(v.y));
    Dot(w, w)
  }

  /** Plain squared Euclidean distance. */
  function DistanceSq(a: Vec2, b: Vec2): (r: real)
    ensures r >= 0.0
  {
    var v := Sub(b, a);
    Dot(v, v)
  }

  predicate InUnitSquare(p: Vec2) {
    0.0 <= p.x < 1.0 && 0.0 <= p.y < 1.0
  }

  /** For a component of a difference of two unit-square coordinates, the
      wrapped value is no larger in magnitude than the component itself. */
  lemma WrapShrinks(f: real)
    requires -1.0 < f < 1.0
    ensures Wrap(f) * Wrap(f) <= f * f
  {
    if f > 0.5 {
      var g := 1.0 - f;
      assert 0.0 <= g <= f;
      ScaleLe(g, f, g);
      ScaleLe(g, f, f);
    }
  }

  /** Multiplying by a non-negative factor keeps the order. */
  lemma ScaleLe(x: real, y: real, c: real)
    requires x <= y && c >= 0.0
    ensures x * c <= y * c
  {
    assert y * c - x * c == (y - x) * c;
  }

  /** A product with a positive factor has the sign of the other factor. */
  lemma SignOfFactor(x: real, c: real)
    requires c > 0.0 && x * c >= 0.0
    ensures x >= 0.0
  {
  }

  /** Inside the unit square the toroidal distance never exceeds the plain one. */
  lemma ToroidalAtMostEuclidean(a: Vec2, b: Vec2)
    requires InUnitSquare(a) && InUnitSquare(b)
    ensures ToroidalDistanceSq(a, b) <= DistanceSq(a, b)
  {
    var v := Sub(b, a);
    WrapShrinks(v.x);
    WrapShrinks(v.y);
    var wx, wy := Wrap(v.x), Wrap(v.y);
    assert wx * wx <= v.x * v.x;
    assert wy * wy <= v.y * v.y;
    assert ToroidalDistanceSq(a, b) == wx * wx + wy * wy;
    assert DistanceSq(a, b) == v.x * v.x + v.y * v.y;
  }

  /** Swapping the arguments can change the toroidal distance: a component
      of 0.75 wraps to 0.25, while -0.75 is kept as it is. */
  lemma ToroidalDistanceAsymmetric()
    ensures ToroidalDistanceSq(Vec2(0.0, 0.0), Vec2(0.75, 0.0)) == 0.0625
    ensures ToroidalDistanceSq(Vec2(0.75, 0.0), Vec2(0.0, 0.0)) == 0.5625
  {
    assert Wrap(0.75) == 0.25;
    assert Wrap(-0.75) == -0.75;
    assert Wrap(0.0) == 0.0;
  }

  /** C++ conversion of a float to an int: truncation toward zero. */
  function Trunc(x: real): (r: int)
    ensures x >= 0.0 ==> r >= 0 && r as real <= x < r as real + 1.0
    ensures x < 0.0 ==> r <= 0 && r as real - 1.0 < x <= r as real
  {
    if x >= 0.0 then
      assert x.Floor as real <= x < x.Floor as real + 1.0;
      var r :| r as real <= x < r as real + 1.0; r
    else
      assert -((-x).Floor) as real - 1.0 < x <= -((-x).Floor) as real;
      var r :| r as real - 1.0 < x <= r as real; r
  }

  function Abs(a: int): nat {
    if a >= 0 then a else -a
  }

  /** C++ integer division: the quotient is truncated toward zero. */
  function CDiv(a: int, b: int): (q: int)
    requires b != 0
    ensures Abs(q) == Abs(a) / Abs(b)
    ensures (a >= 0) == (b > 0) ==> q >= 0
    ensures (a >= 0) != (b > 0) ==> q <= 0
  {
    var qa := Abs(a) / Abs(b);
    if (a >= 0) == (b > 0) then qa else -qa
  }

  /** C++ remainder: it takes the sign of the dividend and is smaller in
      magnitude than the divisor. */
  function CMod(a: int, b: int): (r: int)
    requires b != 0
    ensures a == b * CDiv(a, b) + r
    ensures Abs(r) < Abs(b)
    ensures a >= 0 ==> r >= 0
    ensures a < 0 ==> r <= 0
    ensures a >= 0 && b > 0 ==> r == a % b
  {
    a - b * CDiv(a, b)
  }

  /** Adding the divisor does not change the Euclidean remainder. */
  lemma ModShift(i: int, n: int)
    requires n > 0
    ensures (i + n) % n == i % n
  {
    var q, r := i / n, i % n;
    var q', r' := (i + n) / n, (i + n) % n;
    assert n * q' + r' == n * q + r + n;
    assert n * q' - n * (q + 1) == r - r';
    assert n * (q + 2) == n * (q + 1) + n;
    FactorBelow(n, q', q + 2);
    FactorAbove(n, q', q);
  }

  /** Multiplying by a non-negative factor keeps `<=`. */
  lemma MulLe(a: int, b: int, c: int)
    requires a <= b && c >= 0
    ensures a * c <= b * c
  {
    assert b * c - a * c == (b - a) * c;
  }

  lemma FactorBelow(n: int, q: int, k: int)
    requires n > 0 && n * q < n * k
    ensures q < k
  {
  }

  lemma FactorAbove(n: int, q: int, k: int)
    requires n > 0 && n * q > n * k
    ensures q > k
  {
  }
}

=== FILE: Points.dfy ===
/** The point list every strategy returns: class-tagged positions, with the
    erase-and-shift removal of `std::vector::erase` and the per-class counts
    the engines keep in step with it. */
module Points {
  import opened MathUtils

  /** An accepted sample: its class (layer) and its position. */
  datatype Point = Point(classIndex: int, v: Vec2)

  /** Erasing position `k` shifts every later element down by one. */
  function Erase<T>(s: seq<T>, k: nat): (r: seq<T>)
    requires k < |s|
    ensures |r| == |s| - 1
    ensures forall i :: 0 <= i < k ==> r[i] == s[i]
    ensures forall i :: k <= i < |r| ==> r[i] == s[i + 1]
  {
    s[..k] + s[k + 1..]
  }

  /** Every point names one of the classes `0..n-1`. */
  ghost predicate ClassesIn(pts: seq<Point>, n: int) {
    forall k :: 0 <= k < |pts| ==> 0 <= pts[k].classIndex < n
  }

  /** Number of points of class `c`. */
  function CountClass(pts: seq<Point>, c: int): (n: nat)
    ensures n <= |pts|
  {
    if pts == [] then 0
    else CountClass(pts[..|pts| - 1], c) + (if pts[|pts| - 1].classIndex == c then 1 else 0)
  }

  lemma {:induction false} CountAppend(a: seq<Point>, b: seq<Point>, c: int)
    ensures CountClass(a + b, c) == CountClass(a, c) + CountClass(b, c)
    decreases |b|
  {
    if b == [] {
      assert a + b == a;
    } else {
      var b' := b[..|b| - 1];
      assert (a + b)[..|a + b| - 1] == a + b';
      CountAppend(a, b', c);
    }
  }

  /** Summed over all classes `0..n-1`, the per-class counts give the list length,
      provided every class lies in that range. */
  lemma {:induction false} CountAllClasses(pts: seq<Point>, n: nat)
    requires forall i :: 0 <= i < |pts| ==> 0 <= pts[i].classIndex < n
    ensures SumCounts(pts, n) == |pts|
    decreases |pts|
  {
    if pts == [] {
      SumCountsEmpty(pts, n);
    } else {
      var p := pts[..|pts| - 1];
      CountAllClasses(p, n);
      SumCountsStep(p, pts[|pts| - 1], n);
      assert p + [pts[|pts| - 1]] == pts;
    }
  }

  function SumCounts(pts: seq<Point>, n: nat): nat {
    if n == 0 then 0 else SumCounts(pts, n - 1) + CountClass(pts, n - 1)
  }

  lemma {:induction false} SumCountsEmpty(pts: seq<Point>, n: nat)
    requires pts == []
    ensures SumCounts(pts, n) == 0
  {
    if n > 0 {
      SumCountsEmpty(pts, n - 1);
    }
  }

  lemma {:induction false} SumCountsStep(p: seq<Point>, q: Point, n: nat)
    ensures SumCounts(p + [q], n) == SumCounts(p, n) + (if 0 <= q.classIndex < n then 1 else 0)
  {
    if n > 0 {
      SumCountsStep(p, q, n - 1);
      assert (p + [q])[..|p + [q]| - 1] == p;
    }
  }

  /** Erasing a point lowers exactly its own class's count by one. */
  lemma CountErase(pts: seq<Point>, k: nat, c: int)
    requires k < |pts|
    ensures CountClass(Erase(pts, k), c)
            == CountClass(pts, c) - (if pts[k].classIndex == c then 1 else 0)
  {
    assert pts == pts[..k] + [pts[k]] + pts[k + 1..];
    CountAppend(pts[..k] + [pts[k]], pts[k + 1..], c);
    CountAppend(pts[..k], [pts[k]], c);
    CountAppend(pts[..k], pts[k + 1..], c);
    assert [pts[k]][..0] == [];
  }

  /** Appending a point raises exactly its own class's count by one. */
  lemma CountPush(pts: seq<Point>, q: Point, c: int)
    ensures CountClass(pts + [q], c) == CountClass(pts, c) + (if q.classIndex == c then 1 else 0)
  {
    assert (pts + [q])[..|pts + [q]| - 1] == pts;
  }

  /** The points among the first `n` whose position is not in `del`, in their
      original order. */
  function Survivors(pts: seq<Point>, del: set<int>, n: nat): seq<Point>
    requires n <= |pts|
  {
    if n == 0 then []
    else Survivors(pts, del, n - 1) + (if n - 1 in del then [] else [pts[n - 1]])
  }

  /** Erasing position `k` when every other deleted position lies below `k`
      is the same as marking `k` deleted as well. */
  lemma {:induction false} SurvivorsErase(pts: seq<Point>, del: set<int>, k: nat, n: nat)
    requires k < |pts| && n < |pts|
    requires forall d :: d in del ==> d < k
    ensures Survivors(Erase(pts, k), del, n)
            == Survivors(pts, del + {k}, if n < k then n else n + 1)
    decreases n
  {
    var e := Erase(pts, k);
    if n == 0 {
      if k == 0 {
        assert Survivors(pts, del + {k}, 1) == Survivors(pts, del + {k}, 0) + [];
      }
    } else if n <= k {
      SurvivorsErase(pts, del, k, n - 1);
      if n == k {
        SurvivorsErase(pts, del, k, n - 1);
        assert Survivors(pts, del + {k}, k + 1) == Survivors(pts, del + {k}, k) + [];
        assert Survivors(e, del, n) == Survivors(e, del, n - 1) + (if n - 1 in del then [] else [e[n - 1]]);
        assert Survivors(pts, del + {k}, k) == Survivors(pts, del + {k}, k - 1) + (if k - 1 in del + {k} then [] else [pts[k - 1]]);
      }
    } else {
      SurvivorsErase(pts, del, k, n - 1);
      assert e[n - 1] == pts[n];
      assert n !in del + {k};
    }
  }
}

=== FILE: Separation.dfy ===
/** The separation ("r") matrix of the dart-throwing strategies. Layers are
    taken in sorted order and split into bands: maximal runs of equal radius
    (`Hard`, `Soft`) or one layer per band (`HardAdaptive`). Entry `[i][j]`
    is the minimum distance between a point of layer `i` and one of layer
    `j`: the layer's own radius on the diagonal, `0` between distinct layers
    of one band, and `1 / sqrt(D)` otherwise, where `D` is the density
    `Σ 1/r²` accumulated through the end of the later layer's band. */
module Separation {
  import opened MathUtils
  import opened Layers

  /** `Σ_{k<e} 1 / rs[k]²`, accumulated band after band as the source does. */
  function Density(rs: seq<real>, e: nat): (d: real)
    requires e <= |rs| && NonZero(rs)
    ensures d >= 0.0 && (e > 0 ==> d > 0.0)
  {
    if e == 0 then 0.0 else Density(rs, e - 1) + InvSq(rs[e - 1])
  }

  /** First layer of the band holding layer `k`. */
  function BandStart(rs: seq<real>, grouped: bool, k: nat): (s: nat)
    requires k < |rs|
    ensures s <= k
    ensures grouped ==> forall m :: s <= m <= k ==> rs[m] == rs[k]
    ensures grouped && s > 0 ==> rs[s - 1] != rs[k]
    ensures !grouped ==> s == k
  {
    if grouped && k > 0 && rs[k - 1] == rs[k] then BandStart(rs, grouped, k - 1) else k
  }

  /** One past the last layer of the band holding layer `k`. */
  function BandEnd(rs: seq<real>, grouped: bool, k: nat): (e: nat)
    requires k < |rs|
    ensures k < e <= |rs|
    ensures grouped ==> forall m :: k <= m < e ==> rs[m] == rs[k]
    ensures grouped && e < |rs| ==> rs[e] != rs[k]
    ensures !grouped ==> e == k + 1
    decreases |rs| - k
  {
    if grouped && k + 1 < |rs| && rs[k + 1] == rs[k] then BandEnd(rs, grouped, k + 1) else k + 1
  }

  predicate SameBand(rs: seq<real>, grouped: bool, i: nat, j: nat)
    requires i < |rs| && j < |rs|
  {
    BandStart(rs, grouped, i) == BandStart(rs, grouped, j)
  }

  /** Entry `[i][j]` of the separation matrix. */
  function Entry(rs: seq<real>, grouped: bool, invSqrt: real -> real, i: nat, j: nat): (r: real)
    requires i < |rs| && j < |rs| && NonZero(rs)
    ensures i == j ==> r == rs[i]
    ensures j < i && SameBand(rs, grouped, i, j) ==> r == 0.0
    ensures j < i && !SameBand(rs, grouped, i, j) ==> r == invSqrt(Density(rs, BandEnd(rs, grouped, i)))
  {
    if j < i then BandStartOrder(rs, grouped, j, i); EntryBody(rs, grouped, invSqrt, i, j)
    else EntryBody(rs, grouped, invSqrt, i, j)
  }

  function EntryBody(rs: seq<real>, grouped: bool, invSqrt: real -> real, i: nat, j: nat): real
    requires i < |rs| && j < |rs| && NonZero(rs)
  {
    var hi, lo := if i < j then j else i, if i < j then i else j;
    if i == j then rs[i]
    else if lo >= BandStart(rs, grouped, hi) then 0.0
    else invSqrt(Density(rs, BandEnd(rs, grouped, hi)))
  }

  /** The separation matrix, row by row. */
  function RMatrix(rs: seq<real>, grouped: bool, invSqrt: real -> real): (m: seq<seq<real>>)
    requires NonZero(rs)
    ensures |m| == |rs| && forall i :: 0 <= i < |m| ==> |m[i]| == |rs|
    ensures forall i :: 0 <= i < |m| ==> m[i][i] == rs[i]
    ensures forall i, j :: 0 <= i < |m| && 0 <= j < |m| ==> m[i][j] == m[j][i]
    ensures forall i, j :: 0 <= j < i < |m| && SameBand(rs, grouped, i, j) ==> m[i][j] == 0.0
    ensures forall i, j :: 0 <= j < i < |m| && !SameBand(rs, grouped, i, j) ==>
      m[i][j] == invSqrt(Density(rs, BandEnd(rs, grouped, i)))
  {
    var m := seq(|rs|, i requires 0 <= i < |rs| =>
      seq(|rs|, j requires 0 <= j < |rs| => Entry(rs, grouped, invSqrt, i, j)));
    EntryTable(rs, grouped, invSqrt, m);
    m
  }

  /** A square table of `Entry` values is symmetric, holds the radii on its
      diagonal, and has the band values below it. */
  lemma EntryTable(rs: seq<real>, grouped: bool, invSqrt: real -> real, m: seq<seq<real>>)
    requires NonZero(rs) && |m| == |rs| && forall i :: 0 <= i < |m| ==> |m[i]| == |rs|
    requires forall i, j :: 0 <= i < |rs| && 0 <= j < |rs| ==> m[i][j] == Entry(rs, grouped, invSqrt, i, j)
    ensures forall i :: 0 <= i < |m| ==> m[i][i] == rs[i]
    ensures forall i, j :: 0 <= i < |m| && 0 <= j < |m| ==> m[i][j] == m[j][i]
    ensures forall i, j :: 0 <= j < i < |m| && SameBand(rs, grouped, i, j) ==> m[i][j] == 0.0
    ensures forall i, j :: 0 <= j < i < |m| && !SameBand(rs, grouped, i, j) ==>
      m[i][j] == invSqrt(Density(rs, BandEnd(rs, grouped, i)))
  {
    forall i, j | 0 <= i < |rs| && 0 <= j < |rs|
      ensures m[i][j] == m[j][i]
    {
      assert Entry(rs, grouped, invSqrt, i, j) == EntryBody(rs, grouped, invSqrt, i, j);
      assert Entry(rs, grouped, invSqrt, j, i) == EntryBody(rs, grouped, invSqrt, j, i);
    }
  }

  /** Bands are intervals: `j < i` share a band exactly when `j` is at or
      past the start of `i`'s band. */
  lemma {:induction false} BandStartOrder(rs: seq<real>, grouped: bool, j: nat, i: nat)
    requires j <= i < |rs|
    ensures BandStart(rs, grouped, i) == BandStart(rs, grouped, j) <==> j >= BandStart(rs, grouped, i)
    decreases i
  {
    if j < i && grouped && rs[i - 1] == rs[i] {
      BandStartOrder(rs, grouped, j, i - 1);
    }
  }

  /** With radii in non-increasing order (as sorted), two layers share a band
      of the grouped construction exactly when their radii are equal. */
  lemma SameBandIffEqualRadius(rs: seq<real>, i: nat, j: nat)
    requires j <= i < |rs|
    requires forall a, b :: 0 <= a < b < |rs| ==> rs[a] >= rs[b]
    ensures SameBand(rs, true, i, j) <==> rs[i] == rs[j]
  {
    BandStartOrder(rs, true, j, i);
  }

  /** Without grouping every layer is its own band: off-diagonal `[i][j]`
      with `j < i` is `1 / sqrt(Σ_{k<=i} 1/r_k²)`. */
  lemma UngroupedEntries(rs: seq<real>, invSqrt: real -> real, i: nat, j: nat)
    requires NonZero(rs) && j < i < |rs|
    ensures RMatrix(rs, false, invSqrt)[i][j] == invSqrt(Density(rs, i + 1))
  {
    assert BandStart(rs, false, i) == i && BandStart(rs, false, j) == j;
    assert BandEnd(rs, false, i) == i + 1;
    var m := RMatrix(rs, false, invSqrt);
    assert !SameBand(rs, false, i, j);
    assert m[i][j] == invSqrt(Density(rs, BandEnd(rs, false, i)));
  }

  /** The diagonal-only starting matrix of the source. */
  function Initial(rs: seq<real>): (m: seq<seq<real>>)
    ensures |m| == |rs| && forall i :: 0 <= i < |m| ==> |m[i]| == |rs|
    ensures forall i, j :: 0 <= i < |rs| && 0 <= j < |rs| ==> m[i][j] == if i == j then rs[i] else 0.0
  {
    seq(|rs|, i requires 0 <= i < |rs| => seq(|rs|, j requires 0 <= j < |rs| => if i == j then rs[i] else 0.0))
  }

  ghost predicate Square(m: seq<seq<real>>, n: nat) {
    |m| == n && forall i :: 0 <= i < n ==> |m[i]| == n
  }

  /** Entries whose later layer lies below `done` are final; the rest still
      hold their initial value. */
  ghost predicate BuiltBelow(m: seq<seq<real>>, rs: seq<real>, grouped: bool, invSqrt: real -> real, done: nat)
    requires NonZero(rs) && Square(m, |rs|)
  {
    forall a, b :: 0 <= a < |rs| && 0 <= b < |rs| ==>
      m[a][b] == if (if a < b then b else a) < done then Entry(rs, grouped, invSqrt, a, b)
                 else if a == b then rs[a] else 0.0
  }

  /** The source's construction loop: extend the band while the radius is
      unchanged (or by one layer when ungrouped), add the band's density, and
      write `1 / sqrt(total)` into every pair of a band member and an earlier
      layer, both ways round. */
  method MakeRMatrix(rs: seq<real>, grouped: bool, invSqrt: real -> real) returns (m: seq<seq<real>>)
    requires NonZero(rs)
    ensures m == RMatrix(rs, grouped, invSqrt)
  {
    var n := |rs|;
    m := Initial(rs);
    var start, end := 0, 0;
    var total := 0.0;
    while end < n
      invariant end <= n && Square(m, n)
      invariant end < n ==> BandStart(rs, grouped, end) == end
      invariant total == Density(rs, end)
      invariant BuiltBelow(m, rs, grouped, invSqrt, end)
      decreases n - end
    {
      start := end;
      end := ScanBand(rs, grouped, start);
      total := AddDensity(rs, start, end, total);
      m := WriteBand(m, rs, grouped, invSqrt, start, end, invSqrt(total));
    }
    Built(m, rs, grouped, invSqrt);
  }

  lemma Built(m: seq<seq<real>>, rs: seq<real>, grouped: bool, invSqrt: real -> real)
    requires NonZero(rs) && Square(m, |rs|) && BuiltBelow(m, rs, grouped, invSqrt, |rs|)
    ensures m == RMatrix(rs, grouped, invSqrt)
  {
    var r := RMatrix(rs, grouped, invSqrt);
    forall a | 0 <= a < |rs|
      ensures m[a] == r[a]
    {
      assert forall b :: 0 <= b < |rs| ==> m[a][b] == r[a][b];
    }
  }

  /** The band-end search: `start + 1` when ungrouped, otherwise the first
      layer whose radius differs from `rs[start]`. */
  method ScanBand(rs: seq<real>, grouped: bool, start: nat) returns (end: nat)
    requires start < |rs| && BandStart(rs, grouped, start) == start
    ensures start < end <= |rs|
    ensures forall k :: start <= k < end ==> BandStart(rs, grouped, k) == start && BandEnd(rs, grouped, k) == end
    ensures end < |rs| ==> BandStart(rs, grouped, end) == end
  {
    end := start;
    if grouped {
      while end < |rs| && rs[end] == rs[start]
        invariant start <= end <= |rs|
        invariant forall k :: start <= k < end ==> rs[k] == rs[start]
        decreases |rs| - end
      {
        end := end + 1;
      }
    } else {
      end := end + 1;
    }
    BandFound(rs, grouped, start, end);
  }

  /** Adds the band's densities `1 / r²` to the running total. */
  method AddDensity(rs: seq<real>, start: nat, end: nat, total0: real) returns (total: real)
    requires NonZero(rs) && start <= end <= |rs| && total0 == Density(rs, start)
    ensures total == Density(rs, end)
  {
    total := total0;
    var i := start;
    while i < end
      invariant start <= i <= end && total == Density(rs, i)
    {
      total := total + InvSq(rs[i]);
      i := i + 1;
    }
  }

  /** After the inner loop `end` closes the band that `start` opens. */
  lemma BandFound(rs: seq<real>, grouped: bool, start: nat, end: nat)
    requires start < end <= |rs| && BandStart(rs, grouped, start) == start
    requires grouped ==> forall k :: start <= k < end ==> rs[k] == rs[start]
    requires grouped ==> end == |rs| || rs[end] != rs[start]
    requires !grouped ==> end == start + 1
    ensures forall k :: start <= k < end ==> BandStart(rs, grouped, k) == start && BandEnd(rs, grouped, k) == end
    ensures end < |rs| ==> BandStart(rs, grouped, end) == end
  {
    forall k | start <= k < end
      ensures BandStart(rs, grouped, k) == start && BandEnd(rs, grouped, k) == end
    {
      BandStartWithin(rs, grouped, start, k);
      BandEndWithin(rs, grouped, end, k);
    }
  }

  lemma {:induction false} BandStartWithin(rs: seq<real>, grouped: bool, start: nat, k: nat)
    requires start <= k < |rs| && BandStart(rs, grouped, start) == start
    requires grouped ==> forall m :: start <= m <= k ==> rs[m] == rs[start]
    requires !grouped ==> k == start
    ensures BandStart(rs, grouped, k) == start
    decreases k
  {
    if k > start {
      BandStartWithin(rs, grouped, start, k - 1);
    }
  }

  lemma {:induction false} BandEndWithin(rs: seq<real>, grouped: bool, end: nat, k: nat)
    requires k < end <= |rs|
    requires grouped ==> forall m :: k <= m < end ==> rs[m] == rs[k]
    requires grouped ==> end == |rs| || rs[end] != rs[k]
    requires !grouped ==> end == k + 1
    ensures BandEnd(rs, grouped, k) == end
    decreases end - k
  {
    if k + 1 < end {
      BandEndWithin(rs, grouped, end, k + 1);
    }
  }

  /** The two nested write loops for one band `[start, end)`. */
  method WriteBand(m0: seq<seq<real>>, rs: seq<real>, grouped: bool, invSqrt: real -> real,
                   start: nat, end: nat, v: real) returns (m: seq<seq<real>>)
    requires NonZero(rs) && Square(m0, |rs|) && start < end <= |rs|
    requires BuiltBelow(m0, rs, grouped, invSqrt, start)
    requires forall k :: start <= k < end ==> BandStart(rs, grouped, k) == start && BandEnd(rs, grouped, k) == end
    requires v == invSqrt(Density(rs, end))
    ensures Square(m, |rs|) && BuiltBelow(m, rs, grouped, invSqrt, end)
  {
    BandBegins(m0, rs, grouped, invSqrt, start, v);
    m := m0;
    var i := start;
    while i < end
      invariant start <= i <= end && Square(m, |rs|)
      invariant Filled(m, rs, grouped, invSqrt, start, v, i, 0)
    {
      m := WriteRow(m, rs, grouped, invSqrt, start, i, v);
      i := i + 1;
    }
    BandEnds(m, rs, grouped, invSqrt, start, end, v);
  }

  /** Row `i` of a band: `m[i][j] = m[j][i] = v` for every layer `j` before
      the band. */
  method WriteRow(m0: seq<seq<real>>, rs: seq<real>, grouped: bool, invSqrt: real -> real,
                  start: nat, i: nat, v: real) returns (m: seq<seq<real>>)
    requires NonZero(rs) && Square(m0, |rs|) && start <= i < |rs|
    requires Filled(m0, rs, grouped, invSqrt, start, v, i, 0)
    ensures Square(m, |rs|) && Filled(m, rs, grouped, invSqrt, start, v, i + 1, 0)
  {
    m := m0;
    var j := 0;
    while j < start
      invariant 0 <= j <= start && Square(m, |rs|)
      invariant Filled(m, rs, grouped, invSqrt, start, v, i, j)
    {
      WriteStep(m, rs, grouped, invSqrt, start, v, i, j);
      m := m[i := m[i][j := v]];
      m := m[j := m[j][i := v]];
      j := j + 1;
    }
    RowWritten(m, rs, grouped, invSqrt, start, v, i);
  }

  /** What the matrix holds while row `i` of the band starting at `start` is
      written up to column `j`: final entries before the band, `v` (or `0`
      inside the band) for the rows already written, `v` for the first `j`
      pairs of row `i`, the initial matrix elsewhere. */
  function Expected(rs: seq<real>, grouped: bool, invSqrt: real -> real, start: nat, v: real,
                    i: nat, j: nat, a: nat, b: nat): real
    requires NonZero(rs) && a < |rs| && b < |rs|
  {
    if (if a < b then b else a) < start then Entry(rs, grouped, invSqrt, a, b)
    else if (a < b && start <= b < i) || (b < a && start <= a < i) then
      (if (if a < b then a else b) < start then v else 0.0)
    else if (a == i && b < j) || (b == i && a < j) then v
    else if a == b then rs[a] else 0.0
  }

  ghost predicate Filled(m: seq<seq<real>>, rs: seq<real>, grouped: bool, invSqrt: real -> real,
                         start: nat, v: real, i: nat, j: nat)
    requires NonZero(rs) && Square(m, |rs|)
  {
    forall a, b :: 0 <= a < |rs| && 0 <= b < |rs| ==> m[a][b] == Expected(rs, grouped, invSqrt, start, v, i, j, a, b)
  }

  lemma BandBegins(m: seq<seq<real>>, rs: seq<real>, grouped: bool, invSqrt: real -> real, start: nat, v: real)
    requires NonZero(rs) && Square(m, |rs|) && BuiltBelow(m, rs, grouped, invSqrt, start)
    ensures Filled(m, rs, grouped, invSqrt, start, v, start, 0)
  {
  }

  lemma WriteStep(m: seq<seq<real>>, rs: seq<real>, grouped: bool, invSqrt: real -> real,
                  start: nat, v: real, i: nat, j: nat)
    requires NonZero(rs) && Square(m, |rs|) && j < start <= i < |rs|
    requires Filled(m, rs, grouped, invSqrt, start, v, i, j)
    ensures var m1 := m[i := m[i][j := v]];
      var m2 := m1[j := m1[j][i := v]];
      Square(m2, |rs|) && Filled(m2, rs, grouped, invSqrt, start, v, i, j + 1)
  {
    var m1 := m[i := m[i][j := v]];
    var m2 := m1[j := m1[j][i := v]];
    forall a, b | 0 <= a < |rs| && 0 <= b < |rs|
      ensures m2[a][b] == Expected(rs, grouped, invSqrt, start, v, i, j + 1, a, b)
    {
      if !((a == i && b == j) || (a == j && b == i)) {
        assert m2[a][b] == m[a][b];
      }
    }
  }

  lemma RowWritten(m: seq<seq<real>>, rs: seq<real>, grouped: bool, invSqrt: real -> real,
                   start: nat, v: real, i: nat)
    requires NonZero(rs) && Square(m, |rs|) && start <= i < |rs|
    requires Filled(m, rs, grouped, invSqrt, start, v, i, start)
    ensures Filled(m, rs, grouped, invSqrt, start, v, i + 1, 0)
  {
    forall a, b | 0 <= a < |rs| && 0 <= b < |rs|
      ensures m[a][b] == Expected(rs, grouped, invSqrt, start, v, i + 1, 0, a, b)
    {
      assert Expected(rs, grouped, invSqrt, start, v, i, start, a, b)
          == Expected(rs, grouped, invSqrt, start, v, i + 1, 0, a, b);
    }
  }

  lemma BandEnds(m: seq<seq<real>>, rs: seq<real>, grouped: bool, invSqrt: real -> real,
                 start: nat, end: nat, v: real)
    requires NonZero(rs) && Square(m, |rs|) && start < end <= |rs|
    requires forall k :: start <= k < end ==> BandStart(rs, grouped, k) == start && BandEnd(rs, grouped, k) == end
    requires v == invSqrt(Density(rs, end))
    requires Filled(m, rs, grouped, invSqrt, start, v, end, 0)
    ensures BuiltBelow(m, rs, grouped, invSqrt, end)
  {
    forall a, b | 0 <= a < |rs| && 0 <= b < |rs|
      ensures m[a][b] == if (if a < b then b else a) < end then Entry(rs, grouped, invSqrt, a, b)
                         else if a == b then rs[a] else 0.0
    {
      if start <= (if a < b then b else a) < end {
        BandEntry(rs, grouped, invSqrt, start, end, a, b);
      }
    }
  }

  /** An entry whose later layer is in the band `start..end-1`: the radius on
      the diagonal, `0` with another band member, the band's value with an
      earlier layer. */
  lemma BandEntry(rs: seq<real>, grouped: bool, invSqrt: real -> real, start: nat, end: nat, a: nat, b: nat)
    requires NonZero(rs) && start < end <= |rs| && a < |rs| && b < |rs|
    requires forall k :: start <= k < end ==> BandStart(rs, grouped, k) == start && BandEnd(rs, grouped, k) == end
    requires start <= (if a < b then b else a) < end
    ensures Entry(rs, grouped, invSqrt, a, b)
         == if a == b then rs[a] else if (if a < b then a else b) < start then invSqrt(Density(rs, end)) else 0.0
  {
    var hi, lo := if a < b then b else a, if a < b then a else b;
    if a != b {
      BandStartOrder(rs, grouped, lo, hi);
      assert Entry(rs, grouped, invSqrt, a, b) == EntryBody(rs, grouped, invSqrt, a, b);
      assert Entry(rs, grouped, invSqrt, hi, lo) == EntryBody(rs, grouped, invSqrt, hi, lo);
      assert EntryBody(rs, grouped, invSqrt, a, b) == EntryBody(rs, grouped, invSqrt, hi, lo);
    }
  }

  /** The per-pixel matrices of the adaptive strategy: pixel `p` uses the
      layers' local radii at that pixel, one band per layer, so its entry
      `[i][j]` is the local radius of layer `i` when `i == j`, and otherwise
      `1 / sqrt` of the density of layers `0..max(i, j)` at that pixel. */
  function PixelRMatrices(pixelRadii: seq<seq<real>>, invSqrt: real -> real): (ms: seq<seq<seq<real>>>)
    requires forall p :: 0 <= p < |pixelRadii| ==> NonZero(pixelRadii[p])
    ensures |ms| == |pixelRadii|
    ensures forall p :: 0 <= p < |ms| ==> ms[p] == RMatrix(pixelRadii[p], false, invSqrt)
    ensures forall p :: 0 <= p < |ms| ==> |ms[p]| == |pixelRadii[p]|
    ensures forall p, i :: 0 <= p < |ms| && 0 <= i < |ms[p]| ==> |ms[p][i]| == |ms[p]|
    ensures forall p, k :: 0 <= p < |ms| && 0 <= k < |ms[p]| ==> ms[p][k][k] == pixelRadii[p][k]
    ensures forall p, i, j :: 0 <= p < |ms| && 0 <= j < i < |ms[p]| ==>
      ms[p][i][j] == ms[p][j][i] == invSqrt(Density(pixelRadii[p], i + 1))
  {
    var ms := seq(|pixelRadii|, p requires 0 <= p < |pixelRadii| => RMatrix(pixelRadii[p], false, invSqrt));
    forall p | 0 <= p < |ms|
      ensures forall i, j :: 0 <= j < i < |pixelRadii[p]| ==> ms[p][i][j] == invSqrt(Density(pixelRadii[p], i + 1))
    {
      UngroupedRows(pixelRadii[p], invSqrt);
    }
    ms
  }

  /** Every entry below the diagonal of an ungrouped matrix, as in `UngroupedEntries`. */
  lemma UngroupedRows(rs: seq<real>, invSqrt: real -> real)
    requires NonZero(rs)
    ensures forall i, j :: 0 <= j < i < |rs| ==> RMatrix(rs, false, invSqrt)[i][j] == invSqrt(Density(rs, i + 1))
  {
    forall i, j | 0 <= j < i < |rs|
      ensures RMatrix(rs, false, invSqrt)[i][j] == invSqrt(Density(rs, i + 1))
    {
      UngroupedEntries(rs, invSqrt, i, j);
    }
  }

  /** `f` maps positive arguments to positive results, as `x ↦ 1/sqrt(x)` does. */
  ghost predicate PositiveOnPositive(f: real -> real) {
    forall x :: x > 0.0 ==> f(x) > 0.0
  }

  /** Without grouping no entry of the matrix is zero: the diagonal holds
      the radii and every other entry the reciprocal root of a positive
      density. */
  lemma UngroupedNonZero(rs: seq<real>, invSqrt: real -> real)
    requires NonZero(rs) && PositiveOnPositive(invSqrt)
    ensures forall i, j :: 0 <= i < |rs| && 0 <= j < |rs| ==> RMatrix(rs, false, invSqrt)[i][j] != 0.0
  {
    var m := RMatrix(rs, false, invSqrt);
    forall i, j | 0 <= i < |rs| && 0 <= j < |rs|
      ensures m[i][j] != 0.0
    {
      if j < i {
        UngroupedEntries(rs, invSqrt, i, j);
      } else if i < j {
        UngroupedEntries(rs, invSqrt, j, i);
      }
    }
  }

  /** Pixel `p` is read back from the row-major image at `(p % W, p / W)`. */
  lemma PixelIndexRoundTrip(p: nat, w: nat)
    requires w > 0
    ensures (p / w) * w + p % w == p && p % w < w
  {
  }
}

=== FILE: Soft.dfy ===
/** The soft strategy: every point is placed, at the best of a growing
    number of random candidates, where a candidate's score is a sum of
    Gaussian bumps around the already placed points within three sigmas of
    it, read from one 100 × 100 bucket grid per class. */
module Soft {
  import opened MathUtils
  import opened Points
  import opened Layers
  import opened Separation
  import opened Engine
  import Grid

  /** Cells per axis of every class grid. */
  const Cells: nat := 100

  // ------------------------------------------------------------- radii

  /** The radius for `count` points: twice the square root of the packing
      density of a hexagonal packing, `pi * sqrt(3) / 6`, over `pi * count`;
      `pow(x, 1/2)` is the square root. */
  function Radius(count: int, pi: real, sqrt: real -> real): (r: real)
    requires pi != 0.0 && count != 0
  {
    2.0 * sqrt((pi * sqrt(3.0) / 6.0) / (pi * count as real))
  }

  /** Fewer points get a larger radius, when the square root is increasing
      and `pi` positive. */
  lemma RadiusAntitone(a: int, b: int, pi: real, sqrt: real -> real)
    requires 0 < a < b && pi > 0.0 && sqrt(3.0) > 0.0
    requires forall x, y :: 0.0 <= x < y ==> sqrt(x) < sqrt(y)
    ensures Radius(a, pi, sqrt) > Radius(b, pi, sqrt)
  {
    var pd := pi * sqrt(3.0) / 6.0;
    var qa, qb := pd / (pi * a as real), pd / (pi * b as real);
    assert pd > 0.0;
    assert pi * a as real < pi * b as real;
    DivAntitone(pd, pi * a as real, pi * b as real);
    assert 0.0 <= qb < qa;
  }

  lemma DivAntitone(n: real, a: real, b: real)
    requires n > 0.0 && 0.0 < a < b
    ensures 0.0 < n / b < n / a
  {
    assert n / b * b == n;
    assert n / a * a == n;
    assert n / b * a < n / b * b;
  }

  function Radii(counts: seq<int>, pi: real, sqrt: real -> real): (rs: seq<real>)
    requires pi != 0.0 && forall i :: 0 <= i < |counts| ==> counts[i] != 0
    ensures |rs| == |counts| && forall i :: 0 <= i < |counts| ==> rs[i] == Radius(counts[i], pi, sqrt)
  {
    seq(|counts|, i requires 0 <= i < |counts| => Radius(counts[i], pi, sqrt))
  }

  /** `xs` read in the order `order`. */
  function PermuteCounts(xs: seq<int>, order: seq<int>): (r: seq<int>)
    requires forall i :: 0 <= i < |order| ==> 0 <= order[i] < |xs|
    ensures |r| == |order| && forall k :: 0 <= k < |order| ==> r[k] == xs[order[k]]
  {
    seq(|order|, k requires 0 <= k < |order| => xs[order[k]])
  }

  // ------------------------------------------------------------- score

  /** The engine's parameters: the r matrix, the distance mode, the
      candidate multiplier and the exponential. */
  datatype Config = Config(m: seq<seq<real>>, toroidal: bool, candidateMultiplier: int, exp: real -> real)

  /** Sum of `exp(-d / (2 sigma^2))` over the squared distances `ds`. */
  function Kernel(ds: seq<real>, sigma: real, exp: real -> real): (s: real)
    requires sigma != 0.0 || ds == []
    decreases |ds|
  {
    if ds == [] then 0.0 else exp(-ds[0] / (2.0 * sigma * sigma)) + Kernel(ds[1..], sigma, exp)
  }

  /** With a positive exponential the kernel sum is positive exactly when
      some distance was found. */
  lemma {:induction false} KernelSign(ds: seq<real>, sigma: real, exp: real -> real)
    requires sigma != 0.0 || ds == []
    requires forall x :: exp(x) > 0.0
    ensures Kernel(ds, sigma, exp) >= 0.0
    ensures Kernel(ds, sigma, exp) == 0.0 <==> ds == []
    decreases |ds|
  {
    if ds != [] {
      KernelSign(ds[1..], sigma, exp);
      assert exp(-ds[0] / (2.0 * sigma * sigma)) > 0.0;
    }
  }

  /** Sigma for drawing class `c` against class `k`: a quarter of `m[c][k]`. */
  function Sigma(cfg: Config, c: int, k: int): real
    requires 0 <= c < |cfg.m| && 0 <= k < |cfg.m[c]|
  {
    0.25 * cfg.m[c][k]
  }

  /** The squared distances from `cand` to the class-`k` residents within
      three sigmas of it, in the grid's visiting order: the non-appending
      distance query of grid `k`. */
  function Neighbours(cfg: Config, g: Grid.Grid, c: int, k: int, cand: Vec2): (ds: seq<real>)
    requires Grid.Shaped(g) && 0 <= c < |cfg.m| && 0 <= k < |cfg.m[c]|
    ensures forall i :: 0 <= i < |ds| ==> 0.0 <= ds[i] < (3.0 * Sigma(cfg, c, k)) * (3.0 * Sigma(cfg, c, k))
  {
    Grid.GetPointDistancesSq(g, cand.x, cand.y, 3.0 * Sigma(cfg, c, k), cfg.toroidal, [], false)
  }

  /** Every distance the query reports is that of a class-`k` point, taken
      from the candidate, when the grid mirrors the class-`k` points. */
  lemma NeighboursAreClassPoints(cfg: Config, g: Grid.Grid, pts: seq<Point>, c: int, k: int, cand: Vec2)
    requires Grid.Shaped(g) && Grid.Mirrors(g, pts, k) && 0 <= c < |cfg.m| && 0 <= k < |cfg.m[c]|
    ensures Grid.DistancesOfClass(pts, k, cand.x, cand.y, Neighbours(cfg, g, c, k, cand), cfg.toroidal)
  {
    Grid.DistancesOfMirrored(g, pts, k, cand.x, cand.y, 3.0 * Sigma(cfg, c, k), cfg.toroidal);
  }

  /** In clamped mode every class-`k` resident within three sigmas of the
      candidate has its squared distance reported. */
  lemma NeighboursComplete(cfg: Config, g: Grid.Grid, c: int, k: int, cand: Vec2, e: Grid.Entry)
    requires Grid.Shaped(g) && Grid.Consistent(g) && 0 <= c < |cfg.m| && 0 <= k < |cfg.m[c]|
    requires !cfg.toroidal && cfg.m[c][k] >= 0.0
    requires Grid.Stored(g, e) && DistanceSq(cand, Vec2(e.x, e.y)) < (3.0 * Sigma(cfg, c, k)) * (3.0 * Sigma(cfg, c, k))
    ensures DistanceSq(cand, Vec2(e.x, e.y)) in Neighbours(cfg, g, c, k, cand)
  {
    Grid.GetPointDistancesSqComplete(g, cand.x, cand.y, 3.0 * Sigma(cfg, c, k), [], false, e);
  }

  /** A zero sigma queries a zero radius, which reports nothing. */
  lemma ZeroSigmaFindsNothing(cfg: Config, g: Grid.Grid, c: int, k: int, cand: Vec2)
    requires Grid.Shaped(g) && 0 <= c < |cfg.m| && 0 <= k < |cfg.m[c]| && cfg.m[c][k] == 0.0
    ensures Neighbours(cfg, g, c, k, cand) == []
  {
    Grid.ZeroRadiusFindsNothing(g, cand.x, cand.y, 3.0 * Sigma(cfg, c, k), cfg.toroidal);
  }

  /** The neighbour lists of `cand` in the grids of every class, for
      drawing class `c`; a class at zero sigma contributes none. */
  function NeighbourLists(cfg: Config, grids: seq<Grid.Grid>, c: int, cand: Vec2): (dss: seq<seq<real>>)
    requires 0 <= c < |cfg.m| && |cfg.m[c]| == |grids|
    requires forall k :: 0 <= k < |grids| ==> Grid.Shaped(grids[k])
    ensures |dss| == |grids| && forall k :: 0 <= k < |grids| ==> dss[k] == Neighbours(cfg, grids[k], c, k, cand)
    ensures forall k :: 0 <= k < |grids| && cfg.m[c][k] == 0.0 ==> dss[k] == []
  {
    ZeroSigmasFindNothing(cfg, grids, c, cand);
    seq(|grids|, k requires 0 <= k < |grids| => Neighbours(cfg, grids[k], c, k, cand))
  }

  /** No class with a zero sigma contributes a neighbour. */
  lemma ZeroSigmasFindNothing(cfg: Config, grids: seq<Grid.Grid>, c: int, cand: Vec2)
    requires 0 <= c < |cfg.m| && |cfg.m[c]| == |grids|
    requires forall k :: 0 <= k < |grids| ==> Grid.Shaped(grids[k])
    ensures forall k :: 0 <= k < |grids| && cfg.m[c][k] == 0.0 ==> Neighbours(cfg, grids[k], c, k, cand) == []
  {
    forall k | 0 <= k < |grids| && cfg.m[c][k] == 0.0
      ensures Neighbours(cfg, grids[k], c, k, cand) == []
    {
      ZeroSigmaFindsNothing(cfg, grids[k], c, k, cand);
    }
  }

  function Sigmas(cfg: Config, c: int): (r: seq<real>)
    requires 0 <= c < |cfg.m|
    ensures |r| == |cfg.m[c]| && forall k :: 0 <= k < |r| ==> r[k] == Sigma(cfg, c, k)
  {
    seq(|cfg.m[c]|, k requires 0 <= k < |cfg.m[c]| => Sigma(cfg, c, k))
  }

  /** The kernels of all classes added up; a class with zero sigma must
      contribute no distances. */
  function Potential(dss: seq<seq<real>>, sigmas: seq<real>, exp: real -> real): real
    requires |dss| == |sigmas| && forall k :: 0 <= k < |dss| ==> sigmas[k] != 0.0 || dss[k] == []
    decreases |dss|
  {
    if dss == [] then 0.0
    else Kernel(dss[0], sigmas[0], exp) + Potential(dss[1..], sigmas[1..], exp)
  }

  /** With a positive exponential the summed kernels are never negative, and
      zero exactly when every list is empty. */
  lemma {:induction false} PotentialZeroIffEmpty(dss: seq<seq<real>>, sigmas: seq<real>, exp: real -> real)
    requires |dss| == |sigmas| && forall k :: 0 <= k < |dss| ==> sigmas[k] != 0.0 || dss[k] == []
    requires forall x :: exp(x) > 0.0
    ensures Potential(dss, sigmas, exp) >= 0.0
    ensures Potential(dss, sigmas, exp) == 0.0 <==> forall k :: 0 <= k < |dss| ==> dss[k] == []
    decreases |dss|
  {
    if dss != [] {
      PotentialZeroIffEmpty(dss[1..], sigmas[1..], exp);
      KernelSign(dss[0], sigmas[0], exp);
      assert forall k :: 1 <= k < |dss| ==> dss[k] == dss[1..][k - 1];
    }
  }

  /** A candidate's score when drawing class `c`: the Gaussian bumps of the
      residents of every class within three of its sigmas. */
  function Score(cfg: Config, grids: seq<Grid.Grid>, c: int, cand: Vec2): real
    requires 0 <= c < |cfg.m| && |cfg.m[c]| == |grids|
    requires forall k :: 0 <= k < |grids| ==> Grid.Shaped(grids[k])
  {
    Potential(NeighbourLists(cfg, grids, c, cand), Sigmas(cfg, c), cfg.exp)
  }

  /** With a positive exponential the score is never negative, and zero
      exactly when no class's query reports a neighbour. */
  lemma ScoreZeroIffAlone(cfg: Config, grids: seq<Grid.Grid>, c: int, cand: Vec2)
    requires 0 <= c < |cfg.m| && |cfg.m[c]| == |grids|
    requires forall k :: 0 <= k < |grids| ==> Grid.Shaped(grids[k])
    requires forall x :: cfg.exp(x) > 0.0
    ensures Score(cfg, grids, c, cand) >= 0.0
    ensures Score(cfg, grids, c, cand) == 0.0 <==>
      forall k :: 0 <= k < |grids| ==> Neighbours(cfg, grids[k], c, k, cand) == []
  {
    PotentialZeroIffEmpty(NeighbourLists(cfg, grids, c, cand), Sigmas(cfg, c), cfg.exp);
  }

  // ------------------------------------------------------ bounded scores

  /** The exponential is positive and at most one on non-positive
      arguments, the only ones the kernel passes it. */
  ghost predicate ExpBounded(exp: real -> real) {
    forall x :: x <= 0.0 ==> 0.0 < exp(x) <= 1.0
  }

  /** Each distance adds at most one to a kernel sum. */
  lemma {:induction false} KernelAtMostCount(ds: seq<real>, sigma: real, exp: real -> real)
    requires sigma != 0.0 || ds == []
    requires forall i :: 0 <= i < |ds| ==> ds[i] >= 0.0
    requires ExpBounded(exp)
    ensures Kernel(ds, sigma, exp) <= |ds| as real
    decreases |ds|
  {
    if ds != [] {
      KernelAtMostCount(ds[1..], sigma, exp);
      SquarePositive(sigma, 2.0 * sigma * sigma);
      NonPositiveQuotient(-ds[0], 2.0 * sigma * sigma);
    }
  }

  lemma SquarePositive(sigma: real, d: real)
    requires sigma != 0.0 && d == 2.0 * sigma * sigma
    ensures d > 0.0
  {
    if sigma < 0.0 {
      ProductPositive(-2.0 * sigma, -sigma, d);
    } else {
      ProductPositive(2.0 * sigma, sigma, d);
    }
  }

  lemma ProductPositive(x: real, y: real, p: real)
    requires x > 0.0 && y > 0.0 && p == x * y
    ensures p > 0.0
  {
  }

  lemma NonPositiveQuotient(n: real, d: real)
    requires n <= 0.0 && d > 0.0
    ensures n / d <= 0.0
  {
  }

  /** The number of distances in all the lists. */
  function Count(dss: seq<seq<real>>): nat
    decreases |dss|
  {
    if dss == [] then 0 else |dss[0]| + Count(dss[1..])
  }

  lemma {:induction false} PotentialAtMostCount(dss: seq<seq<real>>, sigmas: seq<real>, exp: real -> real)
    requires |dss| == |sigmas| && forall k :: 0 <= k < |dss| ==> sigmas[k] != 0.0 || dss[k] == []
    requires forall k, i :: 0 <= k < |dss| && 0 <= i < |dss[k]| ==> dss[k][i] >= 0.0
    requires ExpBounded(exp)
    ensures Potential(dss, sigmas, exp) <= Count(dss) as real
    decreases |dss|
  {
    if dss != [] {
      KernelAtMostCount(dss[0], sigmas[0], exp);
      assert forall k :: 1 <= k < |dss| ==> dss[k] == dss[1..][k - 1];
      PotentialAtMostCount(dss[1..], sigmas[1..], exp);
    }
  }

  /** The most cells per axis a class grid query for the r-matrix entry `e` spans. */
  function QueryReach(e: real): nat {
    Grid.Reach(3.0 * (0.25 * e), Cells)
  }

  /** Residents a score for r-matrix row `row` can count per resident a
      cell holds: the cells all queries of the row visit together. */
  function RowReach(row: seq<real>): nat
    decreases |row|
  {
    if row == [] then 0 else QueryReach(row[0]) * QueryReach(row[0]) + RowReach(row[1..])
  }

  lemma {:induction false} CountAtMostReach(dss: seq<seq<real>>, row: seq<real>, s: nat)
    requires |dss| == |row|
    requires forall k :: 0 <= k < |dss| ==> |dss[k]| <= QueryReach(row[k]) * (QueryReach(row[k]) * s)
    ensures Count(dss) <= RowReach(row) * s
    decreases |dss|
  {
    if dss != [] {
      var q := QueryReach(row[0]);
      assert forall k :: 1 <= k < |dss| ==> dss[k] == dss[1..][k - 1] && row[k] == row[1..][k - 1];
      CountAtMostReach(dss[1..], row[1..], s);
      SquareTimes(q, RowReach(row[1..]), s);
    }
  }

  lemma SquareTimes(q: nat, rest: nat, s: nat)
    ensures (q * q + rest) * s == q * (q * s) + rest * s
  {
    assert (q * q + rest) * s == (q * q) * s + rest * s;
    assert (q * q) * s == q * (q * s);
  }

  /** Class grids of 100 × 100 cells with at most `s` residents per cell. */
  ghost predicate Sparse(grids: seq<Grid.Grid>, s: nat) {
    forall k :: 0 <= k < |grids| ==>
      Grid.Shaped(grids[k]) && grids[k].cellsX == Cells && grids[k].cellsY == Cells && Grid.CellsWithin(grids[k], s)
  }

  /** With an exponential in (0, 1] on non-positive arguments, a score
      counts each reported neighbour at most once, so with at most `s`
      residents per cell it is at most `RowReach(m[c]) * s`. */
  lemma ScoreAtMost(cfg: Config, grids: seq<Grid.Grid>, c: int, cand: Vec2, s: nat)
    requires 0 <= c < |cfg.m| && |cfg.m[c]| == |grids|
    requires Sparse(grids, s) && ExpBounded(cfg.exp)
    ensures Score(cfg, grids, c, cand) <= (RowReach(cfg.m[c]) * s) as real
  {
    var dss := NeighbourLists(cfg, grids, c, cand);
    ListsAtMostReach(cfg, grids, c, cand, s);
    PotentialAtMostCount(dss, Sigmas(cfg, c), cfg.exp);
    AtMostThrough(Score(cfg, grids, c, cand), Count(dss), RowReach(cfg.m[c]) * s);
  }

  lemma AtMostThrough(x: real, a: int, b: int)
    requires x <= a as real && a <= b
    ensures x <= b as real
  {
  }

  /** On sparse grids the queries of class `c` report at most `RowReach * s` distances. */
  lemma ListsAtMostReach(cfg: Config, grids: seq<Grid.Grid>, c: int, cand: Vec2, s: nat)
    requires 0 <= c < |cfg.m| && |cfg.m[c]| == |grids| && Sparse(grids, s)
    ensures Count(NeighbourLists(cfg, grids, c, cand)) <= RowReach(cfg.m[c]) * s
  {
    var dss := NeighbourLists(cfg, grids, c, cand);
    forall k | 0 <= k < |grids|
      ensures |dss[k]| <= QueryReach(cfg.m[c][k]) * (QueryReach(cfg.m[c][k]) * s)
    {
      NeighboursAtMostReach(cfg, grids[k], c, k, cand, s);
    }
    CountAtMostReach(dss, cfg.m[c], s);
  }

  lemma NeighboursAtMostReach(cfg: Config, g: Grid.Grid, c: int, k: int, cand: Vec2, s: nat)
    requires 0 <= c < |cfg.m| && 0 <= k < |cfg.m[c]|
    requires Grid.Shaped(g) && g.cellsX == Cells && g.cellsY == Cells && Grid.CellsWithin(g, s)
    ensures |Neighbours(cfg, g, c, k, cand)| <= QueryReach(cfg.m[c][k]) * (QueryReach(cfg.m[c][k]) * s)
  {
    Grid.QueryLength(g, cand.x, cand.y, 3.0 * Sigma(cfg, c, k), cfg.toroidal, s);
  }

  // -------------------------------------------------------- best candidate

  /** `b` is the first index of the least score, which is below `FLT_MAX`. */
  ghost predicate FirstBest(scores: seq<real>, b: int) {
    && 0 <= b < |scores| && scores[b] < FltMax
    && (forall j :: 0 <= j < b ==> scores[j] > scores[b])
    && (forall j :: 0 <= j < |scores| ==> scores[j] >= scores[b])
  }

  function BestFrom(scores: seq<real>, i: nat, best: Option<int>): (r: Option<int>)
    requires i <= |scores|
    requires best.None? ==> forall j :: 0 <= j < i ==> scores[j] >= FltMax
    requires best.Some? ==> FirstBest(scores[..i], best.value)
    ensures r.None? ==> forall j :: 0 <= j < |scores| ==> scores[j] >= FltMax
    ensures r.Some? ==> FirstBest(scores, r.value)
    decreases |scores| - i
  {
    if i == |scores| then
      assert scores[..i] == scores;
      best
    else
      var bound := if best.Some? then scores[best.value] else FltMax;
      if scores[i] < bound then
        BestFrom(scores, i + 1, Some(i))
      else
        BestFrom(scores, i + 1, best)
  }

  /** The candidate loop's choice: the first candidate whose score is
      strictly below every earlier one and below `FLT_MAX`; `None` (the
      uninitialised candidate) when there is none. */
  function Best(scores: seq<real>): (r: Option<int>)
    ensures r.None? <==> forall j :: 0 <= j < |scores| ==> scores[j] >= FltMax
    ensures r.Some? ==> FirstBest(scores, r.value)
  {
    BestFrom(scores, 0, None)
  }

  /** The scores of the candidates, in draw order. */
  function Scores(cfg: Config, grids: seq<Grid.Grid>, c: int, cands: seq<Vec2>): (r: seq<real>)
    requires 0 <= c < |cfg.m| && |cfg.m[c]| == |grids|
    requires forall k :: 0 <= k < |grids| ==> Grid.Shaped(grids[k])
    ensures |r| == |cands| && forall j :: 0 <= j < |cands| ==> r[j] == Score(cfg, grids, c, cands[j])
  {
    seq(|cands|, j requires 0 <= j < |cands| => Score(cfg, grids, c, cands[j]))
  }

  /** The first best is unique. */
  lemma FirstBestUnique(scores: seq<real>, a: int, b: int)
    requires FirstBest(scores, a) && FirstBest(scores, b)
    ensures a == b
  {
  }

  // ------------------------------------------------------------- the loop

  /** The state of the point loop: the sorted layers, the points placed so
      far and one bucket grid per layer. */
  datatype Progress = Progress(layers: seq<Layer>, points: seq<Point>, grids: seq<Grid.Grid>)

  /** The r matrix matches the layers, grid `k` holds exactly the class-`k`
      points under their list positions, and no cell holds more residents
      than there are points. */
  ghost predicate Valid(cfg: Config, st: Progress) {
    && Square(cfg.m, |st.layers|)
    && |st.grids| == |st.layers|
    && Sparse(st.grids, |st.points|)
    && (forall k :: 0 <= k < |st.grids| ==> Grid.Mirrors(st.grids[k], st.points, k))
    && ClassesIn(st.points, |st.layers|)
    && CountsMatch(st.layers, st.points)
  }

  /** Every draw can be bucketed: no coordinate reaches 1.0, which would
      select the cell past the grid's last. */
  ghost predicate Bucketable(draws: seq<Vec2>) {
    forall i :: 0 <= i < |draws| ==> InUnitSquare(draws[i])
  }

  /** What one iteration of the point loop does: the point it placed, the
      number of draws it used and the position of the chosen one among them. */
  datatype Placement = Placed(next: Progress, used: nat, pick: nat) | OutOfDraws | PlaceUndefined

  /** Candidates drawn for the next point: one more than the multiplier times
      the points placed so far. */
  function CandidateCount(cfg: Config, st: Progress): int {
    |st.points| * cfg.candidateMultiplier + 1
  }

  /** `r` placed the first best of the `CandidateCount` candidates drawn
      for class `c` in that layer, after the points already placed. */
  ghost predicate Chose(cfg: Config, st: Progress, draws: seq<Vec2>, c: int, r: Placement)
    requires Valid(cfg, st) && 0 <= c < |st.layers|
  {
    && r.Placed?
    && r.used == CandidateCount(cfg, st) && 0 < r.used <= |draws| && r.pick < r.used
    && r.next.layers == Bump(st.layers, c, 1)
    && r.next.points == st.points + [Point(c, draws[r.pick])]
    && FirstBest(Scores(cfg, st.grids, c, draws[..r.used]), r.pick)
  }

  /** `p` appended one point to the valid state `st` after using some of
      the draws, and left the layers' radii, classes and targets alone. */
  ghost predicate Advances(cfg: Config, st: Progress, draws: seq<Vec2>, p: Placement)
    requires p.Placed?
  {
    && Valid(cfg, p.next) && 0 < p.used <= |draws|
    && SameLayers(st.layers, p.next.layers)
    && |p.next.points| == |st.points| + 1 && p.next.points[..|st.points|] == st.points
  }

  /** One iteration: pick the least filled layer, score its candidates, keep
      the first best, and bucket it in that layer's grid. */
  function Place(cfg: Config, st: Progress, draws: seq<Vec2>): (r: Placement)
    requires Valid(cfg, st)
    ensures LeastFilled(LayerFills(st.layers)).None? ==> r.PlaceUndefined?
    ensures CandidateCount(cfg, st) <= 0 ==> r.PlaceUndefined?
    ensures r.OutOfDraws? <==>
      LeastFilled(LayerFills(st.layers)).Some? && CandidateCount(cfg, st) > |draws|
    ensures r.Placed? ==> LeastFilled(LayerFills(st.layers)).Some? && Advances(cfg, st, draws, r)
    ensures r.Placed? ==> Chose(cfg, st, draws, LeastFilled(LayerFills(st.layers)).value, r)
  {
    match LeastFilled(LayerFills(st.layers))
    case None => PlaceUndefined
    case Some(c) =>
      var n := CandidateCount(cfg, st);
      if n <= 0 then PlaceUndefined
      else if n > |draws| then OutOfDraws
      else Pick(cfg, st, draws, c)
  }

  /** The candidates of class `c` scored and the first best placed. The
      source leaves the best candidate unset when no score is below
      `FLT_MAX`, and buckets a coordinate of 1.0 into a cell past the grid:
      both are undefined. */
  function Pick(cfg: Config, st: Progress, draws: seq<Vec2>, c: int): (r: Placement)
    requires Valid(cfg, st) && 0 <= c < |st.layers|
    requires 0 < CandidateCount(cfg, st) <= |draws|
    ensures r.Placed? || r.PlaceUndefined?
    ensures var scores := Scores(cfg, st.grids, c, draws[..CandidateCount(cfg, st)]);
      r.PlaceUndefined? <==>
        (forall j :: 0 <= j < |scores| ==> scores[j] >= FltMax) ||
        (exists b :: FirstBest(scores, b) && !InUnitSquare(draws[b]))
    ensures r.Placed? ==> Advances(cfg, st, draws, r)
    ensures r.Placed? ==> Chose(cfg, st, draws, c, r)
  {
    var n := CandidateCount(cfg, st);
    var scores := Scores(cfg, st.grids, c, draws[..n]);
    match Best(scores)
    case None => PlaceUndefined
    case Some(b) =>
      if !InUnitSquare(draws[b]) then
        PlaceUndefined
      else
        forall b' | FirstBest(scores, b') ensures b' == b {
          FirstBestUnique(scores, b', b);
        }
        var q := Point(c, draws[b]);
        PlaceValid(cfg, st, c, draws[b]);
        var r := Placed(Progress(Bump(st.layers, c, 1), st.points + [q], PlaceInGrid(st, c, draws[b])), n, b);
        assert r.next.points[..|st.points|] == st.points;
        r
  }

  /** The grids after bucketing a class-`c` point at `v` under the next list position. */
  function PlaceInGrid(st: Progress, c: int, v: Vec2): (gs: seq<Grid.Grid>)
    requires 0 <= c < |st.grids| && Grid.Shaped(st.grids[c]) && InUnitSquare(v)
    ensures |gs| == |st.grids| && gs[c] == Grid.AddPoint(st.grids[c], |st.points|, v.x, v.y)
    ensures forall k :: 0 <= k < |gs| && k != c ==> gs[k] == st.grids[k]
  {
    st.grids[c := Grid.AddPoint(st.grids[c], |st.points|, v.x, v.y)]
  }

  /** Placing a point keeps the grids mirroring the list and the counts in step. */
  lemma PlaceValid(cfg: Config, st: Progress, c: int, v: Vec2)
    requires Valid(cfg, st) && 0 <= c < |st.layers| && InUnitSquare(v)
    ensures Valid(cfg, Progress(Bump(st.layers, c, 1), st.points + [Point(c, v)], PlaceInGrid(st, c, v)))
  {
    var gs := PlaceInGrid(st, c, v);
    var pts := st.points + [Point(c, v)];
    forall k | 0 <= k < |gs|
      ensures Grid.Shaped(gs[k]) && gs[k].cellsX == Cells && gs[k].cellsY == Cells
      ensures Grid.CellsWithin(gs[k], |pts|) && Grid.Mirrors(gs[k], pts, k)
    {
      if k == c {
        Grid.AddPointMirrors(st.grids[c], st.points, c, v);
        Grid.AddPointCellsWithin(st.grids[c], |st.points|, v.x, v.y, |st.points|);
      } else {
        Grid.MirrorsPush(st.grids[k], st.points, k, Point(c, v));
      }
    }
    CountsMatchPush(st.layers, st.points, c, v);
  }

  datatype Finish = Finished(final: Progress, exit: Exit) | FinishUndefined

  /** What the point loop promises from `st`: it keeps the points already
      placed, adds none beyond `total`, and reports `Filled` exactly when
      `total` points are there. */
  ghost predicate Extends(st: Progress, total: int, r: Finish) {
    && r.Finished?
    && (r.exit == Filled || r.exit == DrawsExhausted)
    && |st.points| <= |r.final.points| && r.final.points[..|st.points|] == st.points
    && (r.exit == Filled <==> |r.final.points| >= total)
    && |r.final.points| <= Max(total, |st.points|)
    && (r.exit == Filled ==> |r.final.points| == Max(total, |st.points|))
  }

  /** The point loop: places points until `total` are placed. */
  function Run(cfg: Config, st: Progress, total: int, draws: seq<Vec2>): (r: Finish)
    requires Valid(cfg, st)
    ensures r.Finished? ==> Valid(cfg, r.final) && SameLayers(st.layers, r.final.layers)
    ensures r.Finished? ==> Extends(st, total, r)
    decreases |draws|, 1
  {
    if |st.points| >= total then Finished(st, Filled)
    else Continue(cfg, st, total, draws, Place(cfg, st, draws))
  }

  /** The loop after one iteration that produced `p`. */
  function Continue(cfg: Config, st: Progress, total: int, draws: seq<Vec2>, p: Placement): (r: Finish)
    requires Valid(cfg, st) && |st.points| < total
    requires p.Placed? ==> Advances(cfg, st, draws, p)
    ensures r.Finished? ==> Valid(cfg, r.final) && SameLayers(st.layers, r.final.layers)
    ensures r.Finished? ==> Extends(st, total, r)
    decreases |draws|, 0
  {
    match p
    case PlaceUndefined => FinishUndefined
    case OutOfDraws => Finished(st, DrawsExhausted)
    case Placed(next, used, _) =>
      var r := Run(cfg, next, total, draws[used..]);
      if r.Finished? then ExtendsStep(st, next, total, r); r else r
  }

  /** A loop that extends the next state extends the state before one
      more point was appended below `total`. */
  lemma ExtendsStep(st: Progress, next: Progress, total: int, r: Finish)
    requires |st.points| < total
    requires |next.points| == |st.points| + 1 && next.points[..|st.points|] == st.points
    requires Extends(next, total, r)
    ensures Extends(st, total, r)
  {
    assert r.final.points[..|st.points|] == r.final.points[..|next.points|][..|st.points|];
  }

  // --------------------------------------------------------- exact counts

  /** The sum of a list of counts. */
  function CountTotal(xs: seq<int>): int
    decreases |xs|
  {
    if xs == [] then 0 else xs[0] + CountTotal(xs[1..])
  }

  lemma {:induction false} TotalSnoc(xs: seq<int>)
    requires |xs| > 0
    ensures CountTotal(xs) == CountTotal(xs[..|xs| - 1]) + xs[|xs| - 1]
    decreases |xs|
  {
    if |xs| > 1 {
      TotalSnoc(xs[1..]);
      assert xs[1..][..|xs[1..]| - 1] == xs[..|xs| - 1][1..];
    }
  }

  /** Removing one entry removes exactly its value from the sum. */
  lemma {:induction false} TotalErase(xs: seq<int>, j: nat)
    requires j < |xs|
    ensures CountTotal(xs) == xs[j] + CountTotal(Erase(xs, j))
    decreases j
  {
    if j == 0 {
      assert Erase(xs, 0) == xs[1..];
    } else {
      TotalErase(xs[1..], j - 1);
      var e := Erase(xs, j);
      assert e[0] == xs[0] && e[1..] == Erase(xs[1..], j - 1);
    }
  }

  /** Entrywise no larger gives a no larger sum; one strictly smaller entry
      makes it strictly smaller. */
  lemma {:induction false} TotalMonotone(a: seq<int>, b: seq<int>, k: int)
    requires |a| == |b| && forall i :: 0 <= i < |a| ==> a[i] <= b[i]
    ensures CountTotal(a) <= CountTotal(b)
    ensures 0 <= k < |a| && a[k] < b[k] ==> CountTotal(a) < CountTotal(b)
    decreases |a|
  {
    if a != [] {
      TotalMonotone(a[1..], b[1..], k - 1);
    }
  }

  /** Summing counts read through any two orders with the same indices gives the same total. */
  lemma {:induction false} TotalSameIndices(xs: seq<int>, o: seq<int>, p: seq<int>)
    requires forall i :: 0 <= i < |o| ==> 0 <= o[i] < |xs|
    requires forall i :: 0 <= i < |p| ==> 0 <= p[i] < |xs|
    requires multiset(o) == multiset(p)
    ensures CountTotal(PermuteCounts(xs, o)) == CountTotal(PermuteCounts(xs, p))
    decreases |o|
  {
    if o == [] {
      assert |p| == |multiset(p)| == 0;
    } else {
      var x := o[0];
      assert x in multiset(p);
      var j :| 0 <= j < |p| && p[j] == x;
      var p' := Erase(p, j);
      MultisetErase(p, j);
      MultisetTail(o);
      TotalSameIndices(xs, o[1..], p');
      PermuteHead(xs, o);
      TotalErase(PermuteCounts(xs, p), j);
      PermuteErase(xs, p, j);
    }
  }

  lemma MultisetErase(p: seq<int>, j: nat)
    requires j < |p|
    ensures multiset(Erase(p, j)) == multiset(p) - multiset{p[j]}
  {
    assert p == p[..j] + [p[j]] + p[j + 1..];
  }

  lemma MultisetTail(o: seq<int>)
    requires |o| > 0
    ensures multiset(o[1..]) == multiset(o) - multiset{o[0]}
  {
    assert o == [o[0]] + o[1..];
  }

  lemma PermuteHead(xs: seq<int>, o: seq<int>)
    requires |o| > 0 && forall i :: 0 <= i < |o| ==> 0 <= o[i] < |xs|
    ensures CountTotal(PermuteCounts(xs, o)) == xs[o[0]] + CountTotal(PermuteCounts(xs, o[1..]))
  {
    assert PermuteCounts(xs, o)[1..] == PermuteCounts(xs, o[1..]);
  }

  lemma PermuteErase(xs: seq<int>, p: seq<int>, j: nat)
    requires j < |p| && forall i :: 0 <= i < |p| ==> 0 <= p[i] < |xs|
    ensures Erase(PermuteCounts(xs, p), j) == PermuteCounts(xs, Erase(p, j))
  {
  }

  /** The targets read in sorted order add up to the caller's total. */
  lemma PermutedTotal(xs: seq<int>, order: seq<int>)
    requires |order| == |xs| && multiset(order) == multiset(Range(|xs|))
    requires forall i :: 0 <= i < |order| ==> 0 <= order[i] < |xs|
    ensures CountTotal(PermuteCounts(xs, order)) == CountTotal(xs)
  {
    var id := Range(|xs|);
    assert forall i :: 0 <= i < |id| ==> 0 <= id[i] < |xs|;
    TotalSameIndices(xs, order, id);
    PermuteIdentity(xs);
  }

  lemma PermuteIdentity(xs: seq<int>)
    ensures PermuteCounts(xs, Range(|xs|)) == xs
  {
  }

  function Samples(ls: seq<Layer>): (r: seq<int>)
    ensures |r| == |ls| && forall k :: 0 <= k < |ls| ==> r[k] == ls[k].sampleCount
  {
    seq(|ls|, k requires 0 <= k < |ls| => ls[k].sampleCount)
  }

  function Targets(ls: seq<Layer>): (r: seq<int>)
    ensures |r| == |ls| && forall k :: 0 <= k < |ls| ==> r[k] == ls[k].targetCount
  {
    seq(|ls|, k requires 0 <= k < |ls| => ls[k].targetCount)
  }

  /** Counts kept in step add up to the number of points. */
  lemma SamplesTotal(ls: seq<Layer>, pts: seq<Point>)
    requires CountsMatch(ls, pts) && ClassesIn(pts, |ls|)
    ensures CountTotal(Samples(ls)) == |pts|
  {
    SamplesPrefix(ls, pts, |ls|);
    assert Samples(ls)[..|ls|] == Samples(ls);
    CountAllClasses(pts, |ls|);
  }

  lemma {:induction false} SamplesPrefix(ls: seq<Layer>, pts: seq<Point>, n: nat)
    requires n <= |ls| && CountsMatch(ls, pts)
    ensures CountTotal(Samples(ls)[..n]) == SumCounts(pts, n)
  {
    if n > 0 {
      SamplesPrefix(ls, pts, n - 1);
      TotalSnoc(Samples(ls)[..n]);
      assert Samples(ls)[..n][..n - 1] == Samples(ls)[..n - 1];
    }
  }

  /** Every target is positive, no layer is over its target, and the targets
      add up to the loop's total. */
  ghost predicate OnTrack(ls: seq<Layer>, total: int) {
    && (forall k :: 0 <= k < |ls| ==> 0 < ls[k].targetCount && ls[k].sampleCount <= ls[k].targetCount)
    && total == CountTotal(Targets(ls))
  }

  /** While points are missing, the least filled layer is below its target. */
  lemma LeastBelowTarget(ls: seq<Layer>, pts: seq<Point>, total: int)
    requires CountsMatch(ls, pts) && ClassesIn(pts, |ls|) && OnTrack(ls, total) && |pts| < total
    ensures LeastFilled(LayerFills(ls)).Some?
    ensures var c := LeastFilled(LayerFills(ls)).value; ls[c].sampleCount < ls[c].targetCount
  {
    SamplesTotal(ls, pts);
    var k :| 0 <= k < |ls| && ls[k].sampleCount < ls[k].targetCount by {
      if forall k :: 0 <= k < |ls| ==> ls[k].sampleCount >= ls[k].targetCount {
        TotalMonotone(Targets(ls), Samples(ls), -1);
        assert false;
      }
    }
    var fills := LayerFills(ls);
    FillBelowOne(ls[k].sampleCount, ls[k].targetCount);
    assert Eligible(fills[k]);
    var c := LeastFilled(fills).value;
    assert FirstLeast(fills, c, |fills|);
    assert fills[c] == FillOf(ls[c].sampleCount, ls[c].targetCount);
    if k < c {
      assert Less(fills[c], fills[k]);
    } else if c < k {
      assert !Less(fills[k], fills[c]);
    }
    FillCrossMultiply(ls[c].sampleCount, ls[c].targetCount, ls[k].sampleCount, ls[k].targetCount);
    FillCrossMultiply(ls[k].sampleCount, ls[k].targetCount, ls[c].sampleCount, ls[c].targetCount);
    OrderBelowTarget(ls[c].sampleCount, ls[c].targetCount, ls[k].sampleCount, ls[k].targetCount);
  }

  lemma FillBelowOne(s: int, t: int)
    requires 0 < t && s < t
    ensures FillOf(s, t) == Finite(s as real / t as real) && s as real / t as real < 1.0
  {
    assert s as real / t as real * t as real == s as real;
  }

  /** `s1 / t1 <= s2 / t2` and `s2 < t2` give `s1 < t1`. */
  lemma OrderBelowTarget(s1: int, t1: int, s2: int, t2: int)
    requires 0 < t1 && 0 < t2 && s2 < t2 && s1 * t2 <= s2 * t1
    ensures s1 < t1
  {
    if s1 >= t1 {
      MulLe(t1, s1, t2);
      MulLe(s2 + 1, t2, t1);
      assert false;
    }
  }

  /** One placement while points are missing keeps the layers on track:
      it fills a layer that was below its target. */
  lemma PlaceStaysOnTrack(cfg: Config, st: Progress, total: int, draws: seq<Vec2>)
    requires Valid(cfg, st) && OnTrack(st.layers, total) && |st.points| < total
    requires Place(cfg, st, draws).Placed?
    ensures OnTrack(Place(cfg, st, draws).next.layers, total)
  {
    LeastBelowTarget(st.layers, st.points, total);
    var c := LeastFilled(LayerFills(st.layers)).value;
    assert Chose(cfg, st, draws, c, Place(cfg, st, draws));
    BumpStaysOnTrack(st.layers, c, total);
  }

  /** Filling a layer below its target keeps the layers on track. */
  lemma BumpStaysOnTrack(ls: seq<Layer>, c: int, total: int)
    requires OnTrack(ls, total) && 0 <= c < |ls| && ls[c].sampleCount < ls[c].targetCount
    ensures OnTrack(Bump(ls, c, 1), total)
  {
    assert Targets(Bump(ls, c, 1)) == Targets(ls);
  }

  /** The invariant of the exact-count argument survives the loop. */
  lemma {:induction false} RunStaysOnTrack(cfg: Config, st: Progress, total: int, draws: seq<Vec2>)
    requires Valid(cfg, st) && OnTrack(st.layers, total)
    requires Run(cfg, st, total, draws).Finished?
    ensures OnTrack(Run(cfg, st, total, draws).final.layers, total)
    decreases |draws|, 1
  {
    if |st.points| < total {
      var p := Place(cfg, st, draws);
      if p.Placed? {
        PlaceStaysOnTrack(cfg, st, total, draws);
      }
      ContinueStaysOnTrack(cfg, st, total, draws, p);
    }
  }

  lemma {:induction false} ContinueStaysOnTrack(cfg: Config, st: Progress, total: int, draws: seq<Vec2>, p: Placement)
    requires Valid(cfg, st) && OnTrack(st.layers, total) && |st.points| < total
    requires p.Placed? ==> Advances(cfg, st, draws, p) && OnTrack(p.next.layers, total)
    requires Continue(cfg, st, total, draws, p).Finished?
    ensures OnTrack(Continue(cfg, st, total, draws, p).final.layers, total)
    decreases |draws|, 0
  {
    if p.Placed? {
      RunStaysOnTrack(cfg, p.next, total, draws[p.used..]);
    }
  }

  /** A loop that fills up from an on-track start leaves every layer with
      exactly its target count. */
  lemma FilledExactly(cfg: Config, st: Progress, total: int, draws: seq<Vec2>)
    requires Valid(cfg, st) && OnTrack(st.layers, total) && |st.points| <= total
    requires Run(cfg, st, total, draws).Finished? && Run(cfg, st, total, draws).exit == Filled
    ensures var f := Run(cfg, st, total, draws).final;
      forall k :: 0 <= k < |f.layers| ==> CountClass(f.points, k) == f.layers[k].targetCount
  {
    var f := Run(cfg, st, total, draws).final;
    RunStaysOnTrack(cfg, st, total, draws);
    SamplesTotal(f.layers, f.points);
    forall k | 0 <= k < |f.layers|
      ensures CountClass(f.points, k) == f.layers[k].targetCount
    {
      TotalMonotone(Samples(f.layers), Targets(f.layers), k);
    }
  }

  // ------------------------------------------------------------ definedness

  /** Scores of `total` points' residents stay below `FLT_MAX`: for every
      drawing class `c`, `RowReach(m[c])` residents per point do. */
  ghost predicate RoomFor(m: seq<seq<real>>, total: int) {
    forall c :: 0 <= c < |m| ==> (RowReach(m[c]) * total) as real < FltMax
  }

  /** The conditions under which the loop never reaches undefined behaviour:
      a non-negative candidate multiplier, an exponential in (0, 1] on
      non-positive arguments, draws that can all be bucketed, and room
      below `FLT_MAX` for the scores. */
  ghost predicate Defined(cfg: Config, total: int, draws: seq<Vec2>) {
    && cfg.candidateMultiplier >= 0 && ExpBounded(cfg.exp)
    && Bucketable(draws) && RoomFor(cfg.m, total)
  }

  /** While points are missing every candidate scores below `FLT_MAX`. */
  lemma ScoresBelowMax(cfg: Config, st: Progress, c: int, cands: seq<Vec2>, total: int)
    requires Valid(cfg, st) && 0 <= c < |st.layers| && |st.points| < total
    requires ExpBounded(cfg.exp) && RoomFor(cfg.m, total)
    ensures forall j :: 0 <= j < |cands| ==> Scores(cfg, st.grids, c, cands)[j] < FltMax
  {
    forall j | 0 <= j < |cands|
      ensures Score(cfg, st.grids, c, cands[j]) < FltMax
    {
      var reach := RowReach(cfg.m[c]);
      ScoreAtMost(cfg, st.grids, c, cands[j], |st.points|);
      MulLe(|st.points|, total, reach);
      BelowThrough(Score(cfg, st.grids, c, cands[j]), reach * |st.points|, reach * total);
    }
  }

  lemma BelowThrough(x: real, a: int, b: int)
    requires x <= a as real && a <= b && (b as real) < FltMax
    ensures x < FltMax
  {
  }

  /** Under `Defined`, an iteration while points are missing is never undefined. */
  lemma PlaceDefined(cfg: Config, st: Progress, total: int, draws: seq<Vec2>)
    requires Valid(cfg, st) && OnTrack(st.layers, total) && |st.points| < total
    requires Defined(cfg, total, draws)
    ensures !Place(cfg, st, draws).PlaceUndefined?
  {
    LeastBelowTarget(st.layers, st.points, total);
    var c := LeastFilled(LayerFills(st.layers)).value;
    var n := CandidateCount(cfg, st);
    MulLe(0, |st.points|, cfg.candidateMultiplier);
    if n <= |draws| {
      var scores := Scores(cfg, st.grids, c, draws[..n]);
      ScoresBelowMax(cfg, st, c, draws[..n], total);
      assert scores[0] < FltMax;
    }
  }

  /** Under `Defined` the loop from an on-track state always finishes. */
  lemma {:induction false} RunDefined(cfg: Config, st: Progress, total: int, draws: seq<Vec2>)
    requires Valid(cfg, st) && OnTrack(st.layers, total)
    ensures Defined(cfg, total, draws) ==> Run(cfg, st, total, draws).Finished?
    decreases |draws|, 1
  {
    if Defined(cfg, total, draws) && |st.points| < total {
      var p := Place(cfg, st, draws);
      PlaceDefined(cfg, st, total, draws);
      if p.Placed? {
        PlaceStaysOnTrack(cfg, st, total, draws);
      }
      ContinueDefined(cfg, st, total, draws, p);
    }
  }

  lemma {:induction false} ContinueDefined(cfg: Config, st: Progress, total: int, draws: seq<Vec2>, p: Placement)
    requires Valid(cfg, st) && |st.points| < total && Defined(cfg, total, draws) && !p.PlaceUndefined?
    requires p.Placed? ==> Advances(cfg, st, draws, p) && OnTrack(p.next.layers, total)
    ensures Continue(cfg, st, total, draws, p).Finished?
    decreases |draws|, 0
  {
    if p.Placed? {
      var rest := draws[p.used..];
      assert forall i :: 0 <= i < |rest| ==> rest[i] == draws[p.used + i];
      RunDefined(cfg, p.next, total, rest);
    }
  }

  // ----------------------------------------------------------------- make

  /** Positive counts, `pi` and square root give a positive radius. */
  lemma RadiusPositive(count: int, pi: real, sqrt: real -> real)
    requires count > 0 && pi > 0.0 && PositiveOnPositive(sqrt)
    ensures Radius(count, pi, sqrt) > 0.0
  {
    var pd := pi * sqrt(3.0) / 6.0;
    assert pd > 0.0;
    assert pi * count as real > 0.0;
    assert pd / (pi * count as real) > 0.0;
  }

  lemma {:induction false} TotalAtLeastLength(xs: seq<int>)
    requires forall i :: 0 <= i < |xs| ==> xs[i] > 0
    ensures CountTotal(xs) >= |xs|
    decreases |xs|
  {
    if xs != [] {
      TotalAtLeastLength(xs[1..]);
    }
  }

  /** Relabelling through an injective map keeps every class's count. */
  lemma {:induction false} CountRelabelled(pts: seq<Point>, u: seq<Point>, order: seq<int>)
    requires |u| == |pts| && ClassesIn(pts, |order|)
    requires forall n :: 0 <= n < |pts| ==> u[n].classIndex == order[pts[n].classIndex]
    requires forall a, b :: 0 <= a < b < |order| ==> order[a] != order[b]
    ensures forall c :: 0 <= c < |order| ==> CountClass(u, order[c]) == CountClass(pts, c)
    decreases |pts|
  {
    if pts != [] {
      var m := |pts| - 1;
      CountRelabelled(pts[..m], u[..m], order);
      forall c | 0 <= c < |order|
        ensures CountClass(u, order[c]) == CountClass(pts, c)
      {
        var k := pts[m].classIndex;
        assert u[m].classIndex == order[k];
        assert order[k] == order[c] <==> k == c;
      }
    }
  }

  /** With the intended relabelling, every caller class gets exactly the
      count the sorted layer holding it was filled to. */
  lemma UnsortedCounts(counts: seq<int>, order: seq<int>, final: Progress)
    requires |order| == |counts| && multiset(order) == multiset(Range(|counts|))
    requires |final.layers| == |counts| && Origs(final.layers) == order
    requires ClassesIn(final.points, |final.layers|)
    requires forall k :: 0 <= k < |order| ==> 0 <= order[k] < |counts|
    requires forall k :: 0 <= k < |order| ==> CountClass(final.points, k) == counts[order[k]]
    ensures forall i :: 0 <= i < |counts| ==>
      CountClass(Unsort(final.layers, final.points, false).points, i) == counts[i]
  {
    PermutationDistinct(order, |counts|);
    UnsortRestoresCallerClasses(final.layers, final.points);
    var u := Unsort(final.layers, final.points, false).points;
    CountRelabelled(final.points, u, order);
    forall i | 0 <= i < |counts|
      ensures CountClass(u, i) == counts[i]
    {
      assert Range(|counts|)[i] == i;
      assert i in multiset(order);
      var k :| 0 <= k < |order| && order[k] == i;
    }
  }

  /** The loop's inputs and the sort order behind them. */
  datatype Setup = Setup(cfg: Config, start: Progress, order: seq<int>)

  /** `s` starts the loop with no points, the layers of the caller's
      classes in the sort order `s.order`, each aiming at its caller's
      count, and targets adding up to the total count. */
  ghost predicate Prepared(counts: seq<int>, s: Setup) {
    && Valid(s.cfg, s.start) && s.start.points == []
    && OnTrack(s.start.layers, CountTotal(counts))
    && |s.order| == |counts| && multiset(s.order) == multiset(Range(|counts|))
    && (forall k :: 0 <= k < |s.order| ==> 0 <= s.order[k] < |counts|)
    && |s.start.layers| == |counts| && Origs(s.start.layers) == s.order
    && (forall k :: 0 <= k < |counts| ==> s.start.layers[k].targetCount == counts[s.order[k]])
  }

  /** Everything `Make` does before the point loop: radii from the counts,
      layers sorted from largest to smallest radius, the grouped r matrix
      and one empty 100 × 100 grid per layer. */
  function Prepare(counts: seq<int>, toroidal: bool, candidateMultiplier: int, pi: real,
                   sqrt: real -> real, invSqrt: real -> real, exp: real -> real): (s: Setup)
    requires forall i :: 0 <= i < |counts| ==> counts[i] > 0
    requires pi > 0.0 && PositiveOnPositive(sqrt)
    ensures Prepared(counts, s)
    ensures s.start.layers == SortedStart(counts, pi, sqrt)
    ensures s.cfg.m == RMatrix(Layers.Radii(s.start.layers), true, invSqrt)
    ensures s.cfg.toroidal == toroidal && s.cfg.candidateMultiplier == candidateMultiplier && s.cfg.exp == exp
  {
    var ls := SortedStart(counts, pi, sqrt);
    var cfg := Config(RMatrix(Layers.Radii(ls), true, invSqrt), toroidal, candidateMultiplier, exp);
    var st := Progress(ls, [], EmptyGrids(|counts|));
    StartPrepared(counts, cfg, st);
    Setup(cfg, st, Origs(ls))
  }

  /** Sorted start layers, a matching r matrix and empty grids make a
      prepared loop. */
  lemma StartPrepared(counts: seq<int>, cfg: Config, st: Progress)
    requires |st.layers| == |counts| && multiset(Origs(st.layers)) == multiset(Range(|counts|))
    requires forall k :: 0 <= k < |st.layers| ==>
      0 <= st.layers[k].originalIndex < |counts| && st.layers[k].targetCount == counts[st.layers[k].originalIndex]
    requires CountsMatch(st.layers, []) && OnTrack(st.layers, CountTotal(counts))
    requires Square(cfg.m, |st.layers|) && st.points == [] && |st.grids| == |st.layers|
    requires Sparse(st.grids, 0) && forall k :: 0 <= k < |st.grids| ==> Grid.Mirrors(st.grids[k], [], k)
    ensures Prepared(counts, Setup(cfg, st, Origs(st.layers)))
  {
    StartValid(cfg, st);
    StartOrdered(counts, st.layers);
  }

  lemma StartValid(cfg: Config, st: Progress)
    requires Square(cfg.m, |st.layers|) && st.points == [] && |st.grids| == |st.layers|
    requires CountsMatch(st.layers, [])
    requires Sparse(st.grids, 0) && forall k :: 0 <= k < |st.grids| ==> Grid.Mirrors(st.grids[k], [], k)
    ensures Valid(cfg, st)
  {
  }

  lemma StartOrdered(counts: seq<int>, ls: seq<Layer>)
    requires |ls| == |counts|
    requires forall k :: 0 <= k < |ls| ==>
      0 <= ls[k].originalIndex < |counts| && ls[k].targetCount == counts[ls[k].originalIndex]
    ensures forall k :: 0 <= k < |ls| ==> 0 <= Origs(ls)[k] < |counts|
    ensures forall k :: 0 <= k < |counts| ==> ls[k].targetCount == counts[Origs(ls)[k]]
  {
  }

  /** One empty 100 × 100 grid per layer; empty grids mirror the empty list. */
  function EmptyGrids(n: nat): (gs: seq<Grid.Grid>)
    ensures |gs| == n && Sparse(gs, 0) && forall k :: 0 <= k < n ==> Grid.Mirrors(gs[k], [], k)
  {
    seq(n, _ => Grid.Empty(Cells, Cells))
  }

  /** The caller's classes sorted by decreasing radius, each layer aiming at
      its caller's count and holding no samples yet. */
  function SortedStart(counts: seq<int>, pi: real, sqrt: real -> real): (ls: seq<Layer>)
    requires forall i :: 0 <= i < |counts| ==> counts[i] > 0
    requires pi > 0.0 && PositiveOnPositive(sqrt)
    ensures |ls| == |counts| && multiset(Origs(ls)) == multiset(Range(|counts|))
    ensures forall k :: 0 <= k < |ls| ==>
      && 0 <= ls[k].originalIndex < |counts|
      && ls[k].targetCount == counts[ls[k].originalIndex]
      && ls[k].radius == Radius(counts[ls[k].originalIndex], pi, sqrt) && ls[k].radius > 0.0
    ensures forall i, j :: 0 <= i < j < |ls| ==> ls[i].radius >= ls[j].radius
    ensures CountsMatch(ls, []) && OnTrack(ls, CountTotal(counts))
  {
    forall i | 0 <= i < |counts| ensures Radius(counts[i], pi, sqrt) > 0.0 {
      RadiusPositive(counts[i], pi, sqrt);
    }
    var radii := Radii(counts, pi, sqrt);
    var order := SortByKey(radii, |radii|);
    var ls := SortedLayers(radii, order, PermuteCounts(counts, order));
    StartOnTrack(counts, order, ls, CountTotal(counts));
    assert Origs(ls) == order;
    ls
  }

  /** What `Make` promises: caller classes only, never more than the total
      count, `Filled` exactly when all of it was placed, nothing for no
      classes, and, with the intended relabelling, every caller class
      filled to its own count. */
  ghost predicate Delivers(counts: seq<int>, asWritten: bool, r: Generated) {
    && (r.Generated? ==> ClassesIn(r.points, |counts|) && |r.points| <= CountTotal(counts))
    && (r.Generated? ==> r.exit == Filled || r.exit == DrawsExhausted)
    && (r.Generated? ==> (r.exit == Filled <==> |r.points| == CountTotal(counts)))
    && (counts == [] ==> r == Generated([], Filled))
    && (!asWritten && r.Generated? && r.exit == Filled ==>
          forall i :: 0 <= i < |counts| ==> CountClass(r.points, i) == counts[i])
  }

  /** The whole of `Make`, with the relabelling of the unsort step chosen by
      `asWritten`. */
  function Build(counts: seq<int>, toroidal: bool, candidateMultiplier: int, pi: real,
                 sqrt: real -> real, invSqrt: real -> real, exp: real -> real,
                 draws: seq<Vec2>, asWritten: bool): (r: Generated)
    requires forall i :: 0 <= i < |counts| ==> counts[i] > 0
    requires pi > 0.0 && PositiveOnPositive(sqrt)
    ensures Delivers(counts, asWritten, r)
    ensures Safe(counts, candidateMultiplier, pi, sqrt, invSqrt, exp, draws) ==> r.Generated?
  {
    Complete(counts, Prepare(counts, toroidal, candidateMultiplier, pi, sqrt, invSqrt, exp), draws, asWritten)
  }

  /** Conditions on `Make`'s inputs under which it never reaches undefined
      behaviour: those of `Defined`, for the r matrix of the sorted radii. */
  ghost predicate Safe(counts: seq<int>, candidateMultiplier: int, pi: real, sqrt: real -> real,
                       invSqrt: real -> real, exp: real -> real, draws: seq<Vec2>)
    requires forall i :: 0 <= i < |counts| ==> counts[i] > 0
    requires pi > 0.0 && PositiveOnPositive(sqrt)
  {
    && candidateMultiplier >= 0 && ExpBounded(exp) && Bucketable(draws)
    && RoomFor(RMatrix(Layers.Radii(SortedStart(counts, pi, sqrt)), true, invSqrt), CountTotal(counts))
  }

  /** The point loop for the summed counts and the unsort step. */
  function Complete(counts: seq<int>, s: Setup, draws: seq<Vec2>, asWritten: bool): (r: Generated)
    requires forall i :: 0 <= i < |counts| ==> counts[i] > 0
    requires Prepared(counts, s)
    ensures Delivers(counts, asWritten, r)
    ensures Defined(s.cfg, CountTotal(counts), draws) ==> r.Generated?
  {
    var total := CountTotal(counts);
    TotalAtLeastLength(counts);
    RunDefined(s.cfg, s.start, total, draws);
    match Run(s.cfg, s.start, total, draws)
    case FinishUndefined => Undefined
    case Finished(final, exit) =>
      var u := Unsort(final.layers, final.points, asWritten);
      if !asWritten && exit == Filled then
        IntendedCounts(counts, s, draws);
        Generated(u.points, exit)
      else
        Generated(u.points, exit)
  }

  /** A run that fills up, unsorted with the intended relabelling, holds
      exactly the caller's count of every class. */
  lemma IntendedCounts(counts: seq<int>, s: Setup, draws: seq<Vec2>)
    requires forall i :: 0 <= i < |counts| ==> counts[i] > 0
    requires Prepared(counts, s)
    requires var r := Run(s.cfg, s.start, CountTotal(counts), draws); r.Finished? && r.exit == Filled
    ensures var f := Run(s.cfg, s.start, CountTotal(counts), draws).final;
      forall i :: 0 <= i < |counts| ==> CountClass(Unsort(f.layers, f.points, false).points, i) == counts[i]
  {
    var total := CountTotal(counts);
    var f := Run(s.cfg, s.start, total, draws).final;
    TotalAtLeastLength(counts);
    FilledExactly(s.cfg, s.start, total, draws);
    assert Origs(f.layers) == s.order;
    UnsortedCounts(counts, s.order, f);
  }

  lemma StartOnTrack(counts: seq<int>, order: seq<int>, ls: seq<Layer>, total: int)
    requires forall i :: 0 <= i < |counts| ==> counts[i] > 0
    requires |order| == |counts| && multiset(order) == multiset(Range(|counts|))
    requires forall k :: 0 <= k < |order| ==> 0 <= order[k] < |counts|
    requires |ls| == |order| && total == CountTotal(counts)
    requires forall k :: 0 <= k < |ls| ==> ls[k].sampleCount == 0 && ls[k].targetCount == counts[order[k]]
    ensures OnTrack(ls, total)
  {
    PermutedTotal(counts, order);
    assert Targets(ls) == PermuteCounts(counts, order);
  }

  /** `Make` as written: the unsort step relabels with the literal 1. */
  function Make(counts: seq<int>, toroidal: bool, candidateMultiplier: int, pi: real,
                sqrt: real -> real, invSqrt: real -> real, exp: real -> real, draws: seq<Vec2>): (r: Generated)
    requires forall i :: 0 <= i < |counts| ==> counts[i] > 0
    requires pi > 0.0 && PositiveOnPositive(sqrt)
    ensures r.Generated? ==> ClassesIn(r.points, |counts|) && |r.points| <= CountTotal(counts)
    ensures r.Generated? ==> (r.exit == Filled <==> |r.points| == CountTotal(counts))
    ensures Safe(counts, candidateMultiplier, pi, sqrt, invSqrt, exp, draws) ==> r.Generated?
  {
    Build(counts, toroidal, candidateMultiplier, pi, sqrt, invSqrt, exp, draws, true)
  }

  /** `Make` with the intended swap of labels: a run that fills up returns
      exactly `counts[i]` points of every caller class `i`. */
  function MakeIntended(counts: seq<int>, toroidal: bool, candidateMultiplier: int, pi: real,
                        sqrt: real -> real, invSqrt: real -> real, exp: real -> real, draws: seq<Vec2>): (r: Generated)
    requires forall i :: 0 <= i < |counts| ==> counts[i] > 0
    requires pi > 0.0 && PositiveOnPositive(sqrt)
    ensures r.Generated? ==> ClassesIn(r.points, |counts|)
    ensures r.Generated? ==> (r.exit == Filled <==> |r.points| == CountTotal(counts))
    ensures r.Generated? && r.exit == Filled ==>
      forall i :: 0 <= i < |counts| ==> CountClass(r.points, i) == counts[i]
    ensures Safe(counts, candidateMultiplier, pi, sqrt, invSqrt, exp, draws) ==> r.Generated?
  {
    Build(counts, toroidal, candidateMultiplier, pi, sqrt, invSqrt, exp, draws, false)
  }
}
